=== FILE: README.md ===
# Personal finance ledger, budgets and statistics in Dafny

This project models the core of a small personal-finance application. It
covers five parts:

- **Users** register, log in and keep a default monthly budget.
- **Categories** are the twelve preset ones plus each user's own.
- **Transactions** are the ledger entries. Adding, editing or deleting one
  resyncs the cached expense total of the budget of every month the change
  can affect.
- **Budgets** are one row per user and month. Each holds a limit and the
  cached `spent` total.
- **Statistics** give daily, monthly and yearly reports, charts cut from
  those reports, and a month-by-month trend.

The SQLite store is a `Store.Database` object. It has one sequence field per
table and an `online` flag that stands for a reachable store. Each Python
class becomes a Dafny class whose fields are the object's attributes. Each
of its methods is proved equal to a specification function on values:
`Resync`, `SaveSpec`, `AddSpec`, `EditSpec`, `DeleteSpec`, `RegisterSpec`,
`LoginSpec`, `ReportSpec`, `ChartSpec`, `TrendsSpec` and the others. The
properties are lemmas about those functions.

The main results:

- A successful add, edit or delete keeps every budget row keyed by a
  `YYYY-MM` month in sync with the ledger (`Transactions.AddKeepsSync`, `Transactions.EditKeepsSync`,
  `Transactions.DeleteKeepsSync`). This holds for expense dates that are
  a `YYYY-MM` month key, alone or followed by a dash (`DateShaped`), as
  every date `add_transaction` formats is: add needs it of the new entry,
  and edit and delete need it of every stored expense as well (the entry
  they replace or remove among them). Text no format reads breaks the
  sync (below). Each also keeps the schema constraints.
- A budget resync is idempotent and touches only its own row.
- A report's balance is its income total minus its expense total, and
  each total is the sum of that type over the user's rows of the period.
- Reports add up: the per-day or per-month buckets and the per-category
  breakdowns sum to the period totals, and charts run parallel to the
  report they are cut from.
- Login succeeds exactly when a row holds the name and the hash of the
  password.
- Category deletion never leaves a transaction pointing at a missing
  category.

Several quirks of the code are modelled as written:

- The trend loop steps 32 days and then goes back to the first of the
  month. From late in a month this can skip a month: in a year that is not
  a leap year, from 28 January it lands on 1 March.
- A ledger date kept as `YYYY-MM` breaks the monthly chart.
- An expense dated with text no format reads, such as `2023-0501`, is
  stored as written. Its `split('-')` month is `2023-0501`, so the add
  resyncs a new budget of that name, while the existing `2023-05` row,
  whose `LIKE '2023-05%'` sum now includes the entry, goes stale
  (`Transactions.UnshapedDateBreaksSync`). Deleting such an entry later
  resyncs the `2023-0501` budget too, and the `2023-05` row keeps an
  amount the ledger no longer has (`Transactions.DeleteUnshapedBreaksSync`).
- `edit_transaction` does not normalise dates.
- A budget row is never created for a user without a user row.
- The listings do not read `user_id` back, so updating a listed category
  has no effect.

Storage failure is all-or-nothing. When the store is unreachable, every
operation returns the failure value its `except` branch returns and
changes no table; the statistics return `None` or `[]`. Fields an
operation assigns on the object before its first query keep their new
values: `set_budget` sets `monthly_budget` (code/user.py:98),
`add_custom_category` sets the id and `is_custom` (code/category.py:31-32),
`add_transaction` sets the id and the normalised date
(code/transaction.py:35-56), and `save` of a budget without an id sets the
fresh id (code/budget.py:57).

The modules are:

| module | file | contents |
|---|---|---|
| `Text` | text.dfy | `Option`, prefix (`LIKE 'p%'`), text order, `split`, digits |
| `Dates` | dates.dfy | calendar, `timedelta` on days, fixed-width `strftime`/`strptime` |
| `Store` | store.dfy | rows, tables, the database object, sums over the ledger |
| `Sorting` | sorting.dfy | `ORDER BY ... DESC` as insertion sort |
| `Budgets` | budget.dfy | `code/budget.py` |
| `Transactions` | transaction.dfy | `code/transaction.py` |
| `Users` | user.dfy | `code/user.py` |
| `Categories` | category.dfy | `code/category.py` |
| `FinanceStats` | finance_stats.dfy | `code/finance_stats.py` |

## Model

| member | source | states |
|---|---|---|
| Budgets.Init | code/budget.py:14-39 | A new budget object keeps the requested user and month; it is either the given fields or a stored row, and it is the stored row of `(user, month)` whenever one exists and both keys are given |
| Budgets.InitCoherent | code/budget.py:140-151 | `Budget(user_id, month)` (as `get_monthly_budget` builds it) carries an id only if that id belongs to exactly the rows of its `(user, month)` |
| Budgets.InitStoredRow | code/budget.py:14-39 | Loading a stored row gives back exactly that row |
| Budgets.Budget.constructor | code/budget.py:14-24 | The new object is the loaded state of its fields |
| Budgets.Resync | code/budget.py:71-128 | `update_spent` keeps user, month and all non-budget tables. On success `spent` is the month's expense total. Offline it changes nothing. It fails only when a fresh insert is needed and refused |
| Budgets.ResyncSyncs | code/budget.py:71-128 | After a successful resync, every row of the month caches the month's expense total, and the object stays coherent with the rows |
| Budgets.ResyncFrame | code/budget.py:71-128 | A resync leaves rows of other users and months alone, appends only rows of its own `(user, month)`, and never changes any row's keys |
| Budgets.ResyncOnlySpent | code/budget.py:90-112 | With an existing row, a resync writes only `spent`; the limit in the row and in the object is kept |
| Budgets.ResyncCreates | code/budget.py:113-124 | With no budget row but a user row, the object gets the user's default limit and a fresh id. Exactly one row is inserted, unless the id is taken, in which case nothing changes |
| Budgets.ResyncNoUser | code/budget.py:113-124 | With neither a budget row nor a user row, nothing is inserted, yet `spent` is still set |
| Budgets.ResyncIdempotent | code/budget.py:71-128 | Resyncing twice with no ledger change in between: the second call changes neither the object nor the tables |
| Budgets.ResyncKeepsValid | code/budget.py:71-128 | A resync keeps every schema constraint (primary keys and `UNIQUE (user_id, month)`) |
| Budgets.ResyncKeepsKeys | code/budget.py:71-128 | A resync keeps budget ids and `(user_id, month)` pairs distinct |
| Budgets.DropConflicts | code/budget.py:56-64 | `INSERT OR REPLACE` first drops exactly the rows clashing on the id or on `(user, month)`, and keeps keys distinct |
| Budgets.SaveSpec | code/budget.py:41-69 | `save` succeeds exactly when the store answers, touches only the budgets table and changes no table on failure; an object without an id receives the fresh id, also when the store fails |
| Budgets.SaveAfterFailedSave | code/budget.py:41-69 | After a failed save the object keeps its fresh id, so a later save takes the update path: it reports success and stores nothing when no row holds that id |
| Budgets.SaveUpdatesAmount | code/budget.py:47-54 | Saving an object with an id changes only the limit of the row with that id |
| Budgets.SaveInserts | code/budget.py:55-65 | Saving without an id leaves exactly one row for `(user, month)`, holding the object under the fresh id. It keeps every non-clashing row and keeps keys distinct |
| Budgets.Budget.UpdateSpent | code/budget.py:71-128 | The object and the database end as `Resync` says |
| Budgets.Budget.Save | code/budget.py:41-69 | The object and the database end as `SaveSpec` says |
| Budgets.IsOverspentSpec | code/budget.py:130-138 | `is_overspent` resyncs first, ignoring failure; the answer is `spent > amount`, strictly |
| Budgets.OverspentLimit | code/budget.py:130-151 | `Budget(user_id, month).is_overspent()` is true exactly when the month's expenses exceed the row's limit. Without a row the user's default budget is the limit, and without a user 0 is |
| Budgets.Budget.IsOverspent | code/budget.py:130-138 | The answer, the object and the database are those of `IsOverspentSpec` |
| Budgets.Remaining | code/budget.py:185-191 | Remaining budget is negative exactly when overspent and zero exactly when spent equals the limit |
| Budgets.SpentPercentage | code/budget.py:193-201 | 0 for a limit of 0 or less. Otherwise the percentage times the limit is 100 times spent, and it exceeds 100 exactly when overspent |
| Budgets.RowsOf | code/budget.py:163-166 | The `WHERE user_id = ?` selection holds exactly the user's rows and keeps keys distinct |
| Budgets.ListingStates | code/budget.py:153-183 | Each listed object is its row, since a stored row reloads as itself |
| Budgets.SortedRows | code/budget.py:163-166 | The sorted selection holds exactly the user's rows, months strictly descending |
| Budgets.AllBudgetsListing | code/budget.py:153-183 | `get_all_budgets` lists every budget of the user exactly once, as stored, months strictly descending |
| Budgets.AllBudgets | code/budget.py:153-183 | The loop building one object per row returns the listing `AllBudgetsSpec` |
| Transactions.StoredDateShaped | code/transaction.py:37-56 | The stored date is the canonical `%Y-%m-%d %H:%M:%S` text (readable back) unless it was text that no format reads, which is kept as written |
| Transactions.NormalizeDate | code/transaction.py:40-52 | The loop over the three formats stores the first successful parse, reformatted, or the text unchanged: `Dates.Normalize` |
| Dates.ParseFormat | code/transaction.py:47-48 | Round trip: `strptime` with the canonical format reads back what `strftime` wrote |
| Dates.FormatParse | code/transaction.py:47-48 | Round trip the other way: a text the canonical format reads is already canonical |
| Dates.NormalizeIdempotent | code/transaction.py:40-52 | Normalising a date twice gives the same as once |
| Dates.NormalizeCanonical | code/transaction.py:40-52 | A text some format reads is stored canonically, as the date-time it denotes |
| Dates.NormalizeKeepsCanonical | code/transaction.py:40-52 | A canonical text is stored unchanged |
| Dates.NormalizeShaped | code/transaction.py:40-52 | Every normalised date starts `YYYY-MM` followed by the end or a dash, unless the text was kept as written |
| Dates.MonthOf | code/transaction.py:69-72 | `split('-')[0] + '-' + split('-')[1]` is a prefix of the date; None marks the IndexError |
| Dates.MonthOfShaped | code/transaction.py:69-72 | For a shaped date the split month is its first seven characters and the only month key it starts with |
| Dates.FormatDateTimeShaped | code/transaction.py:38-39 | Every date-time the program formats is shaped |
| Text.Split | code/transaction.py:71 | `split` gives at least one piece and no piece holds the separator |
| Text.SplitJoin | code/transaction.py:71 | Joining the pieces of `split` with the separator gives back the text |
| Transactions.AddSpec | code/transaction.py:27-79 | `add_transaction` takes the fresh id and the stored date. It appends exactly one row when the store answers and the id is free. It reports success unless an expense's date has no month, which fails after the insert |
| Transactions.AddResyncPolicy | code/transaction.py:68-74 | A successful add of an expense resyncs its month once; an income resyncs nothing |
| Transactions.ResyncRepairs | code/budget.py:71-128 | Resyncing `(u, m)` repairs that month's rows and disturbs no other budget row or the ledger |
| Transactions.AddKeepsSync | code/transaction.py:27-79 | For a new expense date that is `YYYY-MM` alone or followed by a dash, a successful add leaves every budget row keyed by a `YYYY-MM` month in sync with the ledger (whatever the dates already stored), keeps the schema constraints, and keeps a ledger of such expense dates so |
| Transactions.UnshapedDateBreaksSync | code/transaction.py:40-74 | An expense dated `2023-0501` is added successfully to a ledger whose budgets are in sync, and leaves the `2023-05` budget out of sync |
| Transactions.OldMonth | code/transaction.py:86-92 | The month resynced for the stored entry: found by id alone, an expense with a month, or the IndexError |
| Transactions.UpdateTxOneRow | code/transaction.py:95-104 | The UPDATE changes at most the row with the object's id, and only when it belongs to the object's user |
| Transactions.EditSpec | code/transaction.py:81-120 | `edit_transaction` keeps the object and the other tables. It fails without change when offline, when the old date has no month, or for a missing date. On success a new expense has a text date with a month |
| Transactions.EditResyncPolicy | code/transaction.py:105-115 | A successful edit resyncs the old month exactly when the stored entry was an expense, and the new month exactly when the entry is an expense in another month; no month twice |
| Transactions.EditKeepsSync | code/transaction.py:81-120 | When the new expense date and every stored expense date are `YYYY-MM` alone or followed by a dash, a successful edit leaves every budget row keyed by a `YYYY-MM` month in sync, keeps the schema constraints and keeps expense dates shaped |
| Transactions.DeleteSpec | code/transaction.py:122-150 | `delete_transaction` succeeds exactly when the store answers and the stored entry's month can be read; failure changes nothing |
| Transactions.DeleteEffect | code/transaction.py:136-145 | A successful delete removes exactly the rows matching id and user, and resyncs one month exactly when the deleted entry was an expense |
| Transactions.DeleteLeavesOtherMonths | code/transaction.py:136-140 | Removing the entry changes no expense total except its own month's |
| Transactions.DeleteKeepsSync | code/transaction.py:122-150 | When every stored expense date is `YYYY-MM` alone or followed by a dash, a successful delete leaves every budget row keyed by a `YYYY-MM` month in sync, keeps the schema constraints and keeps expense dates shaped |
| Transactions.DeleteUnshapedBreaksSync | code/transaction.py:128-145 | Deleting an expense stored as `2023-0501` from a ledger whose budgets are in sync succeeds and leaves the `2023-05` budget out of sync |
| Transactions.TransactionById | code/transaction.py:220-251 | The entry found has the requested id whatever its owner; None online means no entry has it |
| Transactions.Selected | code/transaction.py:171-197 | The WHERE clause keeps exactly the rows of the user passing every filter given, bounds inclusive |
| Transactions.TransactionsByUser | code/transaction.py:152-218 | Exactly the user's entries passing every filter, as a permutation of the selection, latest date first; [] offline |
| Sorting.SortDesc | code/transaction.py:198 | `ORDER BY ... DESC` gives a permutation of the rows with keys never increasing |
| Sorting.SortDescKeysDistinct | code/budget.py:165 | Sorting rows with distinct keys puts them in strictly decreasing order |
| Transactions.Search | code/transaction.py:266-284 | `search` returns exactly the user's entries in the date and amount ranges and the category, of either type, latest first |
| Transactions.Transaction.constructor | code/transaction.py:16-25 | The object holds the given fields |
| Transactions.Transaction.Add | code/transaction.py:27-79 | The result, the object and the database are those of `AddSpec` |
| Transactions.Transaction.Edit | code/transaction.py:81-120 | The result and the database are those of `EditSpec`; the object is unchanged |
| Transactions.Transaction.Delete | code/transaction.py:122-150 | The result and the database are those of `DeleteSpec`; the object is unchanged |
| Store.Database.constructor | code/database.py:25-116 | A new store has empty tables and the twelve preset categories, and meets the schema constraints |
| Store.PresetCategoriesShape | code/database.py:92-116 | Twelve presets with distinct ids, none custom or owned, eight expense then four income |
| Store.FindBudget | code/budget.py:29-37 | The lookup by `(user, month)` finds the first such row or proves there is none |
| Store.TotalAppend | code/budget.py:79-86 | The sum over a ledger with one more row grows by that row's contribution |
| Store.RemoveTx | code/transaction.py:136-140 | The DELETE keeps exactly the rows not matching id and user |
| Store.RemoveTxKeepsIds | code/transaction.py:136-140 | Deleting keeps transaction ids distinct |
| Users.RegisterSpec | code/user.py:27-59 | `register` inserts one row with the fresh id and hashed password on success, and changes nothing on failure |
| Users.RegisterRefusesTaken | code/user.py:34-41 | A taken username is refused and nothing is inserted |
| Users.RegisterInserts | code/user.py:43-56 | A free name and a free id give exactly one new row, with the fresh id, the name, the hash and the default budget |
| Users.RegisterKeepsValid | code/user.py:27-59 | Registration keeps user ids and usernames unique |
| Users.LoginSpec | code/user.py:61-89 | A successful login found a row with the name and the password's hash, and copied its id and default budget; a failed one changes nothing |
| Users.LoginSucceedsIff | code/user.py:61-89 | With unique names, login succeeds exactly when some row has the name and the hash of the password |
| Users.RegisterThenLogin | code/user.py:27-89 | After registering, the same name and password log in with the new id. A password with another hash fails |
| Users.SetBudgetSpec | code/user.py:91-107 | `set_budget` assigns the field first, even if the UPDATE then fails, and succeeds exactly when the store answers |
| Users.SetBudgetStores | code/user.py:97-104 | The new default lands in exactly the rows of the object's id; every other field and row is kept and the table stays valid |
| Users.CheckedMonth | code/user.py:120-121 | The month checked is the one given, or the current `YYYY-MM` month |
| Users.CheckOverspendingSpec | code/user.py:109-145 | A store failure reads as "not overspent" |
| Users.OverspendingLimit | code/user.py:123-142 | Overspent means, strictly, above the month's budget row if one exists, and above the object's default budget otherwise |
| Users.OverspendingAgreesWithBudget | code/user.py:109-145 | For a user whose object holds the stored default, `check_overspending` agrees with `Budget(user_id, month).is_overspent()` |
| Users.SetBudgetThenCheck | code/user.py:91-145 | After `set_budget(v)`, a month without a budget row is overspent exactly when its expenses exceed `v` |
| Users.UserById | code/user.py:147-170 | The user found has the requested id with the stored name and budget, and no password. None means offline or no such id |
| Users.RegisterThenById | code/user.py:27-170 | A registered user can be found by the new id |
| Users.User.constructor | code/user.py:15-21 | The object holds the given fields |
| Users.User.Register | code/user.py:27-59 | The result, the object and the database are those of `RegisterSpec` |
| Users.User.Login | code/user.py:61-89 | The result and the object are those of `LoginSpec`; the database is read only |
| Users.User.SetBudget | code/user.py:91-107 | The result, the object and the database are those of `SetBudgetSpec` |
| Users.User.CheckOverspending | code/user.py:109-145 | The answer is `CheckOverspendingSpec` and nothing changes |
| Categories.AddCustomSpec | code/category.py:23-45 | The object takes the fresh id and becomes custom even when the insert fails. On success exactly its row is appended; on failure nothing changes |
| Categories.AddCustomInserts | code/category.py:23-45 | Adding succeeds exactly when the store answers and the id is free, and keeps ids distinct |
| Categories.AddThenById | code/category.py:23-45 | A new category can be read back by its id, custom and owned |
| Categories.Listed | code/category.py:58-76 | A listing holds exactly the objects built from the rows its WHERE clause selects |
| Categories.ListingSpec | code/category.py:47-127 | A listing is [] when the store fails |
| Categories.PresetListing | code/category.py:47-81 | Preset listing: only non-custom rows of the requested type, reported as not custom and unowned, and every such row is listed |
| Categories.AllListing | code/category.py:83-127 | Full listing: with a user, the presets plus that user's own rows of the type; with none, the presets only. Every such row is listed |
| Categories.OtherUsersHidden | code/category.py:96-109 | A category owned by another user is never listed |
| Categories.UpdateSpec | code/category.py:129-149 | `update` succeeds exactly when the object is custom and the store answers; a refusal changes nothing |
| Categories.UpdateOnlyNameAndIcon | code/category.py:140-144 | An update changes only name and icon, only in rows with the object's id and owner, and never a preset row |
| Categories.UpdateListedNoEffect | code/category.py:96-124 | A listed object carries no owner, so updating it reports success and changes nothing |
| Categories.Remove | code/category.py:171-175 | The DELETE keeps exactly the rows without the object's id and owner |
| Categories.DeleteSpec | code/category.py:151-180 | `delete` succeeds exactly when the object is custom, the store answers, and no transaction of anyone uses the category |
| Categories.RemoveKeepsIds | code/category.py:171-175 | Deleting keeps category ids distinct |
| Categories.DeleteRemovesOnlyTarget | code/category.py:151-180 | A delete removes only rows with the object's id and owner, never a preset row, and no other table changes |
| Categories.DeleteKeepsReferences | code/category.py:162-169 | Thanks to the usage check, a delete never leaves a transaction naming a missing category |
| Categories.CategoryById | code/category.py:182-212 | The category found is a stored row with that id, owner included. None means offline or no such id |
| Categories.UpdateByIdReachesRow | code/category.py:129-212 | A custom category read back by id and renamed reads back renamed |
| Categories.Category.constructor | code/category.py:14-21 | The object holds the given fields |
| Categories.Category.AddCustomCategory | code/category.py:23-45 | The result, the object and the database are those of `AddCustomSpec` |
| Categories.Category.Update | code/category.py:129-149 | The result and the database are those of `UpdateSpec` |
| Categories.Category.Delete | code/category.py:151-180 | The result and the database are those of `DeleteSpec` |
| Categories.ListCategories | code/category.py:47-127 | The loop building one object per row returns `ListingSpec` |
| FinanceStats.InScope | code/finance_stats.py:42-45 | `WHERE user_id = ? AND date LIKE 'p%'` keeps exactly the user's rows dated within the period |
| FinanceStats.InScopeSum | code/finance_stats.py:42-55 | Summing one type over the scope gives the scope's `COALESCE(SUM(amount), 0)` |
| FinanceStats.Since | code/finance_stats.py:464-471 | `WHERE date >= start` keeps exactly the user's rows dated at or after the start |
| FinanceStats.GroupedIds | code/finance_stats.py:180-188 | The join and `GROUP BY` give one group per category that some joining row has, ids distinct |
| FinanceStats.GroupedAmounts | code/finance_stats.py:180-188 | Each group sums exactly its category's matching rows; a category without a row reads 0 |
| FinanceStats.GroupedLabelled | code/finance_stats.py:180-188 | Each group carries its category row's name and icon |
| FinanceStats.InsertByAmount | code/finance_stats.py:185 | Inserting into a list ordered by amount descending keeps the order and adds exactly the entry |
| FinanceStats.SortByAmount | code/finance_stats.py:185 | `ORDER BY SUM(t.amount) DESC` gives a permutation of the groups in descending amount order |
| FinanceStats.SortByAmountDistinct | code/finance_stats.py:185 | Sorting keeps category ids distinct |
| FinanceStats.Breakdown | code/finance_stats.py:176-207 | A breakdown is ordered by amount, descending, and is [] on failure |
| FinanceStats.BreakdownSpec | code/finance_stats.py:176-207 | One entry per category some row of the scope joins to. Each entry sums exactly that category's rows and carries the row's name and icon |
| FinanceStats.BreakdownSum | code/finance_stats.py:176-207 | When every row of the scope has its category row, the breakdown adds up to the scope's total |
| FinanceStats.BreakdownEmpty | code/finance_stats.py:176-207 | A scope without rows has an empty breakdown |
| FinanceStats.CategoryStatsOf | code/finance_stats.py:176-273 | The three category-stats helpers give both breakdowns ordered by amount, both empty on failure |
| FinanceStats.AddAmount | code/finance_stats.py:290-298 | Adding to the dictionary entry of a key credits that key alone, creating it if needed, and keeps keys strictly ascending |
| FinanceStats.Buckets | code/finance_stats.py:280-301 | The buckets read back from the dictionary are in strictly ascending key order |
| FinanceStats.FillBuckets | code/finance_stats.py:289-301 | The loop filling the dictionary row by row yields `Buckets` |
| FinanceStats.BucketsKeys | code/finance_stats.py:280-301 | There is one bucket per `SUBSTR(date, 1, width)` key that some row has |
| FinanceStats.BucketsLookup | code/finance_stats.py:280-301 | Each bucket holds the sums of its key's income rows and expense rows; an absent key reads zero |
| FinanceStats.BucketsSum | code/finance_stats.py:280-301 | The income and expense columns of the buckets add up to the rows' totals |
| FinanceStats.BucketsOf | code/finance_stats.py:275-339 | The daily buckets of a month and the monthly buckets of a year are in strictly ascending key order, [] on failure |
| FinanceStats.BucketsOfSpec | code/finance_stats.py:275-339 | The buckets have exactly the keys of the scope's rows, and their columns add up to the scope's income and expense totals |
| FinanceStats.DefaultPeriod | code/finance_stats.py:38-39 | The default period is never empty |
| FinanceStats.DefaultPeriodOfNow | code/finance_stats.py:85-137 | Today, this month or this year are prefixes of the current time as the ledger writes it, 10, 7 or 4 characters long |
| FinanceStats.PeriodOf | code/finance_stats.py:38-39 | The report covers the given period, or the default when none is given |
| FinanceStats.ReportSpec | code/finance_stats.py:27-174 | Each report fails exactly when the store fails; otherwise it covers a non-empty period and its balance is income minus expense |
| FinanceStats.ReportTotals | code/finance_stats.py:27-174 | Each total is the sum of the amounts of that type among the user's rows of the period, 0 when there are none, and the balance is their difference |
| FinanceStats.ReportBucketsAddUp | code/finance_stats.py:74-174 | The buckets of a month or year split its totals, with one bucket per day or month that has a row |
| FinanceStats.ReportCategoriesAddUp | code/finance_stats.py:27-174 | When every row has its category row, both breakdowns add up to the two totals |
| FinanceStats.ReportEmpty | code/finance_stats.py:27-174 | A period without rows reports zeros and empty lists |
| FinanceStats.Statistics.constructor | code/finance_stats.py:16-25 | The new object holds the user and zero totals |
| FinanceStats.Statistics.CalculateDailyStats | code/finance_stats.py:27-72 | Returns `ReportSpec` for the day. The totals are stored on the object on success and kept on failure |
| FinanceStats.Statistics.CalculateMonthlyStats | code/finance_stats.py:74-123 | Returns `ReportSpec` for the month. The totals are stored on the object on success and kept on failure |
| FinanceStats.Statistics.CalculateYearlyStats | code/finance_stats.py:125-174 | Returns `ReportSpec` for the year. The totals are stored on the object on success and kept on failure |
| FinanceStats.Statistics.DailyStatsByMonth | code/finance_stats.py:275-306 | The daily buckets of the month, `BucketsOf` with width 10 |
| FinanceStats.Statistics.MonthlyStatsByYear | code/finance_stats.py:308-339 | The monthly buckets of the year, `BucketsOf` with width 7 |
| FinanceStats.Pie | code/finance_stats.py:357-361 | One slice per breakdown entry, with its name and amount |
| FinanceStats.PieSum | code/finance_stats.py:357-361 | The pie adds up to the breakdown's total |
| FinanceStats.Labels | code/finance_stats.py:380 | The labels exist exactly when every key has the field, and are that field of each key |
| FinanceStats.ScopeOf | code/finance_stats.py:352-446 | Exactly `daily`, `monthly` and `yearly` are chart types |
| FinanceStats.ChartSpec | code/finance_stats.py:341-449 | An unknown type or a failing store gives None; the chart's kind follows the requested type |
| FinanceStats.ChartSeries | code/finance_stats.py:341-449 | A chart is drawn from the same report the statistics call returns for the period |
| FinanceStats.ChartOfSeries | code/finance_stats.py:374-446 | A monthly or yearly chart's labels and series run parallel to the buckets, and its pie lists the expense breakdown. It exists exactly when every key has the label's field |
| FinanceStats.DailyChartShape | code/finance_stats.py:352-373 | The daily chart shows the two totals and the expense pie; with every category present the pie adds up to the expense bar |
| FinanceStats.SplitKeys | code/finance_stats.py:380-417 | Day keys split into year, month, day; month keys into year, month |
| FinanceStats.WrittenDateKeys | code/finance_stats.py:280-313 | Every date the program writes gives a day key and a month key |
| FinanceStats.KeyLabels | code/finance_stats.py:380-417 | With day keys the monthly labels are the days; with month keys the yearly labels are the months |
| FinanceStats.MonthlyChartNeedsDays | code/finance_stats.py:374-410 | The monthly chart exists exactly when every daily bucket key has a day field |
| FinanceStats.ShortDateBreaksMonthlyChart | code/finance_stats.py:374-410 | A ledger date kept as `2023-05` gives a report but no monthly chart |
| Dates.ShiftDays | code/finance_stats.py:462 | `timedelta(days=n)` moves the date's ordinal by exactly `n`, or overflows |
| Dates.ShiftCompose | code/finance_stats.py:462 | Two forward shifts compose into one |
| Dates.StepMonth | code/finance_stats.py:491-492 | One step of the trend loop lands on the first of a month, 2 to 32 days on |
| Dates.StepMonthLands | code/finance_stats.py:491-492 | A step lands on the next month's first, unless 32 days overshoot that month too; from a first of month it never skips |
| Dates.StepMonthSkipsFebruary | code/finance_stats.py:491-492 | From 28 January 2023 the step lands on 1 March |
| FinanceStats.WindowStart | code/finance_stats.py:462 | The window starts exactly `30 * months` days before today |
| FinanceStats.AddZero | code/finance_stats.py:489-490 | Adding a missing month with zeros keeps every existing bucket and adds only that key |
| FinanceStats.Visits | code/finance_stats.py:486-492 | The loop visits dates from the start, all no later than today, and visits none exactly when the start is after today |
| FinanceStats.VisitsWalkMonths | code/finance_stats.py:486-492 | After the first visit the loop walks consecutive firsts of months; with at least one step, the last visit is the first of today's month |
| FinanceStats.FillFrom | code/finance_stats.py:486-492 | The fill keeps every bucket and adds exactly the visited months, in ascending order |
| FinanceStats.TrendsSpec | code/finance_stats.py:451-500 | The trend is in ascending month order, [] on failure |
| FinanceStats.TrendsSpecContents | code/finance_stats.py:451-500 | The trend has a bucket for each month of a row since the start and each visited month. Each bucket sums its month's rows and filled months read zero |
| FinanceStats.TrendsSkipCurrentMonth | code/finance_stats.py:486-492 | On 27 February of a non-leap year a one-month trend over an empty ledger is January alone: the current month is missed |
| FinanceStats.Statistics.GenerateCharts | code/finance_stats.py:341-449 | Returns `ChartSpec`. It stores the report's totals when the type is known and the store answers, and keeps them otherwise |
| FinanceStats.Statistics.GetTrends | code/finance_stats.py:451-500 | Returns `TrendsSpec` for the window before `now` |

## Left out

- The SQLite engine itself, `database.py`'s connection plumbing, `gui.py`, `main.py` and `validate.py` are not part of this model. The store is a set of sequences and every query is a function over them.
- SQL NULL is not told apart from the empty text: a missing (None) id, user, month or date is `""`, as Python's truthiness tests treat both alike. `register` with a None username or password is not modelled separately.
- `LIKE` is modelled as a prefix test. Wildcards inside a period string and SQLite's case folding in `LIKE` are not modelled; dates are digits and dashes.
- Text order is plain code-point order, as SQLite's default collation is; ties in `ORDER BY` are broken by the model's insertion sort, which SQLite does not promise.
- Amounts are integers; the source stores `REAL` and so may round. Percentages are exact reals.
- `strptime` is modelled for zero-padded fixed-width fields only. Python also reads unpadded fields, which the model does not. Microseconds of `datetime.now()` are not modelled.
- The trend loop works on dates; `now` and the start share their time of day, so comparing date-times is comparing dates.
- Failures are all-or-nothing: either the store answers every query or the first one raises. A failure between two writes of one operation is not modelled, and neither is concurrent access.
- Password hashing, `uuid4()` and `datetime.now()` are parameters (`hash`, a fresh id, `now`).
- The `type` column holds only the two kinds the program writes; categories keep the type label text.
- The SQL `GROUP BY` and the dictionary that reads it back are modelled as one fold over the rows (`FinanceStats.Buckets`).
- Chart colours and other fixed presentation fields of `generate_charts` are left out; the labels, series and pie are modelled.
- Foreign keys are not enforced by SQLite unless switched on, and the model does not enforce them either; `Categories.DeleteKeepsReferences` shows the usage check alone keeps them.
- `SearchCriteria` takes its category as an id; passing a category object (read through `hasattr`) is not modelled separately.
- Budget rows keyed by other text (a year such as `2023`, say) are not kept in sync by the program: `update_spent` sums `LIKE '2023%'` for such a row, but an add, edit or delete resyncs only the `YYYY-MM` month of the entry. The sync invariant (`Transactions.AllSynced`) covers only rows whose month is a `YYYY-MM` key.
- Transactions.AddKeepsSync: requires a new expense date that is a `YYYY-MM` month key, alone or followed by a dash; `Transactions.UnshapedDateBreaksSync` shows the sync fails for other text. It covers only budget rows keyed by a `YYYY-MM` month (see the line on other budget keys).
- Transactions.EditKeepsSync: requires a new expense text date of that shape, and every stored expense date too, the replaced entry's among them: the replaced entry's month is read with `split('-')` as delete reads it, the case `Transactions.DeleteUnshapedBreaksSync` shows failing. It covers only budget rows keyed by a `YYYY-MM` month (see the line on other budget keys).
- Transactions.DeleteKeepsSync: requires every stored expense date to be a `YYYY-MM` month key, alone or followed by a dash; `Transactions.DeleteUnshapedBreaksSync` shows the sync fails when the removed entry's date is other text. It covers only budget rows keyed by a `YYYY-MM` month (see the line on other budget keys).
- Users.CheckOverspendingSpec: its own contract states only the failure case; the comparison itself is `Users.OverspendingLimit`.
- Categories.ListingSpec: its own contract states only the failure case; the contents are `Categories.PresetListing` and `Categories.AllListing`.

=== FILE: budget.dfy ===
/** Monthly budgets (`code/budget.py`).

    A `Budget` object caches, for one user and one month `YYYY-MM`, the
    limit `amount` and the amount `spent`. `update_spent` recomputes
    `spent` from the ledger and writes it back, creating the month's budget
    row on demand with the user's default monthly budget as its limit.

    Every state-changing method of the class is specified by a function on
    values (`Init`, `Resync`, `SaveSpec`), and the properties are lemmas
    about those functions. */
module Budgets {
  import opened Text
  import opened Store
  import opened Sorting

  /** The fields of a `Budget` object; "" stands for a missing budget id. */
  datatype BudgetState = BudgetState(budgetId: string, userId: string, month: string, amount: int, spent: int)

  /** The result of an operation: its return value, the object's fields afterwards, the tables afterwards. */
  datatype Outcome = Outcome(ok: bool, budget: BudgetState, tables: Tables)

  function RowOf(b: BudgetState): BudgetRow
  {
    BudgetRow(b.budgetId, b.userId, b.month, b.amount, b.spent)
  }

  function StateOf(row: BudgetRow): BudgetState
  {
    BudgetState(row.budgetId, row.userId, row.month, row.amount, row.spent)
  }

  /** The object has no id yet, or the rows holding its id are exactly the rows of its `(user, month)`. */
  predicate Coherent(b: BudgetState, t: Tables)
  {
    b.budgetId != "" ==>
      forall i :: 0 <= i < |t.budgets| ==>
        (t.budgets[i].budgetId == b.budgetId <==> t.budgets[i].userId == b.userId && t.budgets[i].month == b.month)
  }

  /** Every budget row of `(u, m)` caches the ledger's expense total of that month. */
  predicate Synced(t: Tables, u: string, m: string)
  {
    forall i :: 0 <= i < |t.budgets| && t.budgets[i].userId == u && t.budgets[i].month == m ==>
      t.budgets[i].spent == Total(t.transactions, ExpenseIn(u, m))
  }

  // ---------------------------------------------------------------------
  // Construction and loading
  // ---------------------------------------------------------------------

  /** `Budget(budget_id, user_id, month, amount, spent)`: the given fields,
      overwritten by `_load_budget` from the stored row of `(user_id, month)`
      when both are non-empty and such a row exists. */
  function Init(b: BudgetState, t: Tables): (r: BudgetState)
    ensures r.userId == b.userId && r.month == b.month
    ensures r == b || RowOf(r) in t.budgets
    ensures t.online && b.userId != "" && b.month != "" && FindBudget(t.budgets, b.userId, b.month).Some?
      ==> RowOf(r) in t.budgets
  {
    if t.online && b.userId != "" && b.month != "" then
      match FindBudget(t.budgets, b.userId, b.month)
      case None => b
      case Some(i) =>
        var row := t.budgets[i];
        assert RowOf(b.(budgetId := row.budgetId, amount := row.amount, spent := row.spent)) == row;
        b.(budgetId := row.budgetId, amount := row.amount, spent := row.spent)
    else b
  }

  /** A budget created without an id, as `Budget(user_id=u, month=m)` and
      `get_monthly_budget` create it, is coherent with the tables. */
  lemma InitCoherent(u: string, m: string, t: Tables)
    requires BudgetKeysDistinct(t.budgets)
    ensures Coherent(Init(BudgetState("", u, m, 0, 0), t), t)
  {
    var b := Init(BudgetState("", u, m, 0, 0), t);
    if b.budgetId != "" {
      var k := FindBudget(t.budgets, u, m).value;
      assert forall i :: 0 <= i < |t.budgets| && i != k ==>
        t.budgets[i].budgetId != t.budgets[k].budgetId && !(t.budgets[i].userId == u && t.budgets[i].month == m);
    }
  }

  /** Loading a stored row gives back exactly that row. */
  lemma InitStoredRow(row: BudgetRow, t: Tables)
    requires BudgetKeysDistinct(t.budgets) && row in t.budgets
    ensures Init(StateOf(row), t) == StateOf(row)
  {
    var b := StateOf(row);
    if t.online && b.userId != "" && b.month != "" {
      var k := FindBudget(t.budgets, b.userId, b.month).value;
      var i :| 0 <= i < |t.budgets| && t.budgets[i] == row;
      assert i == k;
    }
  }

  // ---------------------------------------------------------------------
  // update_spent
  // ---------------------------------------------------------------------

  /** `update_spent`: sum the month's expenses into `spent`, then write it to
      the row with the object's id; failing an id, adopt the id of the
      `(user, month)` row; failing a row, give the object the user's default
      budget and a fresh id and insert a row, unless there is no user row.
      The insert fails when the fresh id is already taken (primary key). */
  function Resync(b: BudgetState, t: Tables, freshId: string): (o: Outcome)
    ensures o.budget.userId == b.userId && o.budget.month == b.month
    ensures o.tables.online == t.online && o.tables.users == t.users
    ensures o.tables.categories == t.categories && o.tables.transactions == t.transactions
    ensures o.ok ==> o.budget.spent == Total(t.transactions, ExpenseIn(b.userId, b.month))
    ensures !t.online ==> !o.ok && o == Outcome(false, b, t)
    ensures !o.ok ==> o.tables == t && (t.online ==> b.budgetId == "" && FindBudget(t.budgets, b.userId, b.month).None?)
  {
    if !t.online then Outcome(false, b, t)
    else
      var total := Total(t.transactions, ExpenseIn(b.userId, b.month));
      var b1 := b.(spent := total);
      if b.budgetId != "" then
        Outcome(true, b1, t.(budgets := SetSpentById(t.budgets, b.budgetId, total)))
      else match FindBudget(t.budgets, b.userId, b.month)
        case Some(i) =>
          var id := t.budgets[i].budgetId;
          Outcome(true, b1.(budgetId := id), t.(budgets := SetSpentById(t.budgets, id, total)))
        case None =>
          match FindUser(t.users, b.userId)
          case None => Outcome(true, b1, t)
          case Some(j) =>
            var b2 := b1.(amount := t.users[j].monthlyBudget, budgetId := freshId);
            if BudgetIdUsed(t.budgets, freshId) then Outcome(false, b2, t)
            else Outcome(true, b2, t.(budgets := t.budgets + [RowOf(b2)]))
  }

  /** After a successful resync of a coherent budget, the month's row (if
      any) caches the ledger total, and the object stays coherent. */
  lemma ResyncSyncs(b: BudgetState, t: Tables, freshId: string)
    requires Coherent(b, t) && BudgetKeysDistinct(t.budgets)
    requires Resync(b, t, freshId).ok
    ensures Synced(Resync(b, t, freshId).tables, b.userId, b.month)
    ensures Coherent(Resync(b, t, freshId).budget, Resync(b, t, freshId).tables)
  {
    var o := Resync(b, t, freshId);
    var bs := t.budgets;
    if b.budgetId == "" {
      match FindBudget(bs, b.userId, b.month)
      case Some(k) =>
        assert forall i :: 0 <= i < |bs| && i != k ==>
          bs[i].budgetId != bs[k].budgetId && !(bs[i].userId == b.userId && bs[i].month == b.month);
      case None =>
    }
  }

  /** A resync touches no budget row of another user or month. */
  lemma ResyncFrame(b: BudgetState, t: Tables, freshId: string)
    requires Coherent(b, t) && BudgetKeysDistinct(t.budgets)
    ensures var bs' := Resync(b, t, freshId).tables.budgets;
      && |t.budgets| <= |bs'|
      && (forall i :: 0 <= i < |t.budgets| && !(t.budgets[i].userId == b.userId && t.budgets[i].month == b.month)
            ==> bs'[i] == t.budgets[i])
      && (forall i :: |t.budgets| <= i < |bs'| ==> bs'[i].userId == b.userId && bs'[i].month == b.month)
      && (forall i :: 0 <= i < |t.budgets| ==> bs'[i].userId == t.budgets[i].userId && bs'[i].month == t.budgets[i].month)
  {
    var bs := t.budgets;
    if t.online && b.budgetId == "" {
      match FindBudget(bs, b.userId, b.month)
      case Some(k) =>
      case None =>
    }
  }

  /** On an existing row of a coherent budget, a resync writes only `spent`:
      the limit in the row and in the object is left as it was. */
  lemma ResyncOnlySpent(b: BudgetState, t: Tables, freshId: string)
    requires Coherent(b, t) && BudgetKeysDistinct(t.budgets) && t.online
    requires FindBudget(t.budgets, b.userId, b.month).Some?
    ensures var o := Resync(b, t, freshId);
      var total := Total(t.transactions, ExpenseIn(b.userId, b.month));
      && o.ok && o.budget.amount == b.amount && |o.tables.budgets| == |t.budgets|
      && forall i :: 0 <= i < |t.budgets| ==>
           o.tables.budgets[i] == (if t.budgets[i].userId == b.userId && t.budgets[i].month == b.month
                                   then t.budgets[i].(spent := total) else t.budgets[i])
  {
    var bs := t.budgets;
    var k := FindBudget(bs, b.userId, b.month).value;
    var o := Resync(b, t, freshId);
    assert forall i :: 0 <= i < |bs| && i != k ==>
      !(bs[i].userId == b.userId && bs[i].month == b.month) && bs[i].budgetId != bs[k].budgetId;
  }

  /** With no row but a user row, a resync gives the object the user's
      default limit and inserts one row holding it and the total, unless the
      fresh id is taken, in which case it fails and the tables are unchanged. */
  lemma ResyncCreates(b: BudgetState, t: Tables, freshId: string)
    requires t.online && b.budgetId == ""
    requires FindBudget(t.budgets, b.userId, b.month).None? && FindUser(t.users, b.userId).Some?
    ensures var o := Resync(b, t, freshId);
      var limit := t.users[FindUser(t.users, b.userId).value].monthlyBudget;
      var total := Total(t.transactions, ExpenseIn(b.userId, b.month));
      && o.budget == BudgetState(freshId, b.userId, b.month, limit, total)
      && (!BudgetIdUsed(t.budgets, freshId) ==>
            o.ok && o.tables.budgets == t.budgets + [BudgetRow(freshId, b.userId, b.month, limit, total)])
      && (BudgetIdUsed(t.budgets, freshId) ==> !o.ok && o.tables == t)
  {
  }

  /** With neither a budget row nor a user row, nothing is inserted, but the
      object's `spent` is still set. */
  lemma ResyncNoUser(b: BudgetState, t: Tables, freshId: string)
    requires t.online && b.budgetId == ""
    requires FindBudget(t.budgets, b.userId, b.month).None? && FindUser(t.users, b.userId).None?
    ensures var o := Resync(b, t, freshId);
      o.ok && o.tables == t && o.budget == b.(spent := Total(t.transactions, ExpenseIn(b.userId, b.month)))
  {
  }

  /** Two resyncs in a row, with no ledger change between them: the second
      changes neither the object nor the tables. */
  lemma ResyncIdempotent(b: BudgetState, t: Tables, freshId: string, freshId2: string)
    requires Resync(b, t, freshId).ok
    ensures var o := Resync(b, t, freshId);
      Resync(o.budget, o.tables, freshId2) == Outcome(true, o.budget, o.tables)
  {
    if b.budgetId == "" && FindBudget(t.budgets, b.userId, b.month).None? {
      ResyncAgainAfterInsert(b, t, freshId, freshId2);
    } else {
      ResyncAgainAfterUpdate(b, t, freshId, freshId2);
    }
  }

  lemma ResyncAgainAfterInsert(b: BudgetState, t: Tables, freshId: string, freshId2: string)
    requires Resync(b, t, freshId).ok
    requires b.budgetId == "" && FindBudget(t.budgets, b.userId, b.month).None?
    ensures var o := Resync(b, t, freshId);
      Resync(o.budget, o.tables, freshId2) == Outcome(true, o.budget, o.tables)
  {
    var o := Resync(b, t, freshId);
    var total := o.budget.spent;
    var bs, bs' := t.budgets, o.tables.budgets;
    var id := o.budget.budgetId;
    if FindUser(t.users, b.userId).Some? {
      // the row was inserted under the fresh id, which no other row holds
      assert bs' == bs + [RowOf(o.budget)];
      assert forall i :: 0 <= i < |bs| ==> bs[i].budgetId != id;
      if id == "" {
        assert forall j :: 0 <= j < |bs| ==> bs'[j] == bs[j];
        assert bs'[|bs|].userId == b.userId && bs'[|bs|].month == b.month;
        assert FindBudget(bs', b.userId, b.month) == Some(|bs|);
      }
      SetSpentUnchanged(bs', id, total);
    }
  }

  lemma ResyncAgainAfterUpdate(b: BudgetState, t: Tables, freshId: string, freshId2: string)
    requires Resync(b, t, freshId).ok
    requires !(b.budgetId == "" && FindBudget(t.budgets, b.userId, b.month).None?)
    ensures var o := Resync(b, t, freshId);
      Resync(o.budget, o.tables, freshId2) == Outcome(true, o.budget, o.tables)
  {
    var o := Resync(b, t, freshId);
    var id, total := o.budget.budgetId, o.budget.spent;
    var bs' := SetSpentById(t.budgets, id, total);
    assert o.tables == t.(budgets := bs');
    // the rows holding the id already hold the total
    SetSpentUnchanged(bs', id, total);
    if id == "" {
      FindBudgetSameKeys(t.budgets, bs', b.userId, b.month);
    }
  }

  /** Rows with the same keys in the same order find the same row. */
  lemma FindBudgetSameKeys(bs: seq<BudgetRow>, bs': seq<BudgetRow>, u: string, m: string)
    requires |bs| == |bs'|
    requires forall i :: 0 <= i < |bs| ==> bs'[i].userId == bs[i].userId && bs'[i].month == bs[i].month
    ensures FindBudget(bs', u, m) == FindBudget(bs, u, m)
  {
    var f, f' := FindBudget(bs, u, m), FindBudget(bs', u, m);
    if f.Some? {
      assert bs'[f.value].userId == u && bs'[f.value].month == m;
    }
    if f'.Some? {
      assert bs[f'.value].userId == u && bs[f'.value].month == m;
    }
  }

  /** Writing a value that the rows with the id already hold changes nothing. */
  lemma SetSpentUnchanged(bs: seq<BudgetRow>, id: string, v: int)
    requires forall i :: 0 <= i < |bs| && bs[i].budgetId == id ==> bs[i].spent == v
    ensures SetSpentById(bs, id, v) == bs
  {
    assert forall i :: 0 <= i < |bs| ==> SetSpentById(bs, id, v)[i] == bs[i];
  }

  /** A resync keeps the schema constraints. */
  lemma ResyncKeepsValid(b: BudgetState, t: Tables, freshId: string)
    requires Valid(t)
    ensures Valid(Resync(b, t, freshId).tables)
  {
    ResyncKeepsKeys(b, t, freshId);
  }

  /** A resync keeps budget ids and `(user_id, month)` pairs distinct. */
  lemma ResyncKeepsKeys(b: BudgetState, t: Tables, freshId: string)
    requires BudgetKeysDistinct(t.budgets)
    ensures BudgetKeysDistinct(Resync(b, t, freshId).tables.budgets)
  {
    var o := Resync(b, t, freshId);
    var bs, bs' := t.budgets, o.tables.budgets;
    if |bs'| == |bs| {
      assert forall i :: 0 <= i < |bs| ==>
        bs'[i].budgetId == bs[i].budgetId && bs'[i].userId == bs[i].userId && bs'[i].month == bs[i].month;
    } else {
      assert bs' == bs + [RowOf(o.budget)];
      assert !BudgetIdUsed(bs, freshId);
    }
  }

  // ---------------------------------------------------------------------
  // save
  // ---------------------------------------------------------------------

  /** Whether `INSERT OR REPLACE` of a row with id `id` for `(u, m)` replaces `row`. */
  predicate Conflicts(row: BudgetRow, id: string, u: string, m: string)
  {
    row.budgetId == id || (row.userId == u && row.month == m)
  }

  /** Appending to a selection of earlier rows keeps the keys distinct. */
  lemma KeysDistinctAppend(rest: seq<BudgetRow>, init: seq<BudgetRow>, last: BudgetRow)
    requires forall x :: x in rest ==> x in init
    ensures BudgetKeysDistinct(init + [last]) && BudgetKeysDistinct(rest) ==> BudgetKeysDistinct(rest + [last])
  {
    if BudgetKeysDistinct(init + [last]) && BudgetKeysDistinct(rest) {
      var all := init + [last];
      forall x | x in rest ensures x.budgetId != last.budgetId && (x.userId != last.userId || x.month != last.month) {
        var k :| 0 <= k < |init| && init[k] == x;
        assert all[k] == x && all[|init|] == last;
      }
    }
  }

  /** The rows `INSERT OR REPLACE` keeps before appending the new row. */
  function DropConflicts(bs: seq<BudgetRow>, id: string, u: string, m: string): (r: seq<BudgetRow>)
    ensures forall x :: x in r <==> x in bs && !Conflicts(x, id, u, m)
    ensures BudgetKeysDistinct(bs) ==> BudgetKeysDistinct(r)
    decreases |bs|
  {
    if bs == [] then []
    else
      var last := bs[|bs| - 1];
      var rest := DropConflicts(bs[..|bs| - 1], id, u, m);
      assert bs == bs[..|bs| - 1] + [last];
      if Conflicts(last, id, u, m) then rest
      else
        KeysDistinctAppend(rest, bs[..|bs| - 1], last);
        rest + [last]
  }

  /** `save`: with an id, write the object's limit to that row; without one,
      give the object a fresh id (before the query, so the id sticks even
      when the store fails) and store it with `INSERT OR REPLACE`, which
      first deletes every row clashing on the id or on `(user, month)`. */
  function SaveSpec(b: BudgetState, t: Tables, freshId: string): (o: Outcome)
    ensures o.tables.online == t.online && o.tables.users == t.users
    ensures o.tables.categories == t.categories && o.tables.transactions == t.transactions
    ensures o.ok == t.online
    ensures !t.online ==> !o.ok && o.tables == t
    ensures o.budget == (if b.budgetId == "" then b.(budgetId := freshId) else b)
  {
    if b.budgetId != "" then
      if !t.online then Outcome(false, b, t)
      else Outcome(true, b, t.(budgets := SetAmountById(t.budgets, b.budgetId, b.amount)))
    else
      var b1 := b.(budgetId := freshId);
      if !t.online then Outcome(false, b1, t)
      else Outcome(true, b1, t.(budgets := DropConflicts(t.budgets, freshId, b.userId, b.month) + [RowOf(b1)]))
  }

  /** A save that failed with the store down still gave the object its fresh
      id, so saving it again once the store answers takes the UPDATE branch:
      it reports success, yet when no row holds that id nothing is stored. */
  lemma SaveAfterFailedSave(b: BudgetState, down: Tables, t: Tables, freshId: string, freshId2: string)
    requires !down.online && t.online && b.budgetId == "" && freshId != ""
    requires !BudgetIdUsed(t.budgets, freshId)
    ensures var first := SaveSpec(b, down, freshId);
      var second := SaveSpec(first.budget, t, freshId2);
      && !first.ok && first.budget.budgetId == freshId
      && second.ok && second.tables == t
  {
    var first := SaveSpec(b, down, freshId);
    var bs' := SetAmountById(t.budgets, freshId, b.amount);
    forall i | 0 <= i < |t.budgets| ensures bs'[i] == t.budgets[i] {
      assert t.budgets[i].budgetId != freshId;
    }
    assert bs' == t.budgets;
  }

  /** Saving a budget that has an id changes only the limit of the row with that id. */
  lemma SaveUpdatesAmount(b: BudgetState, t: Tables, freshId: string)
    requires t.online && b.budgetId != ""
    ensures var bs' := SaveSpec(b, t, freshId).tables.budgets;
      && |bs'| == |t.budgets|
      && forall i :: 0 <= i < |t.budgets| ==>
           bs'[i] == (if t.budgets[i].budgetId == b.budgetId then t.budgets[i].(amount := b.amount) else t.budgets[i])
  {
  }

  /** Saving a budget without an id leaves exactly one row for its
      `(user, month)`, holding its limit and spent amount under the fresh id,
      keeps every row that does not clash, and keeps the keys distinct. */
  lemma SaveInserts(b: BudgetState, t: Tables, freshId: string)
    requires t.online && b.budgetId == ""
    ensures var o := SaveSpec(b, t, freshId);
      var bs' := o.tables.budgets;
      && bs'[|bs'| - 1] == BudgetRow(freshId, b.userId, b.month, b.amount, b.spent)
      && (forall i :: 0 <= i < |bs'| - 1 ==> !(bs'[i].userId == b.userId && bs'[i].month == b.month))
      && (forall x :: x in t.budgets && !Conflicts(x, freshId, b.userId, b.month) ==> x in bs')
      && (BudgetKeysDistinct(t.budgets) ==> BudgetKeysDistinct(bs'))
  {
    var o := SaveSpec(b, t, freshId);
    var kept := DropConflicts(t.budgets, freshId, b.userId, b.month);
    assert o.tables.budgets == kept + [RowOf(o.budget)];
    forall i | 0 <= i < |kept| ensures !Conflicts(kept[i], freshId, b.userId, b.month) {
      assert kept[i] in kept;
    }
  }

  // ---------------------------------------------------------------------
  // is_overspent, get_remaining, get_spent_percentage
  // ---------------------------------------------------------------------

  /** `is_overspent`: resync (ignoring whether it succeeded), then compare strictly. */
  function IsOverspentSpec(b: BudgetState, t: Tables, freshId: string): (r: (bool, Outcome))
    ensures r.1 == Resync(b, t, freshId)
    ensures r.0 <==> r.1.budget.spent > r.1.budget.amount
  {
    var o := Resync(b, t, freshId);
    (o.budget.spent > o.budget.amount, o)
  }

  /** For `Budget(user_id=u, month=m).is_overspent()`: the month's expenses
      exceed the stored row's limit, or without a row the user's default
      budget, or without a user 0. */
  lemma OverspentLimit(u: string, m: string, t: Tables, freshId: string)
    requires t.online && BudgetKeysDistinct(t.budgets) && u != "" && m != ""
    ensures var b := Init(BudgetState("", u, m, 0, 0), t);
      var limit := match FindBudget(t.budgets, u, m)
        case Some(i) => t.budgets[i].amount
        case None => (match FindUser(t.users, u) case Some(j) => t.users[j].monthlyBudget case None => 0);
      IsOverspentSpec(b, t, freshId).0 <==> Total(t.transactions, ExpenseIn(u, m)) > limit
  {
    var b := Init(BudgetState("", u, m, 0, 0), t);
    InitCoherent(u, m, t);
    match FindBudget(t.budgets, u, m)
    case Some(i) =>
      ResyncOnlySpent(b, t, freshId);
    case None =>
  }

  /** `get_remaining`; negative exactly when overspent. */
  function Remaining(b: BudgetState): (r: int)
    ensures r < 0 <==> b.spent > b.amount
    ensures r == 0 <==> b.spent == b.amount
  {
    b.amount - b.spent
  }

  /** `get_spent_percentage`: 0 for a limit of 0 or less, otherwise spent as a
      percentage of the limit; above 100 exactly when overspent. */
  function SpentPercentage(b: BudgetState): (r: real)
    ensures b.amount <= 0 ==> r == 0.0
    ensures b.amount > 0 ==> r * (b.amount as real) == (b.spent as real) * 100.0
    ensures b.amount > 0 ==> (r > 100.0 <==> b.spent > b.amount)
    ensures b.amount > 0 && b.spent >= 0 ==> r >= 0.0
  {
    if b.amount <= 0 then 0.0
    else
      var r := (b.spent as real / b.amount as real) * 100.0;
      PercentageScale(b.spent as real, b.amount as real, r);
      r
  }

  lemma PercentageScale(s: real, a: real, r: real)
    requires a > 0.0 && r == (s / a) * 100.0
    ensures r * a == s * 100.0
    ensures r > 100.0 <==> s > a
    ensures s >= 0.0 ==> r >= 0.0
  {
    assert r * a == (s / a) * a * 100.0;
    assert (s / a) * a == s;
    if r > 100.0 {
      assert s * 100.0 == r * a > 100.0 * a;
    }
    if s > a {
      assert r * a == s * 100.0 > a * 100.0;
    }
  }

  // ---------------------------------------------------------------------
  // get_all_budgets
  // ---------------------------------------------------------------------

  function BudgetMonth(row: BudgetRow): string
  {
    row.month
  }

  /** The budget rows of one user, in table order. */
  function RowsOf(bs: seq<BudgetRow>, u: string): (r: seq<BudgetRow>)
    ensures forall x :: x in r <==> x in bs && x.userId == u
    ensures BudgetKeysDistinct(bs) ==> BudgetKeysDistinct(r)
    decreases |bs|
  {
    if bs == [] then []
    else
      var last := bs[|bs| - 1];
      var rest := RowsOf(bs[..|bs| - 1], u);
      assert bs == bs[..|bs| - 1] + [last];
      if last.userId == u then
        KeysDistinctAppend(rest, bs[..|bs| - 1], last);
        rest + [last]
      else rest
  }

  /** `SELECT ... FROM budgets WHERE user_id = u ORDER BY month DESC`. */
  function UserRowsByMonthDesc(t: Tables, u: string): seq<BudgetRow>
  {
    SortDesc(RowsOf(t.budgets, u), BudgetMonth)
  }

  /** What `get_all_budgets(u)` returns: a budget object per row, each
      constructed with the row's fields (and so reloaded); [] on failure. */
  function AllBudgetsSpec(t: Tables, u: string): seq<BudgetState>
  {
    if !t.online then []
    else
      var rows := UserRowsByMonthDesc(t, u);
      seq(|rows|, i requires 0 <= i < |rows| => Init(StateOf(rows[i]), t))
  }

  /** Each listed budget is its row, since a stored row reloads as itself. */
  lemma ListingStates(t: Tables, u: string)
    requires t.online && BudgetKeysDistinct(t.budgets)
    ensures var rows := UserRowsByMonthDesc(t, u);
      |AllBudgetsSpec(t, u)| == |rows|
      && forall i :: 0 <= i < |rows| ==> AllBudgetsSpec(t, u)[i] == StateOf(rows[i])
  {
    var rows := UserRowsByMonthDesc(t, u);
    SortedRows(t, u);
    forall i | 0 <= i < |rows| ensures AllBudgetsSpec(t, u)[i] == StateOf(rows[i]) {
      assert rows[i] in rows;
      InitStoredRow(rows[i], t);
    }
  }

  /** The sorted rows are the user's rows, with months strictly descending. */
  lemma SortedRows(t: Tables, u: string)
    requires BudgetKeysDistinct(t.budgets)
    ensures var rows := UserRowsByMonthDesc(t, u);
      && (forall x :: x in rows <==> x in t.budgets && x.userId == u)
      && (forall i, j :: 0 <= i < j < |rows| ==> LexLt(rows[j].month, rows[i].month))
  {
    var mine := RowsOf(t.budgets, u);
    var rows := UserRowsByMonthDesc(t, u);
    forall x ensures x in rows <==> x in mine {
      assert x in rows <==> x in multiset(rows);
      assert x in mine <==> x in multiset(mine);
    }
    assert KeysDistinct(mine, BudgetMonth) by {
      forall i, j | 0 <= i < j < |mine| ensures mine[i].month != mine[j].month {
        assert mine[i] in mine && mine[j] in mine;
      }
    }
    SortDescKeysDistinct(mine, BudgetMonth);
  }

  /** The listing holds every budget of the user exactly once, as stored,
      with months strictly descending. */
  lemma AllBudgetsListing(t: Tables, u: string)
    requires t.online && BudgetKeysDistinct(t.budgets)
    ensures var r := AllBudgetsSpec(t, u);
      && (forall x :: x in r <==> RowOf(x) in t.budgets && x.userId == u)
      && (forall i, j :: 0 <= i < j < |r| ==> LexLt(r[j].month, r[i].month))
  {
    ListingStates(t, u);
    SortedRows(t, u);
    ListingMembers(AllBudgetsSpec(t, u), UserRowsByMonthDesc(t, u), t.budgets, u);
    ListingOrder(t, u);
  }

  lemma ListingMembers(r: seq<BudgetState>, rows: seq<BudgetRow>, bs: seq<BudgetRow>, u: string)
    requires |r| == |rows| && forall i :: 0 <= i < |rows| ==> r[i] == StateOf(rows[i])
    requires forall x :: x in rows <==> x in bs && x.userId == u
    ensures forall x :: x in r <==> RowOf(x) in bs && x.userId == u
  {
    forall x | x in r ensures RowOf(x) in bs && x.userId == u {
      var i :| 0 <= i < |r| && r[i] == x;
      assert RowOf(x) == rows[i];
    }
    forall x | RowOf(x) in bs && x.userId == u ensures x in r {
      var i :| 0 <= i < |rows| && rows[i] == RowOf(x);
      assert r[i] == x;
    }
  }

  lemma ListingOrder(t: Tables, u: string)
    requires var rows := UserRowsByMonthDesc(t, u);
      && |AllBudgetsSpec(t, u)| == |rows|
      && (forall i :: 0 <= i < |rows| ==> AllBudgetsSpec(t, u)[i] == StateOf(rows[i]))
      && (forall i, j :: 0 <= i < j < |rows| ==> LexLt(rows[j].month, rows[i].month))
    ensures var r := AllBudgetsSpec(t, u);
      forall i, j :: 0 <= i < j < |r| ==> LexLt(r[j].month, r[i].month)
  {
    var rows := UserRowsByMonthDesc(t, u);
    var r := AllBudgetsSpec(t, u);
    forall i, j | 0 <= i < j < |r| ensures LexLt(r[j].month, r[i].month) {
      assert r[i].month == rows[i].month && r[j].month == rows[j].month;
    }
  }

  // ---------------------------------------------------------------------
  // The Budget object
  // ---------------------------------------------------------------------

  class Budget {
    var budgetId: string
    var userId: string
    var month: string
    var amount: int
    var spent: int

    function State(): BudgetState
      reads this
    {
      BudgetState(budgetId, userId, month, amount, spent)
    }

    /** `Budget(budget_id, user_id, month, amount, spent)`, loading the stored row. */
    constructor (budgetId: string, userId: string, month: string, amount: int, spent: int, db: Database)
      ensures State() == Init(BudgetState(budgetId, userId, month, amount, spent), db.Snapshot())
    {
      this.budgetId := budgetId;
      this.userId := userId;
      this.month := month;
      this.amount := amount;
      this.spent := spent;
      if db.online && userId != "" && month != "" {
        var found := FindBudget(db.budgets, userId, month);
        if found.Some? {
          var row := db.budgets[found.value];
          this.budgetId := row.budgetId;
          this.amount := row.amount;
          this.spent := row.spent;
        }
      }
    }

    method UpdateSpent(db: Database, freshId: string) returns (ok: bool)
      modifies this, db
      ensures var o := Resync(old(State()), old(db.Snapshot()), freshId);
        ok == o.ok && State() == o.budget && db.Snapshot() == o.tables
    {
      if !db.online {
        return false;
      }
      var total := Total(db.transactions, ExpenseIn(userId, month));
      spent := total;
      if budgetId != "" {
        db.budgets := SetSpentById(db.budgets, budgetId, total);
        return true;
      }
      var found := FindBudget(db.budgets, userId, month);
      if found.Some? {
        budgetId := db.budgets[found.value].budgetId;
        db.budgets := SetSpentById(db.budgets, budgetId, total);
        return true;
      }
      var user := FindUser(db.users, userId);
      if user.Some? {
        amount := db.users[user.value].monthlyBudget;
        budgetId := freshId;
        if BudgetIdUsed(db.budgets, freshId) {
          return false;
        }
        db.budgets := db.budgets + [RowOf(State())];
      }
      return true;
    }

    method Save(db: Database, freshId: string) returns (ok: bool)
      modifies this, db
      ensures var o := SaveSpec(old(State()), old(db.Snapshot()), freshId);
        ok == o.ok && State() == o.budget && db.Snapshot() == o.tables
    {
      if budgetId != "" {
        if !db.online {
          return false;
        }
        db.budgets := SetAmountById(db.budgets, budgetId, amount);
      } else {
        budgetId := freshId;
        if !db.online {
          return false;
        }
        db.budgets := DropConflicts(db.budgets, freshId, userId, month) + [RowOf(State())];
      }
      return true;
    }

    method IsOverspent(db: Database, freshId: string) returns (over: bool)
      modifies this, db
      ensures var r := IsOverspentSpec(old(State()), old(db.Snapshot()), freshId);
        over == r.0 && State() == r.1.budget && db.Snapshot() == r.1.tables
    {
      var _ := UpdateSpent(db, freshId);
      over := spent > amount;
    }
  }

  /** `get_all_budgets`: build one object per row, in month-descending order. */
  method AllBudgets(db: Database, u: string) returns (r: seq<BudgetState>)
    ensures r == AllBudgetsSpec(db.Snapshot(), u)
  {
    if !db.online {
      return [];
    }
    var t := db.Snapshot();
    var rows := UserRowsByMonthDesc(t, u);
    r := [];
    var i := 0;
    while i < |rows|
      invariant 0 <= i <= |rows|
      invariant |r| == i && forall k :: 0 <= k < i ==> r[k] == Init(StateOf(rows[k]), t)
    {
      r := r + [Init(StateOf(rows[i]), t)];
      i := i + 1;
    }
    assert r == AllBudgetsSpec(t, u);
  }
}

=== FILE: category.dfy ===
/** `Category`: custom categories, the category listings and the guarded
    update and delete (code/category.py).

    A category's owner is `None` for the preset categories (`user_id IS
    NULL`). An owner of `None` in the WHERE clause of `update` or `delete`
    (`user_id = NULL`) matches no row, as in SQL. */
module Categories {
  import opened Text
  import opened Store

  /** The fields of a `Category` object. */
  datatype CategoryState = CategoryState(categoryId: string, name: string, kindLabel: string, icon: string,
                                         isCustom: bool, owner: Option<string>)

  /** What an operation returns, the object afterwards and the database afterwards. */
  datatype CategoryOutcome = CategoryOutcome(ok: bool, category: CategoryState, tables: Tables)

  function RowOf(c: CategoryState): CategoryRow
  {
    CategoryRow(c.categoryId, c.name, c.kindLabel, c.icon, c.isCustom, c.owner)
  }

  function StateOf(row: CategoryRow): CategoryState
  {
    CategoryState(row.categoryId, row.name, row.kindLabel, row.icon, row.isCustom, row.owner)
  }

  predicate CategoryIdUsed(cs: seq<CategoryRow>, id: string)
  {
    exists j :: 0 <= j < |cs| && cs[j].categoryId == id
  }

  /** The rows `WHERE category_id = c.categoryId AND user_id = c.owner` selects. */
  predicate Targets(row: CategoryRow, c: CategoryState)
  {
    row.categoryId == c.categoryId && c.owner.Some? && row.owner == c.owner
  }

  // ---------------------------------------------------------------------
  // add_custom_category
  // ---------------------------------------------------------------------

  /** `add_custom_category`: take the fresh id and mark the object custom
      (before the INSERT, so both stick even when it fails), then insert the
      row with `is_custom = 1`. */
  function AddCustomSpec(c: CategoryState, t: Tables, freshId: string): (o: CategoryOutcome)
    ensures o.category == c.(categoryId := freshId, isCustom := true)
    ensures !o.ok ==> o.tables == t
    ensures o.ok ==> o.tables == t.(categories := t.categories + [RowOf(o.category)])
  {
    var c' := c.(categoryId := freshId, isCustom := true);
    if !t.online || CategoryIdUsed(t.categories, freshId) then CategoryOutcome(false, c', t)
    else CategoryOutcome(true, c', t.(categories := t.categories + [RowOf(c')]))
  }

  /** The insertion succeeds exactly when the database is reachable and the
      fresh id is unused, and keeps category ids distinct. */
  lemma AddCustomInserts(c: CategoryState, t: Tables, freshId: string)
    ensures var o := AddCustomSpec(c, t, freshId);
      (o.ok <==> t.online && forall j :: 0 <= j < |t.categories| ==> t.categories[j].categoryId != freshId)
      && (CategoryIdsDistinct(t.categories) ==> CategoryIdsDistinct(o.tables.categories))
  {
  }

  /** A new category can be read back by its id, custom and with its owner. */
  lemma AddThenById(c: CategoryState, t: Tables, freshId: string)
    requires AddCustomSpec(c, t, freshId).ok
    ensures CategoryById(AddCustomSpec(c, t, freshId).tables, freshId)
      == Some(c.(categoryId := freshId, isCustom := true))
  {
    var cs := AddCustomSpec(c, t, freshId).tables.categories;
    assert cs[|t.categories|].categoryId == freshId;
    assert FindCategory(cs, freshId) == Some(|t.categories|);
  }

  // ---------------------------------------------------------------------
  // get_preset_categories and get_all_categories
  // ---------------------------------------------------------------------

  /** The two listings. An empty `typeLabel` (or `user`) stands for the
      argument not being given. */
  datatype Listing =
    | Presets(typeLabel: string)
    | Visible(user: string, typeLabel: string)

  predicate TypeMatches(row: CategoryRow, typeLabel: string)
  {
    typeLabel == "" || row.kindLabel == typeLabel
  }

  /** `user_id IS NULL OR user_id = user`, the second half only when a user is given. */
  predicate VisibleTo(row: CategoryRow, user: string)
  {
    row.owner.None? || (user != "" && row.owner == Some(user))
  }

  /** The WHERE clause of each listing: `is_custom = 0`, or the preset rows
      plus, when a user is given, that user's own rows. */
  predicate Shows(q: Listing, row: CategoryRow)
  {
    match q
    case Presets(typeLabel) => !row.isCustom && TypeMatches(row, typeLabel)
    case Visible(user, typeLabel) =>
      VisibleTo(row, user) && TypeMatches(row, typeLabel)
  }

  /** The object each listing builds from a row: neither reads `user_id`
      back, and the preset listing does not read `is_custom` either. */
  function Shown(q: Listing, row: CategoryRow): CategoryState
  {
    match q
    case Presets(_) => CategoryState(row.categoryId, row.name, row.kindLabel, row.icon, false, None)
    case Visible(_, _) => CategoryState(row.categoryId, row.name, row.kindLabel, row.icon, row.isCustom, None)
  }

  /** The objects a listing returns, in table order. */
  function Listed(cs: seq<CategoryRow>, q: Listing): (r: seq<CategoryState>)
    ensures |r| <= |cs|
    ensures forall c :: c in r <==> exists i :: 0 <= i < |cs| && Shows(q, cs[i]) && c == Shown(q, cs[i])
    decreases |cs|
  {
    if cs == [] then []
    else
      var init := cs[..|cs| - 1];
      var last := cs[|cs| - 1];
      var rest := Listed(init, q);
      assert forall i :: 0 <= i < |init| ==> init[i] == cs[i];
      if Shows(q, last) then rest + [Shown(q, last)] else rest
  }

  function ListingSpec(t: Tables, q: Listing): (r: seq<CategoryState>)
    ensures !t.online ==> r == []
  {
    if t.online then Listed(t.categories, q) else []
  }

  /** `get_preset_categories`: only non-custom rows, of the given type if one
      is given, all reported as not custom and without owner; every such row
      is listed. */
  lemma PresetListing(t: Tables, typeLabel: string)
    ensures forall c :: c in ListingSpec(t, Presets(typeLabel)) ==>
      !c.isCustom && c.owner.None? && (typeLabel == "" || c.kindLabel == typeLabel)
      && exists i :: 0 <= i < |t.categories| && t.categories[i].categoryId == c.categoryId && !t.categories[i].isCustom
    ensures t.online ==> forall i ::
      0 <= i < |t.categories| && !t.categories[i].isCustom && TypeMatches(t.categories[i], typeLabel) ==>
        Shown(Presets(typeLabel), t.categories[i]) in ListingSpec(t, Presets(typeLabel))
  {
  }

  /** `get_all_categories`: with a user, the preset rows and that user's own
      rows; with none, the preset rows only; rows of other users never.
      Every row of those that has the type asked for is listed. */
  lemma AllListing(t: Tables, user: string, typeLabel: string)
    requires t.online
    ensures forall c :: c in ListingSpec(t, Visible(user, typeLabel)) ==>
      (typeLabel == "" || c.kindLabel == typeLabel)
      && (exists i :: 0 <= i < |t.categories| && t.categories[i].categoryId == c.categoryId
            && VisibleTo(t.categories[i], user))
    ensures forall i :: 0 <= i < |t.categories| && Shows(Visible(user, typeLabel), t.categories[i]) ==>
      Shown(Visible(user, typeLabel), t.categories[i]) in ListingSpec(t, Visible(user, typeLabel))
  {
  }

  /** With distinct ids, a category owned by another user is never listed. */
  lemma OtherUsersHidden(t: Tables, user: string, typeLabel: string, k: nat)
    requires CategoryIdsDistinct(t.categories)
    requires k < |t.categories| && t.categories[k].owner.Some? && t.categories[k].owner != Some(user)
    ensures forall c :: c in ListingSpec(t, Visible(user, typeLabel)) ==> c.categoryId != t.categories[k].categoryId
  {
    forall c | c in ListingSpec(t, Visible(user, typeLabel))
      ensures c.categoryId != t.categories[k].categoryId
    {
      var i :| 0 <= i < |t.categories| && Shows(Visible(user, typeLabel), t.categories[i])
        && c == Shown(Visible(user, typeLabel), t.categories[i]);
      assert i != k;
    }
  }

  // ---------------------------------------------------------------------
  // update
  // ---------------------------------------------------------------------

  /** `UPDATE categories SET name, icon WHERE category_id AND user_id`. */
  function Rename(cs: seq<CategoryRow>, c: CategoryState): seq<CategoryRow>
  {
    seq(|cs|, i requires 0 <= i < |cs| => if Targets(cs[i], c) then cs[i].(name := c.name, icon := c.icon) else cs[i])
  }

  /** `update`: refused by the object's own flag before any query. */
  function UpdateSpec(c: CategoryState, t: Tables): (o: CategoryOutcome)
    ensures o.category == c
    ensures o.ok <==> c.isCustom && t.online
    ensures !o.ok ==> o.tables == t
  {
    if !c.isCustom || !t.online then CategoryOutcome(false, c, t)
    else CategoryOutcome(true, c, t.(categories := Rename(t.categories, c)))
  }

  /** An update changes only the name and icon of the rows with the
      object's id and owner, and no other table. Preset rows, which have no
      owner, are never changed, whatever the object says. */
  lemma UpdateOnlyNameAndIcon(c: CategoryState, t: Tables)
    ensures var t' := UpdateSpec(c, t).tables;
      t' == t.(categories := t'.categories) && |t'.categories| == |t.categories|
      && (forall i :: 0 <= i < |t.categories| ==>
            t'.categories[i] == t.categories[i].(name := t'.categories[i].name, icon := t'.categories[i].icon))
      && (forall i :: 0 <= i < |t.categories| && t'.categories[i] != t.categories[i] ==> Targets(t.categories[i], c))
      && (forall i :: 0 <= i < |t.categories| && t.categories[i].owner.None? ==> t'.categories[i] == t.categories[i])
      && (CategoryIdsDistinct(t.categories) ==> CategoryIdsDistinct(t'.categories))
  {
  }

  /** The objects the listings build carry no owner, so updating one of them
      reports success and changes nothing. */
  lemma UpdateListedNoEffect(t: Tables, q: Listing, c: CategoryState)
    requires c in ListingSpec(t, q)
    ensures UpdateSpec(c, t).tables == t
  {
    if t.online {
      var i :| 0 <= i < |t.categories| && Shows(q, t.categories[i]) && c == Shown(q, t.categories[i]);
      assert c.owner.None?;
      assert Rename(t.categories, c) == t.categories;
    }
  }

  // ---------------------------------------------------------------------
  // delete
  // ---------------------------------------------------------------------

  /** `SELECT COUNT(*) FROM transactions WHERE category_id = id` is positive. */
  predicate InUse(ts: seq<TxRow>, id: string)
  {
    exists j :: 0 <= j < |ts| && ts[j].categoryId == id
  }

  /** The rows `DELETE FROM categories WHERE category_id AND user_id` keeps:
      every other row, in the same order. */
  function Remove(cs: seq<CategoryRow>, c: CategoryState): (r: seq<CategoryRow>)
    ensures |r| <= |cs|
    ensures forall row :: row in r <==> row in cs && !Targets(row, c)
    decreases |cs|
  {
    if cs == [] then []
    else
      var last := cs[|cs| - 1];
      var rest := Remove(cs[..|cs| - 1], c);
      assert cs == cs[..|cs| - 1] + [last];
      if Targets(last, c) then rest else rest + [last]
  }

  /** `delete`: refused for a non-custom object, then refused while any
      transaction of any user references the category. */
  function DeleteSpec(c: CategoryState, t: Tables): (o: CategoryOutcome)
    ensures o.category == c
    ensures o.ok <==> c.isCustom && t.online && !InUse(t.transactions, c.categoryId)
    ensures !o.ok ==> o.tables == t
  {
    if !c.isCustom || !t.online || InUse(t.transactions, c.categoryId) then CategoryOutcome(false, c, t)
    else CategoryOutcome(true, c, t.(categories := Remove(t.categories, c)))
  }

  /** Deleting keeps the remaining category ids distinct. */
  lemma {:induction false} RemoveKeepsIds(cs: seq<CategoryRow>, c: CategoryState)
    requires CategoryIdsDistinct(cs)
    ensures CategoryIdsDistinct(Remove(cs, c))
    decreases |cs|
  {
    if cs != [] {
      var init := cs[..|cs| - 1];
      var last := cs[|cs| - 1];
      RemoveKeepsIds(init, c);
      var rest := Remove(init, c);
      if !Targets(last, c) {
        forall i | 0 <= i < |rest| ensures rest[i].categoryId != last.categoryId {
          assert rest[i] in init;
          var k :| 0 <= k < |init| && init[k] == rest[i];
          assert cs[k] == rest[i];
        }
      }
    }
  }

  /** A delete removes only the rows with the object's id and owner; preset
      rows are always kept; no other table changes. */
  lemma DeleteRemovesOnlyTarget(c: CategoryState, t: Tables)
    ensures var t' := DeleteSpec(c, t).tables;
      t' == t.(categories := t'.categories)
      && (forall row :: row in t'.categories <==> row in t.categories && !(DeleteSpec(c, t).ok && Targets(row, c)))
      && (forall row :: row in t.categories && row.owner.None? ==> row in t'.categories)
      && (CategoryIdsDistinct(t.categories) ==> CategoryIdsDistinct(t'.categories))
  {
    if DeleteSpec(c, t).ok && CategoryIdsDistinct(t.categories) {
      RemoveKeepsIds(t.categories, c);
    }
  }

  /** Every transaction names a category that exists. */
  predicate ReferencesResolve(t: Tables)
  {
    forall j :: 0 <= j < |t.transactions| ==> CategoryIdUsed(t.categories, t.transactions[j].categoryId)
  }

  /** Because of the usage check, a delete never leaves a transaction
      pointing at a missing category. */
  lemma DeleteKeepsReferences(c: CategoryState, t: Tables)
    requires ReferencesResolve(t)
    ensures ReferencesResolve(DeleteSpec(c, t).tables)
  {
    var o := DeleteSpec(c, t);
    if o.ok {
      forall j | 0 <= j < |t.transactions|
        ensures CategoryIdUsed(o.tables.categories, t.transactions[j].categoryId)
      {
        var id := t.transactions[j].categoryId;
        var k :| 0 <= k < |t.categories| && t.categories[k].categoryId == id;
        assert id != c.categoryId;
        assert t.categories[k] in o.tables.categories;
        var m :| 0 <= m < |o.tables.categories| && o.tables.categories[m] == t.categories[k];
      }
    }
  }

  // ---------------------------------------------------------------------
  // get_category_by_id
  // ---------------------------------------------------------------------

  /** `get_category_by_id`: every column of the stored row, owner included. */
  function CategoryById(t: Tables, id: string): (r: Option<CategoryState>)
    ensures r.Some? ==> r.value.categoryId == id && RowOf(r.value) in t.categories
    ensures r.None? <==> !t.online || forall j :: 0 <= j < |t.categories| ==> t.categories[j].categoryId != id
  {
    if !t.online then None
    else match FindCategory(t.categories, id)
      case None => None
      case Some(j) => Some(StateOf(t.categories[j]))
  }

  /** An object read by id carries its owner, so updating it reaches its row:
      a custom category reloaded by id and renamed reads back renamed. */
  lemma UpdateByIdReachesRow(t: Tables, id: string, name: string, icon: string)
    requires CategoryIdsDistinct(t.categories)
    requires CategoryById(t, id).Some? && CategoryById(t, id).value.isCustom
    requires CategoryById(t, id).value.owner.Some?
    ensures var c := CategoryById(t, id).value.(name := name, icon := icon);
      UpdateSpec(c, t).ok && CategoryById(UpdateSpec(c, t).tables, id) == Some(c)
  {
    var c := CategoryById(t, id).value.(name := name, icon := icon);
    var j := FindCategory(t.categories, id).value;
    var cs := Rename(t.categories, c);
    assert cs[j] == RowOf(c);
    forall i | 0 <= i < j ensures cs[i].categoryId != id {
      assert cs[i].categoryId == t.categories[i].categoryId;
    }
    assert FindCategory(cs, id) == Some(j);
  }

  // ---------------------------------------------------------------------
  // The Category object
  // ---------------------------------------------------------------------

  class Category {
    var categoryId: string
    var name: string
    var kindLabel: string
    var icon: string
    var isCustom: bool
    var owner: Option<string>

    function State(): CategoryState
      reads this
    {
      CategoryState(categoryId, name, kindLabel, icon, isCustom, owner)
    }

    constructor (c: CategoryState)
      ensures State() == c
    {
      categoryId := c.categoryId;
      name := c.name;
      kindLabel := c.kindLabel;
      icon := c.icon;
      isCustom := c.isCustom;
      owner := c.owner;
    }

    method AddCustomCategory(db: Database, freshId: string) returns (ok: bool)
      modifies this, db
      ensures var o := AddCustomSpec(old(State()), old(db.Snapshot()), freshId);
        ok == o.ok && State() == o.category && db.Snapshot() == o.tables
    {
      categoryId := freshId;
      isCustom := true;
      if !db.online || CategoryIdUsed(db.categories, categoryId) {
        return false;
      }
      db.categories := db.categories + [CategoryRow(categoryId, name, kindLabel, icon, true, owner)];
      return true;
    }

    method Update(db: Database) returns (ok: bool)
      modifies db
      ensures var o := UpdateSpec(State(), old(db.Snapshot()));
        ok == o.ok && db.Snapshot() == o.tables
    {
      if !isCustom || !db.online {
        return false;
      }
      db.categories := Rename(db.categories, State());
      return true;
    }

    method Delete(db: Database) returns (ok: bool)
      modifies db
      ensures var o := DeleteSpec(State(), old(db.Snapshot()));
        ok == o.ok && db.Snapshot() == o.tables
    {
      if !isCustom || !db.online {
        return false;
      }
      if InUse(db.transactions, categoryId) {
        return false;
      }
      db.categories := Remove(db.categories, State());
      return true;
    }
  }

  /** `get_preset_categories` and `get_all_categories`: build one object per
      selected row, appending in table order. */
  method ListCategories(db: Database, q: Listing) returns (r: seq<CategoryState>)
    ensures r == ListingSpec(db.Snapshot(), q)
  {
    if !db.online {
      return [];
    }
    var cs := db.categories;
    r := [];
    var i := 0;
    while i < |cs|
      invariant 0 <= i <= |cs|
      invariant r == Listed(cs[..i], q)
    {
      assert cs[..i + 1][..i] == cs[..i];
      if Shows(q, cs[i]) {
        r := r + [Shown(q, cs[i])];
      }
      i := i + 1;
    }
    assert cs[..i] == cs;
  }
}

=== FILE: dates.dfy ===
/** Calendar dates as Python's `datetime` handles them in the ledger:
    the proleptic Gregorian calendar from 0001-01-01 to 9999-12-31
    (leaving that range raises OverflowError), day stepping for
    `timedelta(days=n)`, the three `strptime` formats tried when a
    transaction is added, the `strftime` outputs the program writes, and
    the `date.split('-')` month extraction used to pick the budget month. */
module Dates {
  import opened Text

  datatype Date = Date(year: int, month: int, day: int)

  /** Time of day to the second; the ledger never writes microseconds. */
  datatype DateTime = DateTime(date: Date, hour: int, minute: int, second: int)

  const MinYear := 1
  const MaxYear := 9999

  predicate IsLeapYear(y: int)
  {
    y % 4 == 0 && (y % 100 != 0 || y % 400 == 0)
  }

  function DaysInMonth(y: int, m: int): (n: int)
    ensures 28 <= n <= 31
  {
    if m == 2 then (if IsLeapYear(y) then 29 else 28)
    else if m == 4 || m == 6 || m == 9 || m == 11 then 30
    else 31
  }

  function DaysInYear(y: int): int
  {
    if IsLeapYear(y) then 366 else 365
  }

  predicate ValidDate(d: Date)
  {
    MinYear <= d.year <= MaxYear && 1 <= d.month <= 12 && 1 <= d.day <= DaysInMonth(d.year, d.month)
  }

  predicate ValidDateTime(t: DateTime)
  {
    ValidDate(t.date) && 0 <= t.hour < 24 && 0 <= t.minute < 60 && 0 <= t.second < 60
  }

  /** A Python `datetime` value: always a valid date and time of day. */
  type Timestamp = t: DateTime | ValidDateTime(t) witness DateTime(Date(1, 1, 1), 0, 0, 0)

  // ---------------------------------------------------------------------
  // Day numbers and day stepping
  // ---------------------------------------------------------------------

  function DaysBeforeYear(y: int): int
    decreases y
  {
    if y <= 1 then 0 else DaysBeforeYear(y - 1) + DaysInYear(y - 1)
  }

  function DaysBeforeMonth(y: int, m: int): int
  {
    var before :=
      if m <= 1 then 0 else if m == 2 then 31 else if m == 3 then 59
      else if m == 4 then 90 else if m == 5 then 120 else if m == 6 then 151
      else if m == 7 then 181 else if m == 8 then 212 else if m == 9 then 243
      else if m == 10 then 273 else if m == 11 then 304 else 334;
    if m > 2 && IsLeapYear(y) then before + 1 else before
  }

  /** The day number of a date, 1 for 0001-01-01 (Python's `date.toordinal`).
      Python compares dates by this number. */
  function Ordinal(d: Date): int
  {
    DaysBeforeYear(d.year) + DaysBeforeMonth(d.year, d.month) + d.day
  }

  /** The first day of the following month. */
  function NextMonthStart(d: Date): Date
  {
    if d.month < 12 then Date(d.year, d.month + 1, 1) else Date(d.year + 1, 1, 1)
  }

  function NextDay(d: Date): Date
  {
    if d.day < DaysInMonth(d.year, d.month) then d.(day := d.day + 1) else NextMonthStart(d)
  }

  function PrevDay(d: Date): Date
  {
    if d.day > 1 then d.(day := d.day - 1)
    else if d.month > 1 then Date(d.year, d.month - 1, DaysInMonth(d.year, d.month - 1))
    else Date(d.year - 1, 12, 31)
  }

  lemma MonthStep(y: int, m: int)
    requires 1 <= m < 12
    ensures DaysBeforeMonth(y, m + 1) == DaysBeforeMonth(y, m) + DaysInMonth(y, m)
  {
  }

  lemma YearStep(y: int)
    requires y >= 1
    ensures DaysBeforeMonth(y, 12) + DaysInMonth(y, 12) == DaysInYear(y)
    ensures DaysBeforeYear(y + 1) == DaysBeforeYear(y) + DaysInYear(y)
  {
  }

  /** Ordinals count days: the next day is one further. */
  lemma OrdinalNextDay(d: Date)
    requires ValidDate(d)
    ensures Ordinal(NextDay(d)) == Ordinal(d) + 1
  {
    if d.day == DaysInMonth(d.year, d.month) {
      if d.month < 12 {
        MonthStep(d.year, d.month);
      } else {
        YearStep(d.year);
      }
    }
  }

  lemma OrdinalPrevDay(d: Date)
    requires ValidDate(d) && ValidDate(PrevDay(d))
    ensures Ordinal(PrevDay(d)) == Ordinal(d) - 1
  {
    var y, m := d.year, d.month;
    if d.day > 1 {
      assert PrevDay(d) == d.(day := d.day - 1);
    } else if m > 1 {
      var p := Date(y, m - 1, DaysInMonth(y, m - 1));
      assert PrevDay(d) == p;
      MonthStep(y, m - 1);
      assert Ordinal(p) == DaysBeforeYear(y) + DaysBeforeMonth(y, m);
    } else {
      var p := Date(y - 1, 12, 31);
      assert PrevDay(d) == p;
      YearStep(y - 1);
      assert Ordinal(p) == DaysBeforeYear(y - 1) + DaysInYear(y - 1);
    }
  }

  /** `d + timedelta(days=n)`: None when the result leaves year 1..9999. */
  function ShiftDays(d: Date, n: int): (r: Option<Date>)
    requires ValidDate(d)
    ensures r.Some? ==> ValidDate(r.value) && Ordinal(r.value) == Ordinal(d) + n
    decreases if n < 0 then -n else n
  {
    if n == 0 then Some(d)
    else if n > 0 then
      var e := NextDay(d);
      if !ValidDate(e) then None
      else
        OrdinalNextDay(d);
        ShiftDays(e, n - 1)
    else
      var e := PrevDay(d);
      if !ValidDate(e) then None
      else
        OrdinalPrevDay(d);
        ShiftDays(e, n + 1)
  }

  /** Shifting forward and staying inside the month only moves the day. */
  lemma {:induction false} ShiftWithinMonth(d: Date, k: nat)
    requires ValidDate(d) && d.day + k <= DaysInMonth(d.year, d.month)
    ensures ShiftDays(d, k) == Some(d.(day := d.day + k))
    decreases k
  {
    if k > 0 {
      ShiftWithinMonth(NextDay(d), k - 1);
    }
  }

  /** Shifting forward past the end of the month lands in the next month. */
  lemma {:induction false} ShiftAcrossMonthEnd(d: Date, k: nat)
    requires ValidDate(d) && ValidDate(NextMonthStart(d))
    requires d.day + k > DaysInMonth(d.year, d.month)
    requires d.day + k - DaysInMonth(d.year, d.month) <= DaysInMonth(NextMonthStart(d).year, NextMonthStart(d).month)
    ensures ShiftDays(d, k) == Some(NextMonthStart(d).(day := d.day + k - DaysInMonth(d.year, d.month)))
    decreases DaysInMonth(d.year, d.month) - d.day
  {
    if d.day == DaysInMonth(d.year, d.month) {
      ShiftWithinMonth(NextMonthStart(d), k - 1);
    } else {
      ShiftAcrossMonthEnd(NextDay(d), k - 1);
    }
  }

  /** `d + timedelta(a) + timedelta(b) == d + timedelta(a + b)` for forward shifts. */
  lemma {:induction false} ShiftCompose(d: Date, a: nat, b: nat)
    requires ValidDate(d)
    ensures ShiftDays(d, a + b) == match ShiftDays(d, a) case None => None case Some(e) => ShiftDays(e, b)
    decreases a
  {
    if a > 0 && ValidDate(NextDay(d)) {
      ShiftCompose(NextDay(d), a - 1, b);
    }
  }

  /** Shifting back and staying inside the month only moves the day. */
  lemma {:induction false} ShiftBackWithinMonth(d: Date, k: nat)
    requires ValidDate(d) && k < d.day
    ensures ShiftDays(d, -(k as int)) == Some(d.(day := d.day - k))
    decreases k
  {
    if k > 0 {
      ShiftBackWithinMonth(PrevDay(d), k - 1);
    }
  }

  /** Shifting back past the first of the month lands in the previous month,
      counted back from its last day `PrevDay(d.(day := 1))`. */
  lemma {:induction false} ShiftBackAcrossMonthStart(d: Date, k: nat)
    requires ValidDate(d) && ValidDate(PrevDay(d.(day := 1))) && d.day <= k
    requires k - d.day < PrevDay(d.(day := 1)).day
    ensures ShiftDays(d, -(k as int)) == Some(PrevDay(d.(day := 1)).(day := PrevDay(d.(day := 1)).day - (k - d.day)))
    decreases d.day
  {
    if d.day == 1 {
      ShiftBackWithinMonth(PrevDay(d), k - 1);
    } else {
      ShiftBackAcrossMonthStart(PrevDay(d), k - 1);
    }
  }

  /** One step of the trend loop: `current += timedelta(days=32)`, then
      `current.replace(day=1)`. None when the shift leaves the calendar
      (OverflowError). The result is the first of a month, 2 to 32 days on. */
  function StepMonth(d: Date): (r: Option<Date>)
    requires ValidDate(d)
    ensures r.Some? ==> ValidDate(r.value) && r.value.day == 1
    ensures r.Some? ==> Ordinal(d) + 2 <= Ordinal(r.value) <= Ordinal(d) + 32
  {
    match ShiftDays(d, 32)
    case None => None
    case Some(e) => Some(e.(day := 1))
  }

  /** Where a step lands: the first of the next month, unless the 32 days
      overshoot the end of the next month too, in which case that month is
      skipped. From the first of a month there is never a skip. */
  lemma StepMonthLands(d: Date)
    requires ValidDate(d) && ValidDate(NextMonthStart(NextMonthStart(d)))
    ensures var m1 := NextMonthStart(d);
      StepMonth(d) == Some(if d.day + 32 - DaysInMonth(d.year, d.month) <= DaysInMonth(m1.year, m1.month)
                           then m1 else NextMonthStart(m1))
    ensures d.day == 1 ==> StepMonth(d) == Some(NextMonthStart(d))
  {
    var m1 := NextMonthStart(d);
    var overshoot := d.day + 32 - DaysInMonth(d.year, d.month);
    if overshoot <= DaysInMonth(m1.year, m1.month) {
      ShiftAcrossMonthEnd(d, 32);
    } else {
      var a := DaysInMonth(d.year, d.month) - d.day + 1;
      ShiftAcrossMonthEnd(d, a);
      ShiftCompose(d, a, 32 - a);
      ShiftAcrossMonthEnd(m1, 32 - a);
    }
  }

  /** The step skips February from 28 January 2023: 28 + 32 days is 1 March. */
  lemma StepMonthSkipsFebruary()
    ensures StepMonth(Date(2023, 1, 28)) == Some(Date(2023, 3, 1))
  {
    StepMonthLands(Date(2023, 1, 28));
  }

  // ---------------------------------------------------------------------
  // strftime and strptime, fixed width
  // ---------------------------------------------------------------------

  /** `strftime('%Y-%m')`. */
  function FormatMonth(d: Date): (r: string)
    requires ValidDate(d)
    ensures |r| == 7
  {
    Pad4(d.year) + "-" + Pad2(d.month)
  }

  /** `strftime('%Y-%m-%d')`. */
  function FormatDay(d: Date): (r: string)
    requires ValidDate(d)
    ensures |r| == 10
  {
    FormatMonth(d) + "-" + Pad2(d.day)
  }

  /** `strftime('%Y-%m-%d %H:%M:%S')`, the form every added transaction is stored in. */
  function FormatDateTime(t: DateTime): (r: string)
    requires ValidDateTime(t)
    ensures |r| == 19
  {
    FormatDay(t.date) + " " + Pad2(t.hour) + ":" + Pad2(t.minute) + ":" + Pad2(t.second)
  }

  /** The three formats `add_transaction` tries, in this order. */
  datatype DateFormat =
    | WithSeconds   // '%Y-%m-%d %H:%M:%S'
    | DateOnly      // '%Y-%m-%d'
    | WithMinutes   // '%Y-%m-%d %H:%M'

  const Formats: seq<DateFormat> := [WithSeconds, DateOnly, WithMinutes]

  /** The `YYYY-MM-DD` head of a text, read as a date. */
  function ParseDatePart(s: string): (r: Option<Date>)
    requires |s| >= 10
    ensures r.Some? ==> ValidDate(r.value)
  {
    if AllDigits(s[..4]) && s[4] == '-' && AllDigits(s[5..7]) && s[7] == '-' && AllDigits(s[8..10]) then
      var d := Date(Number4(s[..4]), Number2(s[5..7]), Number2(s[8..10]));
      if ValidDate(d) then Some(d) else None
    else None
  }

  /** `HH:MM` starting at index 11, as in both clock formats. */
  predicate ClockShape(s: string)
    requires |s| >= 16
  {
    s[10] == ' ' && AllDigits(s[11..13]) && s[13] == ':' && AllDigits(s[14..16])
  }

  /** `datetime.strptime(s, f)`, for zero-padded fields of fixed width. */
  function Parse(s: string, f: DateFormat): (r: Option<DateTime>)
    ensures r.Some? ==> ValidDateTime(r.value)
  {
    match f
    case DateOnly =>
      if |s| != 10 then None
      else (match ParseDatePart(s)
        case None => None
        case Some(d) => Some(DateTime(d, 0, 0, 0)))
    case WithMinutes =>
      if |s| != 16 || !ClockShape(s) then None
      else (match ParseDatePart(s)
        case None => None
        case Some(d) =>
          var t := DateTime(d, Number2(s[11..13]), Number2(s[14..16]), 0);
          if ValidDateTime(t) then Some(t) else None)
    case WithSeconds =>
      if |s| != 19 || !ClockShape(s) || s[16] != ':' || !AllDigits(s[17..19]) then None
      else (match ParseDatePart(s)
        case None => None
        case Some(d) =>
          var t := DateTime(d, Number2(s[11..13]), Number2(s[14..16]), Number2(s[17..19]));
          if ValidDateTime(t) then Some(t) else None)
  }

  /** The first of `formats` that reads `s`. */
  function FirstParse(s: string, formats: seq<DateFormat>): (r: Option<DateTime>)
    ensures r.Some? ==> ValidDateTime(r.value)
  {
    if formats == [] then None
    else if Parse(s, formats[0]).Some? then Parse(s, formats[0])
    else FirstParse(s, formats[1..])
  }

  /** What `add_transaction` stores for a text date: the canonical
      `'%Y-%m-%d %H:%M:%S'` form when a format reads it, otherwise the text unchanged. */
  function Normalize(s: string): string
  {
    match FirstParse(s, Formats)
    case Some(t) => FormatDateTime(t)
    case None => s
  }

  /** The fields of a formatted date-time sit at their fixed places. */
  lemma FormatDateTimeFields(t: DateTime)
    requires ValidDateTime(t)
    ensures var s := FormatDateTime(t);
      && s[..4] == Pad4(t.date.year) && s[4] == '-'
      && s[5..7] == Pad2(t.date.month) && s[7] == '-'
      && s[8..10] == Pad2(t.date.day) && s[10] == ' '
      && s[11..13] == Pad2(t.hour) && s[13] == ':'
      && s[14..16] == Pad2(t.minute) && s[16] == ':'
      && s[17..19] == Pad2(t.second)
  {
    var s := FormatDateTime(t);
    var y, mo, d := Pad4(t.date.year), Pad2(t.date.month), Pad2(t.date.day);
    var h, mi, se := Pad2(t.hour), Pad2(t.minute), Pad2(t.second);
    assert s == y + "-" + mo + "-" + d + " " + h + ":" + mi + ":" + se;
    assert s[..4] == y;
    assert s[5..7] == mo;
    assert s[8..10] == d;
    assert s[11..13] == h;
    assert s[14..16] == mi;
    assert s[17..19] == se;
  }

  /** Round trip: strptime reads back what strftime wrote. */
  lemma {:induction false} ParseFormat(t: DateTime)
    requires ValidDateTime(t)
    ensures Parse(FormatDateTime(t), WithSeconds) == Some(t)
  {
    var s := FormatDateTime(t);
    FormatDateTimeFields(t);
    Pad4Number(t.date.year);
    Pad2Number(t.date.month);
    Pad2Number(t.date.day);
    Pad2Number(t.hour);
    Pad2Number(t.minute);
    Pad2Number(t.second);
    assert ParseDatePart(s) == Some(t.date);
  }

  /** Round trip the other way: a text the first format reads is already canonical. */
  lemma {:induction false} FormatParse(s: string)
    requires Parse(s, WithSeconds).Some?
    ensures FormatDateTime(Parse(s, WithSeconds).value) == s
  {
    var t := Parse(s, WithSeconds).value;
    NumberPad4(s[..4]);
    NumberPad2(s[5..7]);
    NumberPad2(s[8..10]);
    NumberPad2(s[11..13]);
    NumberPad2(s[14..16]);
    NumberPad2(s[17..19]);
    FormatDateTimeFields(t);
    var f := FormatDateTime(t);
    assert forall i :: 0 <= i < 19 ==> f[i] == s[i] by {
      forall i | 0 <= i < 19 ensures f[i] == s[i] {
        if i < 4 { assert f[i] == f[..4][i] && s[i] == s[..4][i]; }
        else if 5 <= i < 7 { assert f[i] == f[5..7][i - 5] && s[i] == s[5..7][i - 5]; }
        else if 8 <= i < 10 { assert f[i] == f[8..10][i - 8] && s[i] == s[8..10][i - 8]; }
        else if 11 <= i < 13 { assert f[i] == f[11..13][i - 11] && s[i] == s[11..13][i - 11]; }
        else if 14 <= i < 16 { assert f[i] == f[14..16][i - 14] && s[i] == s[14..16][i - 14]; }
        else if 17 <= i < 19 { assert f[i] == f[17..19][i - 17] && s[i] == s[17..19][i - 17]; }
      }
    }
  }

  /** Normalising twice changes nothing more than normalising once. */
  lemma NormalizeIdempotent(s: string)
    ensures Normalize(Normalize(s)) == Normalize(s)
  {
    match FirstParse(s, Formats)
    case None =>
    case Some(t) =>
      ParseFormat(t);
  }

  /** A text some format reads is stored in canonical form, as the date-time it denotes. */
  lemma NormalizeCanonical(s: string)
    requires FirstParse(s, Formats).Some?
    ensures |Normalize(s)| == 19
    ensures Parse(Normalize(s), WithSeconds) == FirstParse(s, Formats)
  {
    ParseFormat(FirstParse(s, Formats).value);
  }

  /** A text in canonical form is stored as it is. */
  lemma NormalizeKeepsCanonical(s: string)
    requires Parse(s, WithSeconds).Some?
    ensures Normalize(s) == s
  {
    FormatParse(s);
  }

  // ---------------------------------------------------------------------
  // Budget months of stored dates
  // ---------------------------------------------------------------------

  /** `date.split('-')[0] + '-' + date.split('-')[1]`; None where Python raises IndexError. */
  function MonthOf(date: string): (r: Option<string>)
    ensures r.Some? ==> StartsWith(date, r.value)
  {
    var pieces := Split(date, '-');
    if |pieces| < 2 then None
    else
      MonthOfIsPrefix(date);
      Some(pieces[0] + "-" + pieces[1])
  }

  /** The text `split('-')` month is a prefix of the date it came from. */
  lemma MonthOfIsPrefix(date: string)
    requires |Split(date, '-')| >= 2
    ensures StartsWith(date, Split(date, '-')[0] + "-" + Split(date, '-')[1])
  {
    var pieces := Split(date, '-');
    SplitJoin(date, '-');
    var rest := Join(pieces[1..], '-');
    assert date == pieces[0] + "-" + rest;
    if |pieces| == 2 {
      assert rest == pieces[1];
    } else {
      assert rest == pieces[1] + "-" + Join(pieces[2..], '-');
    }
    var m := pieces[0] + "-" + pieces[1];
    assert date[..|m|] == m;
  }

  /** A budget month key `YYYY-MM`. */
  predicate IsMonthKey(m: string)
  {
    |m| == 7 && AllDigits(m[..4]) && m[4] == '-' && AllDigits(m[5..7])
  }

  /** A stored date whose head is a month key followed by the end or a dash. */
  predicate DateShaped(date: string)
  {
    |date| >= 7 && IsMonthKey(date[..7]) && (|date| == 7 || date[7] == '-')
  }

  /** For a shaped date, the split month is its first seven characters, and it
      is the only month key the date starts with. */
  lemma MonthOfShaped(date: string)
    requires DateShaped(date)
    ensures MonthOf(date) == Some(date[..7])
    ensures forall m :: IsMonthKey(m) ==> (StartsWith(date, m) <==> m == date[..7])
  {
    var head, mm := date[..4], date[5..7];
    assert forall i :: 0 <= i < 4 ==> IsDigit(head[i]) by {
      assert head == date[..7][..4];
    }
    assert forall i :: 0 <= i < 2 ==> IsDigit(mm[i]) by {
      assert mm == date[..7][5..7];
    }
    assert '-' !in head && '-' !in mm;
    if |date| == 7 {
      assert date == head + ['-'] + mm;
      SplitAtSeparator(head, '-', mm);
      SplitNoSeparator(mm, '-');
    } else {
      assert date == head + ['-'] + (mm + ['-'] + date[8..]);
      SplitAtSeparator(head, '-', mm + ['-'] + date[8..]);
      SplitAtSeparator(mm, '-', date[8..]);
    }
    assert head + "-" + mm == date[..7];
  }

  /** Every date-time the program writes is shaped. */
  lemma FormatDateTimeShaped(t: DateTime)
    requires ValidDateTime(t)
    ensures DateShaped(FormatDateTime(t))
  {
    FormatDateTimeFields(t);
    var s := FormatDateTime(t);
    assert s[..7][..4] == s[..4];
    assert s[..7][5..7] == s[5..7];
  }

  /** Every stored result of normalisation is shaped, unless the text was kept as it was. */
  lemma NormalizeShaped(s: string)
    ensures DateShaped(Normalize(s)) || Normalize(s) == s
  {
    if FirstParse(s, Formats).Some? {
      FormatDateTimeShaped(FirstParse(s, Formats).value);
    }
  }
}

=== FILE: finance_stats.dfy ===
/** Statistics over the ledger (`code/finance_stats.py`).

    A scope is a date prefix: a day `YYYY-MM-DD`, a month `YYYY-MM` or a
    year `YYYY`, matched with `date LIKE 'prefix%'`. For a scope the
    program reports the income and expense totals and their difference, a
    per-category breakdown (an inner join with the categories table,
    grouped and sorted by amount), and per-day or per-month buckets; it
    shapes these into chart series and fills a trailing window of months
    for the trend view. */
module FinanceStats {
  import opened Text
  import opened Dates
  import opened Store

  // ---------------------------------------------------------------------
  // Rows in scope
  // ---------------------------------------------------------------------

  function IncomeIn(u: string, prefix: string): Filter
  {
    Filter(u, Some(Income), prefix, None)
  }

  /** `WHERE user_id = u AND date LIKE 'prefix%'`, in ledger order. */
  function InScope(ts: seq<TxRow>, u: string, prefix: string): (r: seq<TxRow>)
    ensures forall x :: x in r <==> x in ts && x.userId == u && StartsWith(x.date, prefix)
    decreases |ts|
  {
    if ts == [] then []
    else
      var last := ts[|ts| - 1];
      var rest := InScope(ts[..|ts| - 1], u, prefix);
      assert ts == ts[..|ts| - 1] + [last];
      if last.userId == u && StartsWith(last.date, prefix) then rest + [last] else rest
  }

  /** `WHERE user_id = u AND date >= from`, in ledger order. */
  function Since(ts: seq<TxRow>, u: string, from: string): (r: seq<TxRow>)
    ensures forall x :: x in r <==> x in ts && x.userId == u && LexLe(from, x.date)
    decreases |ts|
  {
    if ts == [] then []
    else
      var last := ts[|ts| - 1];
      var rest := Since(ts[..|ts| - 1], u, from);
      assert ts == ts[..|ts| - 1] + [last];
      if last.userId == u && LexLe(from, last.date) then rest + [last] else rest
  }

  /** The sum of the amounts of the rows of one type. */
  function KindSum(rows: seq<TxRow>, kind: Kind): int
    decreases |rows|
  {
    if rows == [] then 0
    else KindSum(rows[..|rows| - 1], kind) + (if rows[|rows| - 1].kind == kind then rows[|rows| - 1].amount else 0)
  }

  lemma KindSumAppend(rows: seq<TxRow>, x: TxRow, kind: Kind)
    ensures KindSum(rows + [x], kind) == KindSum(rows, kind) + (if x.kind == kind then x.amount else 0)
  {
    assert (rows + [x])[..|rows|] == rows;
  }

  /** Summing one type over the scope is the scope's total of that type. */
  lemma {:induction false} InScopeSum(ts: seq<TxRow>, u: string, prefix: string, kind: Kind)
    ensures KindSum(InScope(ts, u, prefix), kind) == Total(ts, Filter(u, Some(kind), prefix, None))
    decreases |ts|
  {
    if ts != [] {
      var last := ts[|ts| - 1];
      InScopeSum(ts[..|ts| - 1], u, prefix, kind);
      if last.userId == u && StartsWith(last.date, prefix) {
        KindSumAppend(InScope(ts[..|ts| - 1], u, prefix), last, kind);
      }
    }
  }

  // ---------------------------------------------------------------------
  // Category breakdown
  // ---------------------------------------------------------------------

  /** One row of a category breakdown. */
  datatype CategoryAmount = CategoryAmount(categoryId: string, name: string, icon: string, amount: int)

  /** `{'expense': [...], 'income': [...]}`. */
  datatype CategoryStats = CategoryStats(expense: seq<CategoryAmount>, income: seq<CategoryAmount>)

  function Ids(g: seq<CategoryAmount>): (r: seq<string>)
    ensures |r| == |g| && forall i :: 0 <= i < |g| ==> r[i] == g[i].categoryId
    decreases |g|
  {
    if g == [] then [] else [g[0].categoryId] + Ids(g[1..])
  }

  predicate IdsDistinct(g: seq<CategoryAmount>)
  {
    forall i, j :: 0 <= i < j < |g| ==> g[i].categoryId != g[j].categoryId
  }

  /** The amount of category `id` in a breakdown, 0 without an entry. */
  function AmountOf(g: seq<CategoryAmount>, id: string): int
    decreases |g|
  {
    if g == [] then 0 else if g[0].categoryId == id then g[0].amount else AmountOf(g[1..], id)
  }

  /** Every entry carries the name and icon of its category row. */
  predicate Labelled(g: seq<CategoryAmount>, cs: seq<CategoryRow>)
  {
    forall i :: 0 <= i < |g| ==>
      FindCategory(cs, g[i].categoryId).Some?
      && g[i].name == cs[FindCategory(cs, g[i].categoryId).value].name
      && g[i].icon == cs[FindCategory(cs, g[i].categoryId).value].icon
  }

  /** Add a joined row's amount to its category's group, opening the group if needed. */
  function AddToGroup(g: seq<CategoryAmount>, c: CategoryRow, amount: int): seq<CategoryAmount>
    decreases |g|
  {
    if g == [] then [CategoryAmount(c.categoryId, c.name, c.icon, amount)]
    else if g[0].categoryId == c.categoryId then [g[0].(amount := g[0].amount + amount)] + g[1..]
    else [g[0]] + AddToGroup(g[1..], c, amount)
  }

  /** Adding to a group opens at most the group of `c`. */
  lemma {:induction false} AddToGroupIds(g: seq<CategoryAmount>, c: CategoryRow, amount: int)
    ensures forall id :: id in Ids(AddToGroup(g, c, amount)) <==> id in Ids(g) || id == c.categoryId
    decreases |g|
  {
    var r := AddToGroup(g, c, amount);
    if g != [] {
      if g[0].categoryId != c.categoryId {
        AddToGroupIds(g[1..], c, amount);
        assert r[1..] == AddToGroup(g[1..], c, amount);
      } else {
        assert r[1..] == g[1..];
      }
    }
  }

  /** Adding to a group adds to the amount of `c` alone. */
  lemma {:induction false} AddToGroupAmount(g: seq<CategoryAmount>, c: CategoryRow, amount: int)
    ensures forall id :: AmountOf(AddToGroup(g, c, amount), id) == AmountOf(g, id) + (if id == c.categoryId then amount else 0)
    decreases |g|
  {
    var r := AddToGroup(g, c, amount);
    if g != [] {
      if g[0].categoryId != c.categoryId {
        AddToGroupAmount(g[1..], c, amount);
        assert r[1..] == AddToGroup(g[1..], c, amount);
      } else {
        assert r[1..] == g[1..];
      }
      forall id ensures AmountOf(r, id) == AmountOf(g, id) + (if id == c.categoryId then amount else 0) {
        assert AmountOf(r, id) == if r[0].categoryId == id then r[0].amount else AmountOf(r[1..], id);
        assert AmountOf(g, id) == if g[0].categoryId == id then g[0].amount else AmountOf(g[1..], id);
      }
    }
  }

  /** Adding to a group keeps the ids distinct. */
  lemma {:induction false} AddToGroupDistinct(g: seq<CategoryAmount>, c: CategoryRow, amount: int)
    requires IdsDistinct(g)
    ensures IdsDistinct(AddToGroup(g, c, amount))
    decreases |g|
  {
    var r := AddToGroup(g, c, amount);
    if g != [] && g[0].categoryId != c.categoryId {
      AddToGroupDistinct(g[1..], c, amount);
      AddToGroupIds(g[1..], c, amount);
      assert r[1..] == AddToGroup(g[1..], c, amount);
      forall j | 0 < j < |r| ensures r[j].categoryId != r[0].categoryId {
        assert r[j].categoryId in Ids(r[1..]);
        if r[j].categoryId in Ids(g[1..]) {
          var i :| 0 <= i < |g[1..]| && Ids(g[1..])[i] == r[j].categoryId;
          assert g[i + 1].categoryId == r[j].categoryId;
        }
      }
    }
  }

  lemma {:induction false} AddToGroupLabelled(g: seq<CategoryAmount>, cs: seq<CategoryRow>, k: nat, amount: int)
    requires k < |cs| && FindCategory(cs, cs[k].categoryId) == Some(k) && Labelled(g, cs)
    ensures Labelled(AddToGroup(g, cs[k], amount), cs)
    decreases |g|
  {
    if g != [] && g[0].categoryId != cs[k].categoryId {
      AddToGroupLabelled(g[1..], cs, k, amount);
    }
  }

  /** `FROM transactions t JOIN categories c ... GROUP BY c.category_id`:
      the rows matching `f` whose category exists, summed per category. */
  function Grouped(ts: seq<TxRow>, cs: seq<CategoryRow>, f: Filter): seq<CategoryAmount>
    decreases |ts|
  {
    if ts == [] then []
    else
      var g := Grouped(ts[..|ts| - 1], cs, f);
      var last := ts[|ts| - 1];
      if !Matches(last, f) then g
      else match FindCategory(cs, last.categoryId)
        case None => g
        case Some(k) => AddToGroup(g, cs[k], last.amount)
  }

  /** A row joins when its category row exists. */
  predicate Joins(r: TxRow, cs: seq<CategoryRow>, f: Filter)
  {
    Matches(r, f) && FindCategory(cs, r.categoryId).Some?
  }

  /** The groups have distinct ids: one per category that some joining row has. */
  lemma {:induction false} GroupedIds(ts: seq<TxRow>, cs: seq<CategoryRow>, f: Filter)
    ensures var g := Grouped(ts, cs, f);
      && IdsDistinct(g)
      && (forall id :: id in Ids(g) <==> exists i :: 0 <= i < |ts| && Joins(ts[i], cs, f) && ts[i].categoryId == id)
    decreases |ts|
  {
    if ts != [] {
      var init, last := ts[..|ts| - 1], ts[|ts| - 1];
      GroupedIds(init, cs, f);
      var g, g' := Grouped(init, cs, f), Grouped(ts, cs, f);
      if Matches(last, f) && FindCategory(cs, last.categoryId).Some? {
        AddToGroupIds(g, cs[FindCategory(cs, last.categoryId).value], last.amount);
        AddToGroupDistinct(g, cs[FindCategory(cs, last.categoryId).value], last.amount);
      }
      forall i | 0 <= i < |ts| && Joins(ts[i], cs, f) ensures ts[i].categoryId in Ids(g') {
        if i < |init| {
          assert init[i] == ts[i];
        }
      }
      forall id | id in Ids(g')
        ensures exists i :: 0 <= i < |ts| && Joins(ts[i], cs, f) && ts[i].categoryId == id
      {
        if id in Ids(g) {
          var i :| 0 <= i < |init| && Joins(init[i], cs, f) && init[i].categoryId == id;
          assert ts[i] == init[i];
        } else {
          assert Joins(ts[|ts| - 1], cs, f) && ts[|ts| - 1].categoryId == id;
        }
      }
    }
  }

  /** Each group sums exactly its category's matching rows. */
  lemma {:induction false} GroupedAmounts(ts: seq<TxRow>, cs: seq<CategoryRow>, f: Filter)
    requires f.category.None?
    ensures var g := Grouped(ts, cs, f);
      forall id :: AmountOf(g, id) == if FindCategory(cs, id).Some? then Total(ts, f.(category := Some(id))) else 0
    decreases |ts|
  {
    if ts != [] {
      var init, last := ts[..|ts| - 1], ts[|ts| - 1];
      GroupedAmounts(init, cs, f);
      assert init + [last] == ts;
      if Matches(last, f) && FindCategory(cs, last.categoryId).Some? {
        AddToGroupAmount(Grouped(init, cs, f), cs[FindCategory(cs, last.categoryId).value], last.amount);
      }
      forall id ensures Total(ts, f.(category := Some(id))) ==
        Total(init, f.(category := Some(id))) + Contribution(last, f.(category := Some(id)))
      {
        TotalAppend(init, last, f.(category := Some(id)));
      }
    }
  }

  /** Each group carries its category row's name and icon. */
  lemma {:induction false} GroupedLabelled(ts: seq<TxRow>, cs: seq<CategoryRow>, f: Filter)
    ensures Labelled(Grouped(ts, cs, f), cs)
    decreases |ts|
  {
    if ts != [] {
      var init, last := ts[..|ts| - 1], ts[|ts| - 1];
      GroupedLabelled(init, cs, f);
      if Matches(last, f) && FindCategory(cs, last.categoryId).Some? {
        AddToGroupLabelled(Grouped(init, cs, f), cs, FindCategory(cs, last.categoryId).value, last.amount);
      }
    }
  }

  /** The amount of an entry of a breakdown with distinct ids is its category's amount. */
  lemma {:induction false} AmountOfEntry(g: seq<CategoryAmount>, i: nat)
    requires IdsDistinct(g) && i < |g|
    ensures AmountOf(g, g[i].categoryId) == g[i].amount
    decreases i
  {
    if i > 0 {
      AmountOfEntry(g[1..], i - 1);
    }
  }

  /** `ORDER BY SUM(t.amount) DESC`. */
  predicate ByAmountDesc(s: seq<CategoryAmount>)
  {
    forall i, j :: 0 <= i < j < |s| ==> s[j].amount <= s[i].amount
  }

  function InsertByAmount(x: CategoryAmount, s: seq<CategoryAmount>): (r: seq<CategoryAmount>)
    requires ByAmountDesc(s)
    ensures multiset(r) == multiset(s) + multiset{x}
    ensures forall y :: y in r <==> y == x || y in s
    ensures ByAmountDesc(r)
    decreases |s|
  {
    if s == [] || s[0].amount < x.amount then
      ConsDesc(x, s);
      [x] + s
    else
      var rest := InsertByAmount(x, s[1..]);
      assert s == [s[0]] + s[1..];
      assert multiset([s[0]] + rest) == multiset{s[0]} + multiset(rest);
      ConsDesc(s[0], rest);
      [s[0]] + rest
  }

  /** Putting an entry no smaller than the head in front keeps the order. */
  lemma ConsDesc(h: CategoryAmount, s: seq<CategoryAmount>)
    requires ByAmountDesc(s) && (s == [] || s[0].amount <= h.amount)
    ensures ByAmountDesc([h] + s)
  {
    var r := [h] + s;
    forall i, j | 0 <= i < j < |r| ensures r[j].amount <= r[i].amount {
      if i == 0 {
        assert r[j] == s[j - 1];
      } else {
        assert r[i] == s[i - 1] && r[j] == s[j - 1];
      }
    }
  }

  function SortByAmount(s: seq<CategoryAmount>): (r: seq<CategoryAmount>)
    ensures multiset(r) == multiset(s)
    ensures forall y :: y in r <==> y in s
    ensures ByAmountDesc(r)
    decreases |s|
  {
    if s == [] then []
    else
      assert s == [s[0]] + s[1..];
      InsertByAmount(s[0], SortByAmount(s[1..]))
  }

  lemma {:induction false} SortByAmountDistinct(s: seq<CategoryAmount>)
    requires IdsDistinct(s)
    ensures IdsDistinct(SortByAmount(s))
    decreases |s|
  {
    if s != [] {
      SortByAmountDistinct(s[1..]);
      var sorted := SortByAmount(s[1..]);
      forall y | y in sorted ensures y.categoryId != s[0].categoryId {
        var k :| 0 <= k < |s[1..]| && s[1..][k] == y;
        assert s[k + 1] == y;
      }
      InsertByAmountDistinct(s[0], sorted);
    }
  }

  lemma {:induction false} InsertByAmountDistinct(x: CategoryAmount, s: seq<CategoryAmount>)
    requires ByAmountDesc(s) && IdsDistinct(s)
    requires forall y :: y in s ==> y.categoryId != x.categoryId
    ensures IdsDistinct(InsertByAmount(x, s))
    decreases |s|
  {
    if !(s == [] || s[0].amount < x.amount) {
      assert forall y :: y in s[1..] ==> y in s;
      InsertByAmountDistinct(x, s[1..]);
      var rest := InsertByAmount(x, s[1..]);
      forall y | y in rest ensures y.categoryId != s[0].categoryId {
        if y != x {
          var k :| 0 <= k < |s[1..]| && s[1..][k] == y;
          assert s[k + 1] == y;
        }
      }
    }
  }

  /** One `_get_category_stats*` query: the user's rows of one type in the
      scope, joined, grouped and sorted by amount; [] on failure. */
  function Breakdown(t: Tables, u: string, kind: Kind, prefix: string): (r: seq<CategoryAmount>)
    ensures !t.online ==> r == []
    ensures ByAmountDesc(r)
  {
    if !t.online then [] else SortByAmount(Grouped(t.transactions, t.categories, Filter(u, Some(kind), prefix, None)))
  }

  /** A breakdown has one entry per category that some joining row of the
      scope has; each entry sums exactly that category's rows of the scope
      and carries the name and icon of its category row. A row whose
      category row is missing contributes nothing. */
  lemma BreakdownSpec(t: Tables, u: string, kind: Kind, prefix: string)
    requires t.online
    ensures var r := Breakdown(t, u, kind, prefix);
      var f := Filter(u, Some(kind), prefix, None);
      && IdsDistinct(r) && Labelled(r, t.categories)
      && (forall i :: 0 <= i < |r| ==> r[i].amount == Total(t.transactions, f.(category := Some(r[i].categoryId))))
      && (forall id :: id in Ids(r) <==>
            exists i :: 0 <= i < |t.transactions| && Joins(t.transactions[i], t.categories, f)
                        && t.transactions[i].categoryId == id)
  {
    var f := Filter(u, Some(kind), prefix, None);
    var g := Grouped(t.transactions, t.categories, f);
    GroupedIds(t.transactions, t.categories, f);
    GroupedAmounts(t.transactions, t.categories, f);
    GroupedLabelled(t.transactions, t.categories, f);
    SortByAmountDistinct(g);
    forall j | 0 <= j < |g| ensures g[j].amount == Total(t.transactions, f.(category := Some(g[j].categoryId))) {
      AmountOfEntry(g, j);
    }
    SortedEntries(g, t.transactions, t.categories, f);
  }

  /** Sorting the grouped entries keeps their ids, labels and amounts. */
  lemma SortedEntries(g: seq<CategoryAmount>, ts: seq<TxRow>, cs: seq<CategoryRow>, f: Filter)
    requires Labelled(g, cs)
    requires forall i :: 0 <= i < |g| ==> g[i].amount == Total(ts, f.(category := Some(g[i].categoryId)))
    ensures var r := SortByAmount(g);
      && Labelled(r, cs)
      && (forall i :: 0 <= i < |r| ==> r[i].amount == Total(ts, f.(category := Some(r[i].categoryId))))
      && (forall id :: id in Ids(r) <==> id in Ids(g))
  {
    var r := SortByAmount(g);
    forall i | 0 <= i < |r|
      ensures exists j :: 0 <= j < |g| && g[j] == r[i]
    {
      assert r[i] in r;
    }
    forall id ensures id in Ids(r) <==> id in Ids(g) {
      if id in Ids(g) {
        var j :| 0 <= j < |g| && g[j].categoryId == id;
        assert g[j] in r;
      }
    }
  }

  /** `_get_category_stats`, `_get_category_stats_by_month` and
      `_get_category_stats_by_year`: the two breakdowns of a scope;
      both empty on failure. */
  function CategoryStatsOf(t: Tables, u: string, prefix: string): (r: CategoryStats)
    ensures !t.online ==> r == CategoryStats([], [])
    ensures ByAmountDesc(r.expense) && ByAmountDesc(r.income)
  {
    CategoryStats(Breakdown(t, u, Expense, prefix), Breakdown(t, u, Income, prefix))
  }

  // ---------------------------------------------------------------------
  // Day and month buckets
  // ---------------------------------------------------------------------

  /** `{'date' or 'month': key, 'income': ..., 'expense': ...}`. */
  datatype PeriodStat = PeriodStat(key: string, income: int, expense: int)

  function Keys(bs: seq<PeriodStat>): (r: seq<string>)
    ensures |r| == |bs| && forall i :: 0 <= i < |bs| ==> r[i] == bs[i].key
  {
    seq(|bs|, i requires 0 <= i < |bs| => bs[i].key)
  }

  /** `defaultdict(lambda: {'income': 0, 'expense': 0})[key]`. */
  function Lookup(bs: seq<PeriodStat>, key: string): (r: PeriodStat)
    ensures r.key == key
    decreases |bs|
  {
    if bs == [] then PeriodStat(key, 0, 0)
    else if bs[0].key == key then bs[0]
    else Lookup(bs[1..], key)
  }

  function Credit(p: PeriodStat, kind: Kind, amount: int): PeriodStat
  {
    if kind == Income then p.(income := p.income + amount) else p.(expense := p.expense + amount)
  }

  /** Add an amount to the bucket of `key`, keeping the buckets in key order
      (the dictionary is read back sorted by key). */
  function AddAmount(bs: seq<PeriodStat>, key: string, kind: Kind, amount: int): (r: seq<PeriodStat>)
    requires StrictlyAscending(Keys(bs))
    ensures StrictlyAscending(Keys(r))
    ensures forall k :: k in Keys(r) <==> k in Keys(bs) || k == key
    ensures forall k :: Lookup(r, k) == if k == key then Credit(Lookup(bs, k), kind, amount) else Lookup(bs, k)
    decreases |bs|
  {
    if bs == [] then
      var r := [Credit(PeriodStat(key, 0, 0), kind, amount)];
      assert Keys(r) == [key];
      r
    else if bs[0].key == key then
      KeysTail(bs);
      var r := [Credit(bs[0], kind, amount)] + bs[1..];
      assert Keys(r) == Keys(bs);
      assert r[1..] == bs[1..];
      r
    else if LexLt(key, bs[0].key) then
      KeysFront(bs, key);
      var r := [Credit(PeriodStat(key, 0, 0), kind, amount)] + bs;
      assert Keys(r) == [key] + Keys(bs);
      assert r[1..] == bs;
      r
    else
      KeysTail(bs);
      var rest := AddAmount(bs[1..], key, kind, amount);
      AddBehind(bs, key, kind, amount, rest);
      [bs[0]] + rest
  }

  /** The step of `AddAmount` past a smaller first key. */
  lemma AddBehind(bs: seq<PeriodStat>, key: string, kind: Kind, amount: int, rest: seq<PeriodStat>)
    requires bs != [] && StrictlyAscending(Keys(bs)) && bs[0].key != key && !LexLt(key, bs[0].key)
    requires StrictlyAscending(Keys(rest))
    requires forall k :: k in Keys(rest) <==> k in Keys(bs[1..]) || k == key
    requires forall k :: Lookup(rest, k) == if k == key then Credit(Lookup(bs[1..], k), kind, amount) else Lookup(bs[1..], k)
    ensures var r := [bs[0]] + rest;
      && StrictlyAscending(Keys(r))
      && (forall k :: k in Keys(r) <==> k in Keys(bs) || k == key)
      && (forall k :: Lookup(r, k) == if k == key then Credit(Lookup(bs, k), kind, amount) else Lookup(bs, k))
  {
    KeysTail(bs);
    LexLeTotal(key, bs[0].key);
    KeysBehind(bs[0], rest, bs[1..], key);
    var r := [bs[0]] + rest;
    assert Keys(r) == [bs[0].key] + Keys(rest);
    assert Keys(bs) == [bs[0].key] + Keys(bs[1..]);
    LookupBehind(bs, key, kind, amount, rest);
  }

  lemma LookupBehind(bs: seq<PeriodStat>, key: string, kind: Kind, amount: int, rest: seq<PeriodStat>)
    requires bs != [] && bs[0].key != key
    requires forall k :: Lookup(rest, k) == if k == key then Credit(Lookup(bs[1..], k), kind, amount) else Lookup(bs[1..], k)
    ensures forall k :: Lookup([bs[0]] + rest, k) == if k == key then Credit(Lookup(bs, k), kind, amount) else Lookup(bs, k)
  {
    var r := [bs[0]] + rest;
    assert r[1..] == rest;
    forall k ensures Lookup(r, k) == if k == key then Credit(Lookup(bs, k), kind, amount) else Lookup(bs, k) {
      if bs[0].key != k {
        assert Lookup(r, k) == Lookup(rest, k);
        assert Lookup(bs, k) == Lookup(bs[1..], k);
      }
    }
  }

  /** The keys after the first are strictly above it, and a key after the
      first is never looked up at the head. */
  lemma KeysTail(bs: seq<PeriodStat>)
    requires bs != [] && StrictlyAscending(Keys(bs))
    ensures StrictlyAscending(Keys(bs[1..]))
    ensures forall k :: k in Keys(bs[1..]) ==> LexLt(bs[0].key, k)
  {
    forall k | k in Keys(bs[1..]) ensures LexLt(bs[0].key, k) {
      var j :| 0 <= j < |bs[1..]| && Keys(bs[1..])[j] == k;
      assert Keys(bs)[j + 1] == k;
    }
  }

  /** A key below the first key is below every key, so it is absent. */
  lemma KeysFront(bs: seq<PeriodStat>, key: string)
    requires bs != [] && StrictlyAscending(Keys(bs)) && LexLt(key, bs[0].key)
    ensures key !in Keys(bs) && Lookup(bs, key) == PeriodStat(key, 0, 0)
    ensures StrictlyAscending(Keys([PeriodStat(key, 0, 0)] + bs))
    ensures forall p: PeriodStat :: p.key == key ==> StrictlyAscending(Keys([p] + bs))
  {
    forall j | 0 <= j < |bs| ensures LexLt(key, bs[j].key) {
      if j > 0 {
        LexLtTrans(key, bs[0].key, bs[j].key);
      }
    }
    LookupAbsent(bs, key);
    forall p: PeriodStat | p.key == key ensures StrictlyAscending(Keys([p] + bs)) {
      var ks := Keys([p] + bs);
      forall i, j | 0 <= i < j < |ks| ensures LexLt(ks[i], ks[j]) {
        if i > 0 {
          assert ks[i] == Keys(bs)[i - 1] && ks[j] == Keys(bs)[j - 1];
        }
      }
    }
  }

  /** Looking up an absent key gives the zero bucket. */
  lemma {:induction false} LookupAbsent(bs: seq<PeriodStat>, key: string)
    requires forall j :: 0 <= j < |bs| ==> bs[j].key != key
    ensures Lookup(bs, key) == PeriodStat(key, 0, 0)
    decreases |bs|
  {
    if bs != [] {
      LookupAbsent(bs[1..], key);
    }
  }

  lemma KeysBehind(first: PeriodStat, rest: seq<PeriodStat>, tail: seq<PeriodStat>, key: string)
    requires StrictlyAscending(Keys(rest)) && LexLt(first.key, key)
    requires forall k :: k in Keys(tail) ==> LexLt(first.key, k)
    requires forall k :: k in Keys(rest) <==> k in Keys(tail) || k == key
    ensures StrictlyAscending(Keys([first] + rest))
  {
    var ks := Keys([first] + rest);
    forall i, j | 0 <= i < j < |ks| ensures LexLt(ks[i], ks[j]) {
      assert ks[j] == Keys(rest)[j - 1];
      if i > 0 {
        assert ks[i] == Keys(rest)[i - 1];
      }
    }
  }

  /** The buckets of some rows, keyed by `SUBSTR(date, 1, width)`: the SQL
      `GROUP BY key, type` sums and the dictionary fill, as one fold. */
  function Buckets(rows: seq<TxRow>, width: nat): (r: seq<PeriodStat>)
    ensures StrictlyAscending(Keys(r))
    decreases |rows|
  {
    if rows == [] then []
    else
      var last := rows[|rows| - 1];
      AddAmount(Buckets(rows[..|rows| - 1], width), Substr(last.date, width), last.kind, last.amount)
  }

  /** The sum of the rows of one type whose key is `key`. */
  function KeySum(rows: seq<TxRow>, width: nat, key: string, kind: Kind): int
    decreases |rows|
  {
    if rows == [] then 0
    else
      var last := rows[|rows| - 1];
      KeySum(rows[..|rows| - 1], width, key, kind)
      + (if Substr(last.date, width) == key && last.kind == kind then last.amount else 0)
  }

  /** One bucket per key that has a row. */
  lemma {:induction false} BucketsKeys(rows: seq<TxRow>, width: nat)
    ensures forall k :: k in Keys(Buckets(rows, width)) <==>
      exists i :: 0 <= i < |rows| && Substr(rows[i].date, width) == k
    decreases |rows|
  {
    if rows != [] {
      var init := rows[..|rows| - 1];
      BucketsKeys(init, width);
      var last := Substr(rows[|rows| - 1].date, width);
      assert forall k :: k in Keys(Buckets(rows, width)) <==> k in Keys(Buckets(init, width)) || k == last;
      KeysExtend(rows, width, Keys(Buckets(rows, width)), Keys(Buckets(init, width)));
    }
  }

  /** The keys of all rows are those of all rows but the last, and the last's. */
  lemma KeysExtend(rows: seq<TxRow>, width: nat, all: seq<string>, before: seq<string>)
    requires rows != []
    requires var init := rows[..|rows| - 1];
      forall k :: k in before <==> exists i :: 0 <= i < |init| && Substr(init[i].date, width) == k
    requires forall k :: k in all <==> k in before || k == Substr(rows[|rows| - 1].date, width)
    ensures forall k :: k in all <==> exists i :: 0 <= i < |rows| && Substr(rows[i].date, width) == k
  {
    var init := rows[..|rows| - 1];
    forall k ensures k in all <==> exists i :: 0 <= i < |rows| && Substr(rows[i].date, width) == k {
      if k in before {
        var i :| 0 <= i < |init| && Substr(init[i].date, width) == k;
        assert rows[i] == init[i];
      } else if k != Substr(rows[|rows| - 1].date, width) {
        forall i | 0 <= i < |rows| ensures Substr(rows[i].date, width) != k {
          if i < |init| {
            assert init[i] == rows[i];
          }
        }
      }
    }
  }

  /** Each bucket holds the sums of its key's income rows and of its expense
      rows; a key without rows reads as zero. */
  lemma {:induction false} BucketsLookup(rows: seq<TxRow>, width: nat)
    ensures forall k ::
      Lookup(Buckets(rows, width), k) == PeriodStat(k, KeySum(rows, width, k, Income), KeySum(rows, width, k, Expense))
    decreases |rows|
  {
    if rows == [] {
      forall k ensures Lookup(Buckets(rows, width), k) == PeriodStat(k, 0, 0) {
        LookupAbsent([], k);
      }
    } else {
      BucketsLookup(rows[..|rows| - 1], width);
    }
  }

  function SideSum(bs: seq<PeriodStat>, kind: Kind): int
    decreases |bs|
  {
    if bs == [] then 0 else (if kind == Income then bs[0].income else bs[0].expense) + SideSum(bs[1..], kind)
  }

  lemma {:induction false} AddAmountSum(bs: seq<PeriodStat>, key: string, kind: Kind, amount: int, side: Kind)
    requires StrictlyAscending(Keys(bs))
    ensures SideSum(AddAmount(bs, key, kind, amount), side) == SideSum(bs, side) + (if kind == side then amount else 0)
    decreases |bs|
  {
    if bs != [] && bs[0].key != key && !LexLt(key, bs[0].key) {
      KeysTail(bs);
      AddAmountSum(bs[1..], key, kind, amount, side);
    }
  }

  /** The buckets add up to the rows they were built from. */
  lemma {:induction false} BucketsSum(rows: seq<TxRow>, width: nat, kind: Kind)
    ensures SideSum(Buckets(rows, width), kind) == KindSum(rows, kind)
    decreases |rows|
  {
    if rows != [] {
      var last := rows[|rows| - 1];
      BucketsSum(rows[..|rows| - 1], width, kind);
      AddAmountSum(Buckets(rows[..|rows| - 1], width), Substr(last.date, width), last.kind, last.amount, kind);
    }
  }

  /** `_get_daily_stats_by_month` (width 10) and `_get_monthly_stats_by_year`
      (width 7): the buckets of the user's rows in the scope; [] on failure. */
  function BucketsOf(t: Tables, u: string, prefix: string, width: nat): (r: seq<PeriodStat>)
    ensures !t.online ==> r == []
    ensures StrictlyAscending(Keys(r))
  {
    if !t.online then [] else Buckets(InScope(t.transactions, u, prefix), width)
  }

  /** The buckets of a scope have exactly the keys of the scope's rows, and
      their income and expense columns add up to the scope's totals. */
  lemma BucketsOfSpec(t: Tables, u: string, prefix: string, width: nat)
    requires t.online
    ensures var r := BucketsOf(t, u, prefix, width);
      && (forall k :: k in Keys(r) <==>
            exists x :: x in t.transactions && x.userId == u && StartsWith(x.date, prefix) && Substr(x.date, width) == k)
      && SideSum(r, Income) == Total(t.transactions, IncomeIn(u, prefix))
      && SideSum(r, Expense) == Total(t.transactions, ExpenseIn(u, prefix))
  {
    var rows := InScope(t.transactions, u, prefix);
    BucketsKeys(rows, width);
    BucketsSum(rows, width, Income);
    BucketsSum(rows, width, Expense);
    InScopeSum(t.transactions, u, prefix, Income);
    InScopeSum(t.transactions, u, prefix, Expense);
    forall x | x in t.transactions && x.userId == u && StartsWith(x.date, prefix)
      ensures Substr(x.date, width) in Keys(BucketsOf(t, u, prefix, width))
    {
      assert x in rows;
      var i :| 0 <= i < |rows| && rows[i] == x;
    }
    forall k | k in Keys(BucketsOf(t, u, prefix, width))
      ensures exists x :: x in t.transactions && x.userId == u && StartsWith(x.date, prefix) && Substr(x.date, width) == k
    {
      var i :| 0 <= i < |rows| && Substr(rows[i].date, width) == k;
      assert rows[i] in rows;
    }
  }

  // ---------------------------------------------------------------------
  // What a breakdown adds up to
  // ---------------------------------------------------------------------

  /** The sum of the amounts of a breakdown: the whole of a pie chart. */
  function AmountSum(g: seq<CategoryAmount>): int
    decreases |g|
  {
    if g == [] then 0 else g[0].amount + AmountSum(g[1..])
  }

  lemma {:induction false} AddToGroupSum(g: seq<CategoryAmount>, c: CategoryRow, amount: int)
    ensures AmountSum(AddToGroup(g, c, amount)) == AmountSum(g) + amount
    decreases |g|
  {
    if g != [] {
      var r := AddToGroup(g, c, amount);
      if g[0].categoryId == c.categoryId {
        assert r[1..] == g[1..];
      } else {
        AddToGroupSum(g[1..], c, amount);
        assert r[1..] == AddToGroup(g[1..], c, amount);
      }
    }
  }

  /** When every matching row has its category row, the groups add up to
      the total of the matching rows. */
  lemma {:induction false} GroupedSum(ts: seq<TxRow>, cs: seq<CategoryRow>, f: Filter)
    requires forall x :: x in ts && Matches(x, f) ==> FindCategory(cs, x.categoryId).Some?
    ensures AmountSum(Grouped(ts, cs, f)) == Total(ts, f)
    decreases |ts|
  {
    if ts != [] {
      var init, last := ts[..|ts| - 1], ts[|ts| - 1];
      assert forall x :: x in init ==> x in ts;
      GroupedSum(init, cs, f);
      if Matches(last, f) {
        assert last in ts;
        AddToGroupSum(Grouped(init, cs, f), cs[FindCategory(cs, last.categoryId).value], last.amount);
      }
    }
  }

  lemma {:induction false} InsertByAmountSum(x: CategoryAmount, s: seq<CategoryAmount>)
    requires ByAmountDesc(s)
    ensures AmountSum(InsertByAmount(x, s)) == x.amount + AmountSum(s)
    decreases |s|
  {
    var r := InsertByAmount(x, s);
    if s == [] || s[0].amount < x.amount {
      assert r[1..] == s;
    } else {
      InsertByAmountSum(x, s[1..]);
      assert r[1..] == InsertByAmount(x, s[1..]);
    }
  }

  lemma {:induction false} SortByAmountSum(s: seq<CategoryAmount>)
    ensures AmountSum(SortByAmount(s)) == AmountSum(s)
    decreases |s|
  {
    if s != [] {
      SortByAmountSum(s[1..]);
      InsertByAmountSum(s[0], SortByAmount(s[1..]));
    }
  }

  /** A breakdown accounts for the whole total of its scope exactly when no
      row is lost in the join: here, when every row of the scope has its
      category row. */
  lemma BreakdownSum(t: Tables, u: string, kind: Kind, prefix: string)
    requires t.online
    requires forall x :: x in t.transactions && Matches(x, Filter(u, Some(kind), prefix, None)) ==>
      FindCategory(t.categories, x.categoryId).Some?
    ensures AmountSum(Breakdown(t, u, kind, prefix)) == Total(t.transactions, Filter(u, Some(kind), prefix, None))
  {
    var f := Filter(u, Some(kind), prefix, None);
    GroupedSum(t.transactions, t.categories, f);
    SortByAmountSum(Grouped(t.transactions, t.categories, f));
  }

  /** A scope without rows has an empty breakdown. */
  lemma BreakdownEmpty(t: Tables, u: string, kind: Kind, prefix: string)
    requires forall x :: x in t.transactions && x.userId == u ==> !StartsWith(x.date, prefix)
    ensures Breakdown(t, u, kind, prefix) == []
  {
    var f := Filter(u, Some(kind), prefix, None);
    var g := Grouped(t.transactions, t.categories, f);
    GroupedIds(t.transactions, t.categories, f);
    forall i | 0 <= i < |t.transactions| ensures !Joins(t.transactions[i], t.categories, f) {
      assert t.transactions[i] in t.transactions;
    }
    if g != [] {
      assert Ids(g)[0] in Ids(g);
    }
  }

  // ---------------------------------------------------------------------
  // Daily, monthly and yearly reports
  // ---------------------------------------------------------------------

  datatype Scope = Daily | Monthly | Yearly

  /** The period used when none is given: today, this month or this year,
      as `datetime.now().strftime` writes them. */
  function DefaultPeriod(scope: Scope, now: Timestamp): (r: string)
    ensures r != ""
  {
    match scope
    case Daily => FormatDay(now.date)
    case Monthly => FormatMonth(now.date)
    case Yearly => Pad4(now.date.year)
  }

  /** The default period is the day, month or year of `now`: a prefix of
      `now` as the ledger writes it, of the scope's width. */
  lemma DefaultPeriodOfNow(scope: Scope, now: Timestamp)
    ensures |DefaultPeriod(scope, now)| == match scope case Daily => 10 case Monthly => 7 case Yearly => 4
    ensures StartsWith(FormatDateTime(now), DefaultPeriod(scope, now))
  {
    var s := FormatDateTime(now);
    FormatDateTimeFields(now);
    assert s[..10] == FormatDay(now.date);
    assert s[..7] == FormatMonth(now.date) by {
      assert s[..7] == s[..10][..7];
    }
  }

  /** The period a report covers: the one given, or the default for a
      missing (empty) one. */
  function PeriodOf(scope: Scope, period: string, now: Timestamp): (r: string)
    ensures r != ""
    ensures period != "" ==> r == period
  {
    if period == "" then DefaultPeriod(scope, now) else period
  }

  /** The dictionary a `calculate_*_stats` call returns; `buckets` is
      `daily_stats` for a month, `monthly_stats` for a year and empty for a
      day, which has none. */
  datatype Report = Report(period: string, totalIncome: int, totalExpense: int, balance: int,
                           buckets: seq<PeriodStat>, categories: CategoryStats)

  /** `calculate_daily_stats`, `calculate_monthly_stats` and
      `calculate_yearly_stats`: the totals of the period, their difference,
      the buckets and the breakdown; None when the store fails. */
  function ReportSpec(t: Tables, u: string, scope: Scope, period: string, now: Timestamp): (r: Option<Report>)
    ensures r.None? <==> !t.online
    ensures r.Some? ==> r.value.period != ""
    ensures r.Some? ==> r.value.balance == r.value.totalIncome - r.value.totalExpense
  {
    if !t.online then None else Some(ReportOf(t, u, scope, PeriodOf(scope, period, now)))
  }

  /** The report of the period `p` from a store that answers. */
  function ReportOf(t: Tables, u: string, scope: Scope, p: string): (r: Report)
    ensures r.period == p
    ensures r.balance == r.totalIncome - r.totalExpense
    ensures StrictlyAscending(Keys(r.buckets))
  {
    var income := Total(t.transactions, IncomeIn(u, p));
    var expense := Total(t.transactions, ExpenseIn(u, p));
    Report(p, income, expense, income - expense, ScopeBuckets(t, u, scope, p), CategoryStatsOf(t, u, p))
  }

  /** The `daily_stats` of a month, the `monthly_stats` of a year; a day has none. */
  function ScopeBuckets(t: Tables, u: string, scope: Scope, p: string): (r: seq<PeriodStat>)
    ensures StrictlyAscending(Keys(r))
  {
    match scope
    case Daily => []
    case Monthly => BucketsOf(t, u, p, 10)
    case Yearly => BucketsOf(t, u, p, 7)
  }

  /** The buckets of a month or a year split its totals: their columns add
      up to the two totals, and there is one bucket per day or month that
      has a row of the period. */
  lemma ReportBucketsAddUp(t: Tables, u: string, scope: Scope, period: string, now: Timestamp)
    requires t.online && scope != Daily
    ensures var r := ReportSpec(t, u, scope, period, now).value;
      var width := if scope == Monthly then 10 else 7;
      && SideSum(r.buckets, Income) == r.totalIncome
      && SideSum(r.buckets, Expense) == r.totalExpense
      && (forall k :: k in Keys(r.buckets) <==>
            exists x :: x in t.transactions && x.userId == u && StartsWith(x.date, r.period) && Substr(x.date, width) == k)
  {
    var r := ReportSpec(t, u, scope, period, now).value;
    BucketsOfSpec(t, u, r.period, if scope == Monthly then 10 else 7);
  }

  /** When every row of the period has its category row, the two
      breakdowns add up to the two totals. */
  lemma ReportCategoriesAddUp(t: Tables, u: string, scope: Scope, period: string, now: Timestamp)
    requires t.online
    requires forall x :: x in t.transactions && x.userId == u ==> FindCategory(t.categories, x.categoryId).Some?
    ensures var r := ReportSpec(t, u, scope, period, now).value;
      && AmountSum(r.categories.expense) == r.totalExpense
      && AmountSum(r.categories.income) == r.totalIncome
  {
    var r := ReportSpec(t, u, scope, period, now).value;
    BreakdownSum(t, u, Expense, r.period);
    BreakdownSum(t, u, Income, r.period);
  }

  /** The headline figures: each total is the sum of the amounts of that
      type among the user's rows of the period (0 when there are none), and
      the balance is income minus expense. */
  lemma ReportTotals(t: Tables, u: string, scope: Scope, period: string, now: Timestamp)
    requires t.online
    ensures var r := ReportSpec(t, u, scope, period, now).value;
      var rows := InScope(t.transactions, u, r.period);
      && r.period == PeriodOf(scope, period, now)
      && r.totalIncome == Total(t.transactions, IncomeIn(u, r.period)) == KindSum(rows, Income)
      && r.totalExpense == Total(t.transactions, ExpenseIn(u, r.period)) == KindSum(rows, Expense)
      && r.balance == r.totalIncome - r.totalExpense
      && (rows == [] ==> r.totalIncome == 0 && r.totalExpense == 0 && r.balance == 0)
  {
    var p := PeriodOf(scope, period, now);
    InScopeSum(t.transactions, u, p, Income);
    InScopeSum(t.transactions, u, p, Expense);
  }

  /** A period without rows reports zeros and empty lists. */
  lemma ReportEmpty(t: Tables, u: string, scope: Scope, period: string, now: Timestamp)
    requires t.online && period != ""
    requires forall x :: x in t.transactions && x.userId == u ==> !StartsWith(x.date, period)
    ensures ReportSpec(t, u, scope, period, now) == Some(Report(period, 0, 0, 0, [], CategoryStats([], [])))
  {
    forall i | 0 <= i < |t.transactions| ensures !Matches(t.transactions[i], IncomeIn(u, period)) {
      assert t.transactions[i] in t.transactions;
    }
    forall i | 0 <= i < |t.transactions| ensures !Matches(t.transactions[i], ExpenseIn(u, period)) {
      assert t.transactions[i] in t.transactions;
    }
    TotalNoMatch(t.transactions, IncomeIn(u, period));
    TotalNoMatch(t.transactions, ExpenseIn(u, period));
    BreakdownEmpty(t, u, Expense, period);
    BreakdownEmpty(t, u, Income, period);
  }

  // ---------------------------------------------------------------------
  // Chart series
  // ---------------------------------------------------------------------

  /** `{'name': ..., 'value': ...}`, one slice of a pie chart. */
  datatype Slice = Slice(name: string, value: int)

  /** The series `generate_charts` returns, colours aside: a daily pie and
      income/expense bar, a monthly line chart per day, a yearly bar chart
      per month; the last two also carry the pie. */
  datatype Chart =
    | DailyChart(pie: seq<Slice>, barLabels: seq<string>, barData: seq<int>)
    | LineChart(labels: seq<string>, income: seq<int>, expense: seq<int>, pie: seq<Slice>)
    | BarChart(labels: seq<string>, income: seq<int>, expense: seq<int>, pie: seq<Slice>)

  function Pie(g: seq<CategoryAmount>): (r: seq<Slice>)
    ensures |r| == |g| && forall i :: 0 <= i < |g| ==> r[i] == Slice(g[i].name, g[i].amount)
  {
    seq(|g|, i requires 0 <= i < |g| => Slice(g[i].name, g[i].amount))
  }

  /** The sum of the values of a pie. */
  function SliceSum(s: seq<Slice>): int
    decreases |s|
  {
    if s == [] then 0 else s[0].value + SliceSum(s[1..])
  }

  lemma {:induction false} PieSum(g: seq<CategoryAmount>)
    ensures SliceSum(Pie(g)) == AmountSum(g)
    decreases |g|
  {
    if g != [] {
      PieSum(g[1..]);
      assert Pie(g)[1..] == Pie(g[1..]);
    }
  }

  function Incomes(bs: seq<PeriodStat>): (r: seq<int>)
    ensures |r| == |bs| && forall i :: 0 <= i < |bs| ==> r[i] == bs[i].income
  {
    seq(|bs|, i requires 0 <= i < |bs| => bs[i].income)
  }

  function Expenses(bs: seq<PeriodStat>): (r: seq<int>)
    ensures |r| == |bs| && forall i :: 0 <= i < |bs| ==> r[i] == bs[i].expense
  {
    seq(|bs|, i requires 0 <= i < |bs| => bs[i].expense)
  }

  /** `[item[key].split('-')[field] for item in buckets]`; None where a key
      has too few pieces (IndexError). */
  function Labels(bs: seq<PeriodStat>, field: nat): (r: Option<seq<string>>)
    ensures r.Some? <==> forall i :: 0 <= i < |bs| ==> field < |Split(bs[i].key, '-')|
    ensures r.Some? ==> |r.value| == |bs| && forall i :: 0 <= i < |bs| ==> r.value[i] == Split(bs[i].key, '-')[field]
    decreases |bs|
  {
    if bs == [] then Some([])
    else
      var pieces := Split(bs[0].key, '-');
      if |pieces| <= field then None
      else match Labels(bs[1..], field)
        case None => None
        case Some(rest) => Some([pieces[field]] + rest)
  }

  /** The chart types `generate_charts` knows. */
  function ScopeOf(chartType: string): (r: Option<Scope>)
    ensures r == Some(Daily) <==> chartType == "daily"
    ensures r == Some(Monthly) <==> chartType == "monthly"
    ensures r == Some(Yearly) <==> chartType == "yearly"
  {
    if chartType == "daily" then Some(Daily)
    else if chartType == "monthly" then Some(Monthly)
    else if chartType == "yearly" then Some(Yearly)
    else None
  }

  /** The chart of a report: labels are the day of a `YYYY-MM-DD` key or the
      month of a `YYYY-MM` key. */
  function ChartOf(scope: Scope, rep: Report): Option<Chart>
  {
    var pie := Pie(rep.categories.expense);
    match scope
    case Daily => Some(DailyChart(pie, [KindLabel(Income), KindLabel(Expense)], [rep.totalIncome, rep.totalExpense]))
    case Monthly =>
      (match Labels(rep.buckets, 2)
       case None => None
       case Some(ls) => Some(LineChart(ls, Incomes(rep.buckets), Expenses(rep.buckets), pie)))
    case Yearly =>
      (match Labels(rep.buckets, 1)
       case None => None
       case Some(ls) => Some(BarChart(ls, Incomes(rep.buckets), Expenses(rep.buckets), pie)))
  }

  /** `generate_charts`: None for an unknown chart type, a failed report or a
      bucket key without the field its label needs. */
  function ChartSpec(t: Tables, u: string, chartType: string, period: string, now: Timestamp): (r: Option<Chart>)
    ensures ScopeOf(chartType).None? || !t.online ==> r.None?
    ensures r.Some? ==>
      && (r.value.DailyChart? <==> chartType == "daily")
      && (r.value.LineChart? <==> chartType == "monthly")
      && (r.value.BarChart? <==> chartType == "yearly")
  {
    match ScopeOf(chartType)
    case None => None
    case Some(scope) =>
      match ReportSpec(t, u, scope, period, now)
      case None => None
      case Some(rep) => ChartOf(scope, rep)
  }

  /** A chart is drawn from the same report the statistics call returns for
      the period. */
  lemma ChartSeries(t: Tables, u: string, chartType: string, period: string, now: Timestamp)
    requires t.online && ScopeOf(chartType).Some?
    ensures var scope := ScopeOf(chartType).value;
      && ReportSpec(t, u, scope, period, now).Some?
      && ChartSpec(t, u, chartType, period, now) == ChartOf(scope, ReportSpec(t, u, scope, period, now).value)
  {
  }

  /** The series of a monthly or yearly chart run parallel to the report's
      buckets, the pie lists the expense breakdown, and the chart exists
      exactly when every bucket key has the field its label is cut from. */
  lemma ChartOfSeries(scope: Scope, rep: Report)
    requires scope != Daily
    ensures var field := if scope == Monthly then 2 else 1;
      var c := ChartOf(scope, rep);
      && (c.Some? <==> forall i :: 0 <= i < |rep.buckets| ==> field < |Split(rep.buckets[i].key, '-')|)
      && (c.Some? ==>
            && (c.value.LineChart? <==> scope == Monthly)
            && |c.value.labels| == |c.value.income| == |c.value.expense| == |rep.buckets|
            && (forall i :: 0 <= i < |rep.buckets| ==>
                  && c.value.labels[i] == Split(rep.buckets[i].key, '-')[field]
                  && c.value.income[i] == rep.buckets[i].income
                  && c.value.expense[i] == rep.buckets[i].expense)
            && c.value.pie == Pie(rep.categories.expense))
  {
  }

  /** The daily chart shows the two totals and the expense breakdown; when
      every row of the day has its category row, the pie adds up to the
      expense bar. */
  lemma DailyChartShape(t: Tables, u: string, period: string, now: Timestamp)
    requires t.online
    requires forall x :: x in t.transactions && x.userId == u ==> FindCategory(t.categories, x.categoryId).Some?
    ensures var rep := ReportSpec(t, u, Daily, period, now).value;
      var c := ChartSpec(t, u, "daily", period, now);
      && c == Some(DailyChart(Pie(rep.categories.expense), ["收入", "支出"], [rep.totalIncome, rep.totalExpense]))
      && SliceSum(c.value.pie) == c.value.barData[1]
  {
    var rep := ReportSpec(t, u, Daily, period, now).value;
    ReportCategoriesAddUp(t, u, Daily, period, now);
    PieSum(rep.categories.expense);
  }

  /** A day key `YYYY-MM-DD`. */
  predicate IsDayKey(k: string)
  {
    |k| == 10 && IsMonthKey(k[..7]) && k[7] == '-' && AllDigits(k[8..10])
  }

  /** A day key splits into year, month and day; a month key into year and month. */
  lemma SplitKeys(k: string)
    ensures IsDayKey(k) ==> Split(k, '-') == [k[..4], k[5..7], k[8..10]]
    ensures IsMonthKey(k) ==> Split(k, '-') == [k[..4], k[5..7]]
  {
    if IsDayKey(k) {
      var y, m, d := k[..4], k[5..7], k[8..10];
      assert y == k[..7][..4] && m == k[..7][5..7];
      assert '-' !in y && '-' !in m && '-' !in d;
      assert k == y + ['-'] + (m + ['-'] + d);
      SplitAtSeparator(y, '-', m + ['-'] + d);
      SplitAtSeparator(m, '-', d);
      SplitNoSeparator(d, '-');
    }
    if IsMonthKey(k) {
      var y, m := k[..4], k[5..7];
      assert '-' !in y && '-' !in m;
      assert k == y + ['-'] + m;
      SplitAtSeparator(y, '-', m);
      SplitNoSeparator(m, '-');
    }
  }

  /** Every date the program writes has a day key and a month key at its head. */
  lemma WrittenDateKeys(t: DateTime)
    requires ValidDateTime(t)
    ensures IsDayKey(Substr(FormatDateTime(t), 10)) && IsMonthKey(Substr(FormatDateTime(t), 7))
  {
    FormatDateTimeShaped(t);
    FormatDateTimeFields(t);
    var s := FormatDateTime(t);
    assert Substr(s, 10) == s[..10] && Substr(s, 7) == s[..7];
    assert s[..10][..7] == s[..7];
    assert s[..10][8..10] == s[8..10];
  }

  /** With day keys, the monthly labels are the days of the month; with
      month keys, the yearly labels are the months. */
  lemma KeyLabels(bs: seq<PeriodStat>)
    ensures (forall i :: 0 <= i < |bs| ==> IsDayKey(bs[i].key)) ==>
      Labels(bs, 2).Some? && forall i :: 0 <= i < |bs| ==> Labels(bs, 2).value[i] == bs[i].key[8..10]
    ensures (forall i :: 0 <= i < |bs| ==> IsMonthKey(bs[i].key)) ==>
      Labels(bs, 1).Some? && forall i :: 0 <= i < |bs| ==> Labels(bs, 1).value[i] == bs[i].key[5..7]
  {
    forall i | 0 <= i < |bs| {
      SplitKeys(bs[i].key);
    }
  }

  /** A stored date of exactly seven characters (`YYYY-MM`, which the
      ledger keeps as written) gives a day bucket without a day, and the
      monthly chart of its month fails. */
  lemma ShortDateBreaksMonthlyChart(now: Timestamp)
    ensures var t := Tables(true, [], [], [TxRow("t1", 100, Expense, "c", "2023-05", "", "u")], []);
      && ReportSpec(t, "u", Monthly, "2023-05", now).Some?
      && ChartSpec(t, "u", "monthly", "2023-05", now).None?
  {
    var t := Tables(true, [], [], [TxRow("t1", 100, Expense, "c", "2023-05", "", "u")], []);
    ShortDateBucket(t);
    ShortDateHasNoDay();
    MonthlyChartNeedsDays(t, "u", "2023-05", now);
  }

  /** A monthly chart exists only when every bucket key of the month has a
      day field to label it with. */
  lemma MonthlyChartNeedsDays(t: Tables, u: string, period: string, now: Timestamp)
    requires t.online && period != ""
    ensures ReportSpec(t, u, Monthly, period, now).Some?
    ensures ChartSpec(t, u, "monthly", period, now).None? <==> Labels(BucketsOf(t, u, period, 10), 2).None?
  {
    var rep := ReportOf(t, u, Monthly, period);
    assert ReportSpec(t, u, Monthly, period, now) == Some(rep);
    assert rep.buckets == BucketsOf(t, u, period, 10);
  }

  /** The month's one row, dated "2023-05", makes one day bucket keyed "2023-05". */
  lemma ShortDateBucket(t: Tables)
    requires t == Tables(true, [], [], [TxRow("t1", 100, Expense, "c", "2023-05", "", "u")], [])
    ensures BucketsOf(t, "u", "2023-05", 10) == [PeriodStat("2023-05", 0, 100)]
  {
    var x := t.transactions[0];
    assert StartsWith(x.date, "2023-05");
    assert [x][..0] == [];
    assert InScope([x], "u", "2023-05") == [x];
    assert Substr(x.date, 10) == "2023-05";
    assert Buckets([x], 10) == AddAmount([], "2023-05", Expense, 100);
  }

  /** "2023-05" splits into two pieces, so it has no day field. */
  lemma ShortDateHasNoDay()
    ensures Labels([PeriodStat("2023-05", 0, 100)], 2).None?
  {
    assert "2023-05" == "2023" + ['-'] + "05";
    SplitAtSeparator("2023", '-', "05");
    SplitNoSeparator("05", '-');
  }

  // ---------------------------------------------------------------------
  // The trend window
  // ---------------------------------------------------------------------

  /** `if month_str not in monthly_dict: monthly_dict[month_str] = zeros`. */
  function AddZero(bs: seq<PeriodStat>, key: string): (r: seq<PeriodStat>)
    requires StrictlyAscending(Keys(bs))
    ensures StrictlyAscending(Keys(r))
    ensures forall k :: k in Keys(r) <==> k in Keys(bs) || k == key
    ensures forall k :: Lookup(r, k) == Lookup(bs, k)
  {
    if key in Keys(bs) then bs else AddAmount(bs, key, Income, 0)
  }

  /** The dates the fill loop visits from `current` while it is not after
      `end`; None when a step leaves the calendar (OverflowError). */
  function Visits(current: Date, end: Date): (r: Option<seq<Date>>)
    requires ValidDate(current)
    ensures r.Some? ==> forall i :: 0 <= i < |r.value| ==> ValidDate(r.value[i]) && Ordinal(r.value[i]) <= Ordinal(end)
    ensures r.Some? && r.value != [] ==> r.value[0] == current
    ensures r.Some? ==> (r.value == [] <==> Ordinal(end) < Ordinal(current))
    decreases Ordinal(end) - Ordinal(current)
  {
    if Ordinal(end) < Ordinal(current) then Some([])
    else match StepMonth(current)
      case None => None
      case Some(next) =>
        match Visits(next, end)
        case None => None
        case Some(vs) => Some([current] + vs)
  }

  /** `strftime('%Y-%m')` of each visited date. */
  function MonthsOf(vs: seq<Date>): (r: seq<string>)
    requires forall i :: 0 <= i < |vs| ==> ValidDate(vs[i])
    ensures |r| == |vs| && forall i :: 0 <= i < |vs| ==> r[i] == FormatMonth(vs[i])
    decreases |vs|
  {
    if vs == [] then [] else [FormatMonth(vs[0])] + MonthsOf(vs[1..])
  }

  /** The fill loop of `get_trends` from `current` to `end`, both inclusive:
      each visited month gets a bucket if it has none. */
  function FillFrom(bs: seq<PeriodStat>, current: Date, end: Date): (r: Option<seq<PeriodStat>>)
    requires ValidDate(current) && StrictlyAscending(Keys(bs))
    ensures r.Some? <==> Visits(current, end).Some?
    ensures r.Some? ==> StrictlyAscending(Keys(r.value))
    ensures r.Some? ==> forall k :: Lookup(r.value, k) == Lookup(bs, k)
    ensures r.Some? ==> forall k :: k in Keys(r.value) <==> k in Keys(bs) || k in MonthsOf(Visits(current, end).value)
    decreases Ordinal(end) - Ordinal(current)
  {
    if Ordinal(end) < Ordinal(current) then Some(bs)
    else
      var next := AddZero(bs, FormatMonth(current));
      match StepMonth(current)
      case None => None
      case Some(c) =>
        var r := FillFrom(next, c, end);
        if r.Some? then
          var vs := Visits(c, end).value;
          assert MonthsOf(Visits(current, end).value) == [FormatMonth(current)] + MonthsOf(vs) by {
            assert ([current] + vs)[1..] == vs;
          }
          r
        else r
  }

  /** From the first of a month, a step is the first of the next month, or
      an overflow after December 9999. */
  lemma StepFromFirst(d: Date)
    requires ValidDate(d) && d.day == 1
    ensures StepMonth(d) == if ValidDate(NextMonthStart(d)) then Some(NextMonthStart(d)) else None
  {
    if ValidDate(NextMonthStart(d)) {
      ShiftAcrossMonthEnd(d, 32);
    } else {
      ShiftWithinMonth(d, 30);
      ShiftCompose(d, 30, 2);
    }
  }

  /** After the first visit the loop walks the firsts of consecutive
      months, and when it takes at least one step its last visit is the
      first of the month of `end`. */
  lemma VisitsWalkMonths(current: Date, end: Date)
    requires ValidDate(current) && Visits(current, end).Some?
    ensures var vs := Visits(current, end).value;
      && (forall i :: 1 <= i < |vs| ==> vs[i].day == 1)
      && (forall i :: 2 <= i < |vs| ==> vs[i] == NextMonthStart(vs[i - 1]))
      && (|vs| >= 2 ==> Ordinal(vs[|vs| - 1]) <= Ordinal(end) < Ordinal(NextMonthStart(vs[|vs| - 1])))
  {
    var vs := Visits(current, end).value;
    VisitsFirstDays(current, end, vs);
    VisitsConsecutive(current, end, vs);
    VisitsLast(current, end, vs);
  }

  lemma {:induction false} VisitsFirstDays(current: Date, end: Date, vs: seq<Date>)
    requires ValidDate(current) && Visits(current, end) == Some(vs)
    ensures forall i :: 1 <= i < |vs| ==> vs[i].day == 1
    decreases Ordinal(end) - Ordinal(current)
  {
    if vs != [] {
      VisitsStep(current, end);
      var c := StepMonth(current).value;
      var rest := Visits(c, end).value;
      VisitsFirstDays(c, end, rest);
      FirstDaysCons(current, rest);
    }
  }

  /** Prepending a visit keeps every later visit on the first of a month. */
  lemma FirstDaysCons(d: Date, rest: seq<Date>)
    requires rest != [] ==> rest[0].day == 1
    requires forall i :: 1 <= i < |rest| ==> rest[i].day == 1
    ensures forall i :: 1 <= i < |[d] + rest| ==> ([d] + rest)[i].day == 1
  {
    forall i | 1 <= i < |[d] + rest| ensures ([d] + rest)[i].day == 1 {
      assert ([d] + rest)[i] == rest[i - 1];
    }
  }

  lemma {:induction false} VisitsConsecutive(current: Date, end: Date, vs: seq<Date>)
    requires ValidDate(current) && Visits(current, end) == Some(vs)
    ensures forall i :: 2 <= i < |vs| ==> vs[i] == NextMonthStart(vs[i - 1])
    decreases Ordinal(end) - Ordinal(current)
  {
    if vs != [] {
      VisitsStep(current, end);
      var c := StepMonth(current).value;
      var rest := Visits(c, end).value;
      VisitsConsecutive(c, end, rest);
      if |rest| >= 2 {
        VisitsStep(c, end);
        StepFromFirst(c);
      }
      ConsecutiveCons(current, rest);
    }
  }

  /** Prepending a visit keeps the later visits consecutive firsts of months. */
  lemma ConsecutiveCons(d: Date, rest: seq<Date>)
    requires |rest| >= 2 ==> rest[1] == NextMonthStart(rest[0])
    requires forall i :: 2 <= i < |rest| ==> rest[i] == NextMonthStart(rest[i - 1])
    ensures forall i :: 2 <= i < |[d] + rest| ==> ([d] + rest)[i] == NextMonthStart(([d] + rest)[i - 1])
  {
    forall i | 2 <= i < |[d] + rest| ensures ([d] + rest)[i] == NextMonthStart(([d] + rest)[i - 1]) {
      assert ([d] + rest)[i] == rest[i - 1] && ([d] + rest)[i - 1] == rest[i - 2];
    }
  }

  /** `end` falls in the month that starts at `first`. */
  predicate InMonth(end: Date, first: Date)
  {
    Ordinal(first) <= Ordinal(end) < Ordinal(NextMonthStart(first))
  }

  /** The loop stops at `last` because one more step would pass `end`. */
  predicate StepsPast(last: Date, end: Date)
    requires ValidDate(last)
  {
    StepMonth(last).Some? && Ordinal(end) < Ordinal(StepMonth(last).value)
  }

  /** A walk that visits anything steps once and walks on from there. */
  lemma VisitsStep(current: Date, end: Date)
    requires ValidDate(current) && Visits(current, end).Some? && Visits(current, end).value != []
    ensures StepMonth(current).Some? && Visits(StepMonth(current).value, end).Some?
    ensures Visits(current, end).value == [current] + Visits(StepMonth(current).value, end).value
    ensures var vs := Visits(current, end).value;
      var rest := Visits(StepMonth(current).value, end).value;
      rest != [] ==> vs[|vs| - 1] == rest[|rest| - 1]
  {
  }

  lemma {:induction false} VisitsStops(current: Date, end: Date)
    requires ValidDate(current) && Visits(current, end).Some?
    ensures var vs := Visits(current, end).value;
      vs != [] ==> StepsPast(vs[|vs| - 1], end)
    decreases Ordinal(end) - Ordinal(current)
  {
    var vs := Visits(current, end).value;
    if vs != [] {
      VisitsStep(current, end);
      var c := StepMonth(current).value;
      var rest := Visits(c, end).value;
      if rest != [] {
        VisitsStops(c, end);
      }
    }
  }

  lemma VisitsLast(current: Date, end: Date, vs: seq<Date>)
    requires ValidDate(current) && Visits(current, end) == Some(vs)
    ensures |vs| >= 2 ==> InMonth(end, vs[|vs| - 1])
  {
    if |vs| >= 2 {
      LastVisitFacts(current, end, vs);
      StopInMonth(vs[|vs| - 1], end);
    }
  }

  lemma LastVisitFacts(current: Date, end: Date, vs: seq<Date>)
    requires ValidDate(current) && Visits(current, end) == Some(vs) && |vs| >= 2
    ensures var last := vs[|vs| - 1];
      ValidDate(last) && last.day == 1 && Ordinal(last) <= Ordinal(end) && StepsPast(last, end)
  {
    VisitsFirstDays(current, end, vs);
    VisitsStops(current, end);
  }

  /** Stopping after the first of a month that does not pass `end` means
      `end` lies in that month. */
  lemma StopInMonth(last: Date, end: Date)
    requires ValidDate(last) && last.day == 1 && Ordinal(last) <= Ordinal(end) && StepsPast(last, end)
    ensures InMonth(end, last)
  {
    StepFromFirst(last);
  }

  /** `now - timedelta(days=months*30)`; None outside the calendar (OverflowError). */
  function WindowStart(months: int, now: Timestamp): (r: Option<Date>)
    ensures r.Some? ==> ValidDate(r.value) && Ordinal(r.value) == Ordinal(now.date) - months * 30
  {
    ShiftDays(now.date, -(months * 30))
  }

  /** `get_trends`: the user's month buckets since `now` minus `30 * months`
      days, with every visited month filled in; [] when the store fails or
      a date leaves the calendar. */
  function TrendsSpec(t: Tables, u: string, months: int, now: Timestamp): (r: seq<PeriodStat>)
    ensures StrictlyAscending(Keys(r))
    ensures !t.online ==> r == []
  {
    if !t.online then []
    else match WindowStart(months, now)
      case None => []
      case Some(start) =>
        match FillFrom(Buckets(Since(t.transactions, u, FormatDay(start)), 7), start, now.date)
        case None => []
        case Some(r) => r
  }

  /** The trend has a bucket for each month of a row since the start and for
      each month the loop visited; each bucket sums its month's rows of the
      window, and the filled-in months read zero. */
  lemma TrendsSpecContents(t: Tables, u: string, months: int, now: Timestamp, start: Date)
    requires t.online && WindowStart(months, now) == Some(start)
    requires Visits(start, now.date).Some?
    ensures var rows := Since(t.transactions, u, FormatDay(start));
      var r := TrendsSpec(t, u, months, now);
      && (forall k :: k in Keys(r) <==>
            (exists i :: 0 <= i < |rows| && Substr(rows[i].date, 7) == k)
            || k in MonthsOf(Visits(start, now.date).value))
      && (forall k :: Lookup(r, k) == PeriodStat(k, KeySum(rows, 7, k, Income), KeySum(rows, 7, k, Expense)))
  {
    var rows := Since(t.transactions, u, FormatDay(start));
    var b := Buckets(rows, 7);
    var vs := Visits(start, now.date).value;
    TrendsIsFill(t, u, months, now, start);
    var r := FillFrom(b, start, now.date).value;
    BucketsKeys(rows, 7);
    BucketsLookup(rows, 7);
    forall k ensures k in Keys(r) <==> (exists i :: 0 <= i < |rows| && Substr(rows[i].date, 7) == k) || k in MonthsOf(vs) {
      assert k in Keys(r) <==> k in Keys(b) || k in MonthsOf(vs);
    }
  }

  /** Over a valid window, the trend series is the fill of the window's buckets. */
  lemma TrendsIsFill(t: Tables, u: string, months: int, now: Timestamp, start: Date)
    requires t.online && WindowStart(months, now) == Some(start)
    requires Visits(start, now.date).Some?
    ensures FillFrom(Buckets(Since(t.transactions, u, FormatDay(start)), 7), start, now.date).Some?
    ensures TrendsSpec(t, u, months, now) == FillFrom(Buckets(Since(t.transactions, u, FormatDay(start)), 7), start, now.date).value
  {
  }

  /** The window can miss the current month. In a year that is not a leap
      year, on 27 February one month back is 28 January; one step of 32
      days from there lands on 1 March, past `now`, so February is never
      visited and an empty ledger gives January alone. */
  lemma TrendsSkipCurrentMonth(y: int)
    requires MinYear <= y <= MaxYear && !IsLeapYear(y)
    ensures var now := DateTime(Date(y, 2, 27), 12, 0, 0);
      && ValidDateTime(now)
      && TrendsSpec(Tables(true, [], [], [], []), "u", 1, now) == [PeriodStat(FormatMonth(Date(y, 1, 28)), 0, 0)]
      && FormatMonth(now.date) !in Keys(TrendsSpec(Tables(true, [], [], [], []), "u", 1, now))
  {
    var now: Timestamp := DateTime(Date(y, 2, 27), 12, 0, 0);
    var start := Date(y, 1, 28);
    ShiftBackAcrossMonthStart(now.date, 30);
    assert WindowStart(1, now) == Some(start);
    var key := FormatMonth(start);
    var t := Tables(true, [], [], [], []);
    FillSkipsFebruary(y);
    assert Since(t.transactions, "u", FormatDay(start)) == [];
    assert Buckets([], 7) == [];
    TrendsIsFill(t, "u", 1, now, start);
    assert FormatMonth(now.date)[6] != key[6];
  }

  lemma FillSkipsFebruary(y: int)
    requires MinYear <= y <= MaxYear && !IsLeapYear(y)
    ensures FillFrom([], Date(y, 1, 28), Date(y, 2, 27)) == Some([PeriodStat(FormatMonth(Date(y, 1, 28)), 0, 0)])
  {
    var start, stop, end := Date(y, 1, 28), Date(y, 3, 1), Date(y, 2, 27);
    StepMonthLands(start);
    assert StepMonth(start) == Some(stop);
    assert Ordinal(start) <= Ordinal(end) < Ordinal(stop);
    var key := FormatMonth(start);
    assert AddZero([], key) == [PeriodStat(key, 0, 0)];
    FillOneStep([], start, end);
  }

  /** One turn of the fill loop, when it neither stops nor overflows. */
  lemma FillOneStep(bs: seq<PeriodStat>, current: Date, end: Date)
    requires ValidDate(current) && StrictlyAscending(Keys(bs)) && Ordinal(current) <= Ordinal(end)
    requires StepMonth(current).Some?
    ensures FillFrom(bs, current, end) == FillFrom(AddZero(bs, FormatMonth(current)), StepMonth(current).value, end)
  {
  }

  // ---------------------------------------------------------------------
  // The statistics object
  // ---------------------------------------------------------------------

  /** `SUBSTR(date, 1, width)` buckets filled one row at a time, as the
      dictionary loop does. */
  method FillBuckets(rows: seq<TxRow>, width: nat) returns (acc: seq<PeriodStat>)
    ensures acc == Buckets(rows, width)
  {
    acc := [];
    var i := 0;
    while i < |rows|
      invariant 0 <= i <= |rows|
      invariant acc == Buckets(rows[..i], width)
    {
      assert rows[..i + 1][..i] == rows[..i];
      acc := AddAmount(acc, Substr(rows[i].date, width), rows[i].kind, rows[i].amount);
      i := i + 1;
    }
    assert rows[..|rows|] == rows;
  }

  /** `Statistics`: a user's totals, kept from the last report computed. */
  class Statistics {
    var userId: string
    var totalIncome: int
    var totalExpense: int
    var balance: int

    constructor (userId: string)
      ensures this.userId == userId && totalIncome == 0 && totalExpense == 0 && balance == 0
    {
      this.userId := userId;
      totalIncome := 0;
      totalExpense := 0;
      balance := 0;
    }

    /** `calculate_daily_stats`: the totals are stored on the object before
        the breakdown is read; a failing store leaves them as they were. */
    method CalculateDailyStats(db: Database, date: string, now: Timestamp) returns (r: Option<Report>)
      modifies this
      ensures r == ReportSpec(db.Snapshot(), userId, Daily, date, now)
      ensures userId == old(userId)
      ensures r.Some? ==> totalIncome == r.value.totalIncome && totalExpense == r.value.totalExpense && balance == r.value.balance
      ensures r.None? ==> totalIncome == old(totalIncome) && totalExpense == old(totalExpense) && balance == old(balance)
    {
      if !db.online {
        return None;
      }
      var t, u := db.Snapshot(), userId;
      var p := PeriodOf(Daily, date, now);
      var income := Total(t.transactions, IncomeIn(u, p));
      var expense := Total(t.transactions, ExpenseIn(u, p));
      totalIncome, totalExpense, balance := income, expense, income - expense;
      r := Some(Report(p, income, expense, income - expense, [], CategoryStatsOf(t, u, p)));
      assert r.value == ReportOf(t, u, Daily, p);
    }

    /** `calculate_monthly_stats`, with the month's days as buckets. */
    method CalculateMonthlyStats(db: Database, month: string, now: Timestamp) returns (r: Option<Report>)
      modifies this
      ensures r == ReportSpec(db.Snapshot(), userId, Monthly, month, now)
      ensures userId == old(userId)
      ensures r.Some? ==> totalIncome == r.value.totalIncome && totalExpense == r.value.totalExpense && balance == r.value.balance
      ensures r.None? ==> totalIncome == old(totalIncome) && totalExpense == old(totalExpense) && balance == old(balance)
    {
      if !db.online {
        return None;
      }
      var t, u := db.Snapshot(), userId;
      var p := PeriodOf(Monthly, month, now);
      var income := Total(t.transactions, IncomeIn(u, p));
      var expense := Total(t.transactions, ExpenseIn(u, p));
      totalIncome, totalExpense, balance := income, expense, income - expense;
      var dailyStats := DailyStatsByMonth(db, p);
      assert dailyStats == BucketsOf(t, u, p, 10);
      r := Some(Report(p, income, expense, income - expense, dailyStats, CategoryStatsOf(t, u, p)));
      assert r.value == ReportOf(t, u, Monthly, p);
    }

    /** `calculate_yearly_stats`, with the year's months as buckets. */
    method CalculateYearlyStats(db: Database, year: string, now: Timestamp) returns (r: Option<Report>)
      modifies this
      ensures r == ReportSpec(db.Snapshot(), userId, Yearly, year, now)
      ensures userId == old(userId)
      ensures r.Some? ==> totalIncome == r.value.totalIncome && totalExpense == r.value.totalExpense && balance == r.value.balance
      ensures r.None? ==> totalIncome == old(totalIncome) && totalExpense == old(totalExpense) && balance == old(balance)
    {
      if !db.online {
        return None;
      }
      var t, u := db.Snapshot(), userId;
      var p := PeriodOf(Yearly, year, now);
      var income := Total(t.transactions, IncomeIn(u, p));
      var expense := Total(t.transactions, ExpenseIn(u, p));
      totalIncome, totalExpense, balance := income, expense, income - expense;
      var monthlyStats := MonthlyStatsByYear(db, p);
      assert monthlyStats == BucketsOf(t, u, p, 7);
      r := Some(Report(p, income, expense, income - expense, monthlyStats, CategoryStatsOf(t, u, p)));
      assert r.value == ReportOf(t, u, Yearly, p);
    }

    /** `_get_daily_stats_by_month`. */
    method DailyStatsByMonth(db: Database, month: string) returns (r: seq<PeriodStat>)
      ensures r == BucketsOf(db.Snapshot(), userId, month, 10)
    {
      if !db.online {
        return [];
      }
      r := FillBuckets(InScope(db.transactions, userId, month), 10);
    }

    /** `_get_monthly_stats_by_year`. */
    method MonthlyStatsByYear(db: Database, year: string) returns (r: seq<PeriodStat>)
      ensures r == BucketsOf(db.Snapshot(), userId, year, 7)
    {
      if !db.online {
        return [];
      }
      r := FillBuckets(InScope(db.transactions, userId, year), 7);
    }

    /** `generate_charts`: the report of the chart's scope is computed (and
        the totals stored) before the series are cut from it. */
    method GenerateCharts(db: Database, chartType: string, period: string, now: Timestamp) returns (r: Option<Chart>)
      modifies this
      ensures r == ChartSpec(db.Snapshot(), userId, chartType, period, now)
      ensures userId == old(userId)
      ensures ScopeOf(chartType).None? || !db.online ==>
        totalIncome == old(totalIncome) && totalExpense == old(totalExpense) && balance == old(balance)
      ensures ScopeOf(chartType).Some? && db.online ==>
        var rep := ReportSpec(db.Snapshot(), userId, ScopeOf(chartType).value, period, now).value;
        totalIncome == rep.totalIncome && totalExpense == rep.totalExpense && balance == rep.balance
    {
      var stats: Option<Report>;
      var scope: Scope;
      if chartType == "daily" {
        scope := Daily;
        stats := CalculateDailyStats(db, period, now);
      } else if chartType == "monthly" {
        scope := Monthly;
        stats := CalculateMonthlyStats(db, period, now);
      } else if chartType == "yearly" {
        scope := Yearly;
        stats := CalculateYearlyStats(db, period, now);
      } else {
        return None;
      }
      if stats.None? {
        return None;
      }
      r := ChartOf(scope, stats.value);
    }

    /** `get_trends`: the window's buckets, then the fill loop stepping 32
        days and back to the first of the month until it passes `now`. */
    method GetTrends(db: Database, months: int, now: Timestamp) returns (r: seq<PeriodStat>)
      ensures r == TrendsSpec(db.Snapshot(), userId, months, now)
    {
      if !db.online {
        return [];
      }
      var shifted := WindowStart(months, now);
      if shifted.None? {
        return [];
      }
      var start := shifted.value;
      var data := FillBuckets(Since(db.transactions, userId, FormatDay(start)), 7);
      var acc := data;
      var current := start;
      while Ordinal(current) <= Ordinal(now.date)
        invariant ValidDate(current) && StrictlyAscending(Keys(acc))
        invariant FillFrom(acc, current, now.date) == FillFrom(data, start, now.date)
        decreases Ordinal(now.date) - Ordinal(current)
      {
        acc := AddZero(acc, FormatMonth(current));
        var step := StepMonth(current);
        if step.None? {
          return [];
        }
        current := step.value;
      }
      r := acc;
    }
  }
}

=== FILE: sorting.dfy ===
/** `ORDER BY key DESC` on a text column, as an insertion sort. SQLite
    leaves the order of equal keys unspecified, so only the order of the
    keys and the rows present are stated. */
module Sorting {
  import opened Text

  /** Keys never increase along the sequence. */
  predicate SortedDesc<T>(s: seq<T>, key: T -> string)
  {
    forall i, j :: 0 <= i < j < |s| ==> LexLe(key(s[j]), key(s[i]))
  }

  /** Insert `x` into a sequence sorted by non-increasing key. */
  function InsertDesc<T>(x: T, s: seq<T>, key: T -> string): (r: seq<T>)
    requires SortedDesc(s, key)
    ensures multiset(r) == multiset(s) + multiset{x}
    ensures SortedDesc(r, key)
    decreases |s|
  {
    if s == [] then [x]
    else if LexLt(key(s[0]), key(x)) then
      InsertFront(x, s, key);
      [x] + s
    else
      var rest := InsertDesc(x, s[1..], key);
      assert s == [s[0]] + s[1..];
      InsertBehind(x, s, rest, key);
      [s[0]] + rest
  }

  lemma InsertFront<T>(x: T, s: seq<T>, key: T -> string)
    requires SortedDesc(s, key) && s != [] && LexLt(key(s[0]), key(x))
    ensures SortedDesc([x] + s, key)
  {
    var r := [x] + s;
    forall i, j | 0 <= i < j < |r| ensures LexLe(key(r[j]), key(r[i])) {
      if i == 0 {
        if j > 1 {
          LexLeTrans(key(s[j - 1]), key(s[0]), key(x));
        }
      }
    }
  }

  lemma InsertBehind<T>(x: T, s: seq<T>, rest: seq<T>, key: T -> string)
    requires SortedDesc(s, key) && s != [] && !LexLt(key(s[0]), key(x))
    requires SortedDesc(rest, key) && multiset(rest) == multiset(s[1..]) + multiset{x}
    ensures SortedDesc([s[0]] + rest, key)
  {
    var r := [s[0]] + rest;
    LexLeTotal(key(s[0]), key(x));
    forall i, j | 0 <= i < j < |r| ensures LexLe(key(r[j]), key(r[i])) {
      if i == 0 {
        var y := rest[j - 1];
        assert y in multiset(rest);
        if y != x {
          assert y in multiset(s[1..]);
          var k :| 0 <= k < |s[1..]| && s[1..][k] == y;
          assert s[k + 1] == y;
        }
      }
    }
  }

  /** The rows in non-increasing key order. */
  function SortDesc<T>(s: seq<T>, key: T -> string): (r: seq<T>)
    ensures multiset(r) == multiset(s)
    ensures SortedDesc(r, key)
    decreases |s|
  {
    if s == [] then []
    else
      assert s == [s[0]] + s[1..];
      InsertDesc(s[0], SortDesc(s[1..], key), key)
  }

  /** No two entries share a key. */
  predicate KeysDistinct<T>(s: seq<T>, key: T -> string)
  {
    forall i, j :: 0 <= i < j < |s| ==> key(s[i]) != key(s[j])
  }

  lemma {:induction false} InsertDescKeysDistinct<T>(x: T, s: seq<T>, key: T -> string)
    requires SortedDesc(s, key) && KeysDistinct(s, key)
    requires forall y :: y in s ==> key(y) != key(x)
    ensures KeysDistinct(InsertDesc(x, s, key), key)
    decreases |s|
  {
    if s != [] && !LexLt(key(s[0]), key(x)) {
      var rest := InsertDesc(x, s[1..], key);
      assert forall y :: y in s[1..] ==> y in s;
      InsertDescKeysDistinct(x, s[1..], key);
      forall y | y in rest ensures key(y) != key(s[0]) {
        assert y in multiset(rest);
        if y != x {
          assert y in multiset(s[1..]);
          var k :| 0 <= k < |s[1..]| && s[1..][k] == y;
          assert s[k + 1] == y;
        }
      }
    }
  }

  /** Sorting rows with distinct keys leaves the keys distinct, so they strictly decrease. */
  lemma {:induction false} SortDescKeysDistinct<T>(s: seq<T>, key: T -> string)
    requires KeysDistinct(s, key)
    ensures KeysDistinct(SortDesc(s, key), key)
    ensures forall i, j :: 0 <= i < j < |SortDesc(s, key)| ==> LexLt(key(SortDesc(s, key)[j]), key(SortDesc(s, key)[i]))
    decreases |s|
  {
    if s != [] {
      var sorted := SortDesc(s[1..], key);
      SortDescKeysDistinct(s[1..], key);
      forall y | y in sorted ensures key(y) != key(s[0]) {
        assert y in multiset(sorted);
        assert y in multiset(s[1..]);
        var k :| 0 <= k < |s[1..]| && s[1..][k] == y;
        assert s[k + 1] == y;
      }
      InsertDescKeysDistinct(s[0], sorted, key);
    }
  }
}

=== FILE: store.dfy ===
/** The four SQLite tables behind `db_manager`, held in memory.

    A table is a sequence of rows in insertion order. `Tables` is the whole
    database as a value, used by the specification functions; `Database` is
    the shared object the operations change in place. `online == false`
    stands for a database that cannot be reached: the first query of any
    operation then raises and the operation takes its exception path. */
module Store {
  import opened Text

  /** The two transaction types the program writes. */
  datatype Kind = Income | Expense

  /** The text stored in `transactions.type`. */
  function KindLabel(k: Kind): (text: string)
    ensures |text| == 2
  {
    match k
    case Income => "收入"
    case Expense => "支出"
  }

  datatype UserRow = UserRow(userId: string, username: string, password: string, monthlyBudget: int)

  /** `owner == None` is a preset category (`user_id IS NULL`). */
  datatype CategoryRow = CategoryRow(categoryId: string, name: string, kindLabel: string, icon: string,
                                     isCustom: bool, owner: Option<string>)

  /** Amounts are whole cents. */
  datatype TxRow = TxRow(transactionId: string, amount: int, kind: Kind, categoryId: string,
                         date: string, note: string, userId: string)

  datatype BudgetRow = BudgetRow(budgetId: string, userId: string, month: string, amount: int, spent: int)

  datatype Tables = Tables(online: bool, users: seq<UserRow>, categories: seq<CategoryRow>,
                           transactions: seq<TxRow>, budgets: seq<BudgetRow>)

  // ---------------------------------------------------------------------
  // Schema constraints
  // ---------------------------------------------------------------------

  /** `user_id` is the primary key and `username` is UNIQUE. */
  predicate UsersValid(us: seq<UserRow>)
  {
    forall i, j :: 0 <= i < j < |us| ==> us[i].userId != us[j].userId && us[i].username != us[j].username
  }

  predicate CategoryIdsDistinct(cs: seq<CategoryRow>)
  {
    forall i, j :: 0 <= i < j < |cs| ==> cs[i].categoryId != cs[j].categoryId
  }

  predicate TxIdsDistinct(ts: seq<TxRow>)
  {
    forall i, j :: 0 <= i < j < |ts| ==> ts[i].transactionId != ts[j].transactionId
  }

  /** `budget_id` is the primary key and `(user_id, month)` is UNIQUE. */
  predicate BudgetKeysDistinct(bs: seq<BudgetRow>)
  {
    forall i, j :: 0 <= i < j < |bs| ==>
      bs[i].budgetId != bs[j].budgetId && (bs[i].userId != bs[j].userId || bs[i].month != bs[j].month)
  }

  predicate Valid(t: Tables)
  {
    UsersValid(t.users) && CategoryIdsDistinct(t.categories) && TxIdsDistinct(t.transactions)
    && BudgetKeysDistinct(t.budgets)
  }

  // ---------------------------------------------------------------------
  // Preset categories
  // ---------------------------------------------------------------------

  const PresetCategories: seq<CategoryRow> := [
    CategoryRow("cat_1", "餐饮", "支出类", "📋", false, None),
    CategoryRow("cat_2", "交通", "支出类", "🚗", false, None),
    CategoryRow("cat_3", "购物", "支出类", "🎁", false, None),
    CategoryRow("cat_4", "娱乐", "支出类", "🎮", false, None),
    CategoryRow("cat_5", "医疗", "支出类", "🏥", false, None),
    CategoryRow("cat_6", "教育", "支出类", "📚", false, None),
    CategoryRow("cat_7", "居住", "支出类", "🏠", false, None),
    CategoryRow("cat_8", "其他支出", "支出类", "📋", false, None),
    CategoryRow("cat_9", "工资", "收入类", "💰", false, None),
    CategoryRow("cat_10", "奖金", "收入类", "🎁", false, None),
    CategoryRow("cat_11", "投资收益", "收入类", "📈", false, None),
    CategoryRow("cat_12", "其他收入", "收入类", "💵", false, None)
  ]

  /** The preset ids: "cat_1" to "cat_9" end in distinct digits, and
      "cat_10" to "cat_12" are one character longer. */
  lemma PresetIdsDistinct()
    ensures CategoryIdsDistinct(PresetCategories)
  {
    var ids := seq(12, i requires 0 <= i < 12 => PresetCategories[i].categoryId);
    assert ids == ["cat_1", "cat_2", "cat_3", "cat_4", "cat_5", "cat_6", "cat_7", "cat_8",
                   "cat_9", "cat_10", "cat_11", "cat_12"];
    forall i | 0 <= i < 12
      ensures |ids[i]| == (if i < 9 then 5 else 6)
      ensures ids[i][|ids[i]| - 1] as int == (if i < 9 then 49 + i else 39 + i)
    {
    }
    forall i, j | 0 <= i < j < 12
      ensures PresetCategories[i].categoryId != PresetCategories[j].categoryId
    {
      assert ids[i] != ids[j] by {
        if |ids[i]| == |ids[j]| {
          assert ids[i][|ids[i]| - 1] != ids[j][|ids[j]| - 1];
        }
      }
    }
  }

  /** The twelve preset categories: distinct ids, none custom, none owned,
      eight expense categories followed by four income categories. */
  lemma PresetCategoriesShape()
    ensures |PresetCategories| == 12 && CategoryIdsDistinct(PresetCategories)
    ensures forall i :: 0 <= i < 12 ==> !PresetCategories[i].isCustom && PresetCategories[i].owner.None?
    ensures forall i :: 0 <= i < 12 ==> PresetCategories[i].kindLabel == (if i < 8 then "支出类" else "收入类")
  {
    PresetIdsDistinct();
  }

  /** The database object. */
  class Database {
    var online: bool
    var users: seq<UserRow>
    var categories: seq<CategoryRow>
    var transactions: seq<TxRow>
    var budgets: seq<BudgetRow>

    function Snapshot(): Tables
      reads this
    {
      Tables(online, users, categories, transactions, budgets)
    }

    /** A newly created database file: empty tables and the preset categories. */
    constructor ()
      ensures Snapshot() == Tables(true, [], PresetCategories, [], [])
      ensures Valid(Snapshot())
    {
      online := true;
      users := [];
      categories := PresetCategories;
      transactions := [];
      budgets := [];
      PresetCategoriesShape();
    }
  }

  // ---------------------------------------------------------------------
  // First matching row (`SELECT ... WHERE ...` then `data[0]`)
  // ---------------------------------------------------------------------

  /** The first budget row of `(u, m)`. */
  function FindBudget(bs: seq<BudgetRow>, u: string, m: string): (r: Option<nat>)
    ensures r.Some? ==> r.value < |bs| && bs[r.value].userId == u && bs[r.value].month == m
    ensures r.Some? ==> forall j :: 0 <= j < r.value ==> !(bs[j].userId == u && bs[j].month == m)
    ensures r.None? ==> forall j :: 0 <= j < |bs| ==> !(bs[j].userId == u && bs[j].month == m)
  {
    if bs == [] then None
    else if bs[0].userId == u && bs[0].month == m then Some(0)
    else match FindBudget(bs[1..], u, m)
      case None => None
      case Some(k) => Some(k + 1)
  }

  /** Whether some budget row already has id `id`. */
  predicate BudgetIdUsed(bs: seq<BudgetRow>, id: string)
  {
    exists j :: 0 <= j < |bs| && bs[j].budgetId == id
  }

  /** The first user row with id `u`. */
  function FindUser(us: seq<UserRow>, u: string): (r: Option<nat>)
    ensures r.Some? ==> r.value < |us| && us[r.value].userId == u
    ensures r.Some? ==> forall j :: 0 <= j < r.value ==> us[j].userId != u
    ensures r.None? ==> forall j :: 0 <= j < |us| ==> us[j].userId != u
  {
    if us == [] then None
    else if us[0].userId == u then Some(0)
    else match FindUser(us[1..], u)
      case None => None
      case Some(k) => Some(k + 1)
  }

  /** The first user row with name `name`. */
  function FindUserByName(us: seq<UserRow>, name: string): (r: Option<nat>)
    ensures r.Some? ==> r.value < |us| && us[r.value].username == name
    ensures r.Some? ==> forall j :: 0 <= j < r.value ==> us[j].username != name
    ensures r.None? ==> forall j :: 0 <= j < |us| ==> us[j].username != name
  {
    if us == [] then None
    else if us[0].username == name then Some(0)
    else match FindUserByName(us[1..], name)
      case None => None
      case Some(k) => Some(k + 1)
  }

  /** The first transaction row with id `id`, whoever owns it. */
  function FindTx(ts: seq<TxRow>, id: string): (r: Option<nat>)
    ensures r.Some? ==> r.value < |ts| && ts[r.value].transactionId == id
    ensures r.Some? ==> forall j :: 0 <= j < r.value ==> ts[j].transactionId != id
    ensures r.None? ==> forall j :: 0 <= j < |ts| ==> ts[j].transactionId != id
  {
    if ts == [] then None
    else if ts[0].transactionId == id then Some(0)
    else match FindTx(ts[1..], id)
      case None => None
      case Some(k) => Some(k + 1)
  }

  /** The first category row with id `id`. */
  function FindCategory(cs: seq<CategoryRow>, id: string): (r: Option<nat>)
    ensures r.Some? ==> r.value < |cs| && cs[r.value].categoryId == id
    ensures r.Some? ==> forall j :: 0 <= j < r.value ==> cs[j].categoryId != id
    ensures r.None? ==> forall j :: 0 <= j < |cs| ==> cs[j].categoryId != id
  {
    if cs == [] then None
    else if cs[0].categoryId == id then Some(0)
    else match FindCategory(cs[1..], id)
      case None => None
      case Some(k) => Some(k + 1)
  }

  // ---------------------------------------------------------------------
  // Sums (`SELECT COALESCE(SUM(amount), 0) FROM transactions WHERE ...`)
  // ---------------------------------------------------------------------

  /** The WHERE clause of a sum: the owner, optionally the type, a date
      prefix (`date LIKE 'p%'`) and optionally the category. */
  datatype Filter = Filter(user: string, kind: Option<Kind>, prefix: string, category: Option<string>)

  predicate Matches(r: TxRow, f: Filter)
  {
    r.userId == f.user && (f.kind.None? || r.kind == f.kind.value) && StartsWith(r.date, f.prefix)
    && (f.category.None? || r.categoryId == f.category.value)
  }

  /** A user's expenses in a month, as `update_spent` sums them. */
  function ExpenseIn(u: string, m: string): Filter
  {
    Filter(u, Some(Expense), m, None)
  }

  function Contribution(r: TxRow, f: Filter): int
  {
    if Matches(r, f) then r.amount else 0
  }

  /** The sum of the amounts of the matching rows; 0 when none match. */
  function Total(rows: seq<TxRow>, f: Filter): int
    decreases |rows|
  {
    if rows == [] then 0 else Total(rows[..|rows| - 1], f) + Contribution(rows[|rows| - 1], f)
  }

  lemma TotalAppend(rows: seq<TxRow>, x: TxRow, f: Filter)
    ensures Total(rows + [x], f) == Total(rows, f) + Contribution(x, f)
  {
    assert (rows + [x])[..|rows|] == rows;
  }

  /** No matching row, nothing summed. */
  lemma {:induction false} TotalNoMatch(rows: seq<TxRow>, f: Filter)
    requires forall i :: 0 <= i < |rows| ==> !Matches(rows[i], f)
    ensures Total(rows, f) == 0
    decreases |rows|
  {
    if rows != [] {
      TotalNoMatch(rows[..|rows| - 1], f);
    }
  }

  /** Two ledgers that differ only in rows neither side counts have the same sum. */
  lemma {:induction false} TotalFrame(a: seq<TxRow>, b: seq<TxRow>, f: Filter)
    requires |a| == |b|
    requires forall i :: 0 <= i < |a| ==> a[i] == b[i] || (!Matches(a[i], f) && !Matches(b[i], f))
    ensures Total(a, f) == Total(b, f)
    decreases |a|
  {
    if a != [] {
      TotalFrame(a[..|a| - 1], b[..|b| - 1], f);
    }
  }

  /** A sum over a ledger with one row replaced. */
  lemma {:induction false} TotalReplace(a: seq<TxRow>, b: seq<TxRow>, k: nat, f: Filter)
    requires |a| == |b| && k < |a|
    requires forall i :: 0 <= i < |a| && i != k ==> a[i] == b[i]
    ensures Total(b, f) == Total(a, f) - Contribution(a[k], f) + Contribution(b[k], f)
    decreases |a|
  {
    if k == |a| - 1 {
      TotalFrame(a[..k], b[..k], f);
    } else {
      TotalReplace(a[..|a| - 1], b[..|b| - 1], k, f);
    }
  }

  // ---------------------------------------------------------------------
  // Row updates and deletions
  // ---------------------------------------------------------------------

  /** `UPDATE budgets SET spent = v WHERE budget_id = id`. */
  function SetSpentById(bs: seq<BudgetRow>, id: string, v: int): seq<BudgetRow>
  {
    seq(|bs|, i requires 0 <= i < |bs| => if bs[i].budgetId == id then bs[i].(spent := v) else bs[i])
  }

  /** `UPDATE budgets SET amount = v WHERE budget_id = id`. */
  function SetAmountById(bs: seq<BudgetRow>, id: string, v: int): seq<BudgetRow>
  {
    seq(|bs|, i requires 0 <= i < |bs| => if bs[i].budgetId == id then bs[i].(amount := v) else bs[i])
  }

  /** The rows `DELETE FROM transactions WHERE transaction_id = id AND user_id = u` keeps:
      every other row, in the same order. */
  function RemoveTx(ts: seq<TxRow>, id: string, u: string): (r: seq<TxRow>)
    ensures |r| <= |ts|
    ensures forall x :: x in r <==> x in ts && !(x.transactionId == id && x.userId == u)
    decreases |ts|
  {
    if ts == [] then []
    else
      var last := ts[|ts| - 1];
      var rest := RemoveTx(ts[..|ts| - 1], id, u);
      assert ts == ts[..|ts| - 1] + [last];
      if last.transactionId == id && last.userId == u then rest else rest + [last]
  }

  /** Deleting rows a sum does not count leaves the sum alone. */
  lemma {:induction false} TotalRemoveTx(ts: seq<TxRow>, id: string, u: string, f: Filter)
    requires forall i :: 0 <= i < |ts| && ts[i].transactionId == id && ts[i].userId == u ==> !Matches(ts[i], f)
    ensures Total(RemoveTx(ts, id, u), f) == Total(ts, f)
    decreases |ts|
  {
    if ts != [] {
      var last := ts[|ts| - 1];
      var rest := RemoveTx(ts[..|ts| - 1], id, u);
      TotalRemoveTx(ts[..|ts| - 1], id, u, f);
      if !(last.transactionId == id && last.userId == u) {
        TotalAppend(rest, last, f);
      }
    }
  }

  /** Deleting keeps the remaining transaction ids distinct. */
  lemma {:induction false} RemoveTxKeepsIds(ts: seq<TxRow>, id: string, u: string)
    requires TxIdsDistinct(ts)
    ensures TxIdsDistinct(RemoveTx(ts, id, u))
    decreases |ts|
  {
    if ts != [] {
      var init := ts[..|ts| - 1];
      var last := ts[|ts| - 1];
      RemoveTxKeepsIds(init, id, u);
      var rest := RemoveTx(init, id, u);
      if !(last.transactionId == id && last.userId == u) {
        forall i | 0 <= i < |rest| ensures rest[i].transactionId != last.transactionId {
          assert rest[i] in init;
          var k :| 0 <= k < |init| && init[k] == rest[i];
          assert ts[k] == rest[i];
        }
      }
    }
  }
}

=== FILE: text.dfy ===
/** Text helpers shared by the model.

    - `StartsWith` is SQL `date LIKE 'p%'` with a literal prefix `p`.
    - `LexLe` is the order of text values: Python `str` comparison and
      SQLite's BINARY collation both compare code point by code point.
    - `Split` is Python's `str.split(c)` for a single separator character.
    - `Pad2`/`Pad4`/`Number` are fixed-width decimal fields as written by
      `strftime` and read by `strptime`. */
module Text {

  datatype Option<+T> = None | Some(value: T)

  /** `s LIKE p || '%'`, with no wildcard character inside `p`. */
  predicate StartsWith(s: string, p: string)
  {
    |p| <= |s| && s[..|p|] == p
  }

  /** SQL `SUBSTR(s, 1, width)`: the first `width` characters, or all of a shorter `s`. */
  function Substr(s: string, width: nat): (r: string)
    ensures |r| == if |s| <= width then |s| else width
    ensures StartsWith(s, r)
  {
    if |s| <= width then s else s[..width]
  }

  // ---------------------------------------------------------------------
  // Lexicographic order on text
  // ---------------------------------------------------------------------

  /** `a <= b` for text values. */
  predicate LexLe(a: string, b: string)
    decreases |a|
  {
    if a == [] then true
    else if b == [] then false
    else if a[0] != b[0] then a[0] < b[0]
    else LexLe(a[1..], b[1..])
  }

  /** `a < b` for text values. */
  predicate LexLt(a: string, b: string)
  {
    LexLe(a, b) && a != b
  }

  lemma {:induction false} LexLeRefl(a: string)
    ensures LexLe(a, a)
    decreases |a|
  {
    if a != [] {
      LexLeRefl(a[1..]);
    }
  }

  lemma {:induction false} LexLeTotal(a: string, b: string)
    ensures LexLe(a, b) || LexLe(b, a)
    decreases |a|
  {
    if a != [] && b != [] && a[0] == b[0] {
      LexLeTotal(a[1..], b[1..]);
    }
  }

  lemma {:induction false} LexLeAntisym(a: string, b: string)
    requires LexLe(a, b) && LexLe(b, a)
    ensures a == b
    decreases |a|
  {
    if a != [] && b != [] {
      LexLeAntisym(a[1..], b[1..]);
      assert a == [a[0]] + a[1..];
      assert b == [b[0]] + b[1..];
    }
  }

  lemma {:induction false} LexLeTrans(a: string, b: string, c: string)
    requires LexLe(a, b) && LexLe(b, c)
    ensures LexLe(a, c)
    decreases |a|
  {
    if a != [] && b != [] && c != [] && a[0] == b[0] && b[0] == c[0] {
      LexLeTrans(a[1..], b[1..], c[1..]);
    }
  }

  lemma LexLtTrans(a: string, b: string, c: string)
    requires LexLt(a, b) && LexLe(b, c)
    ensures LexLt(a, c)
  {
    LexLeTrans(a, b, c);
    if a == c {
      LexLeAntisym(a, b);
    }
  }

  /** A text value precedes every text value it is a prefix of. */
  lemma {:induction false} LexLePrefix(p: string, s: string)
    requires StartsWith(s, p)
    ensures LexLe(p, s)
    decreases |p|
  {
    if p != [] {
      assert s[0] == p[0];
      assert StartsWith(s[1..], p[1..]) by {
        assert s[1..][..|p| - 1] == s[..|p|][1..];
      }
      LexLePrefix(p[1..], s[1..]);
    }
  }

  /** A strictly ascending sequence of text keys (no key twice). */
  predicate StrictlyAscending(keys: seq<string>)
  {
    forall i, j :: 0 <= i < j < |keys| ==> LexLt(keys[i], keys[j])
  }

  // ---------------------------------------------------------------------
  // str.split on one character
  // ---------------------------------------------------------------------

  /** Python's `s.split(c)`: the pieces between occurrences of `c`; at least one piece. */
  function Split(s: string, c: char): (r: seq<string>)
    ensures |r| >= 1
    ensures forall i :: 0 <= i < |r| ==> c !in r[i]
  {
    if s == [] then [""]
    else
      var rest := Split(s[1..], c);
      if s[0] == c then [""] + rest
      else [[s[0]] + rest[0]] + rest[1..]
  }

  /** Text without the separator is one piece. */
  lemma {:induction false} SplitNoSeparator(x: string, c: char)
    requires c !in x
    ensures Split(x, c) == [x]
    decreases |x|
  {
    if x != [] {
      SplitNoSeparator(x[1..], c);
      assert [x[0]] + x[1..] == x;
    }
  }

  /** The first piece ends at the first separator. */
  lemma {:induction false} SplitAtSeparator(x: string, c: char, y: string)
    requires c !in x
    ensures Split(x + [c] + y, c) == [x] + Split(y, c)
    decreases |x|
  {
    var s := x + [c] + y;
    if x == [] {
      assert s[1..] == y;
    } else {
      assert s[1..] == x[1..] + [c] + y;
      SplitAtSeparator(x[1..], c, y);
      assert [x[0]] + x[1..] == x;
    }
  }

  /** Joining the pieces with the separator gives back the text. */
  function Join(pieces: seq<string>, c: char): string
  {
    if |pieces| <= 1 then (if pieces == [] then "" else pieces[0])
    else pieces[0] + [c] + Join(pieces[1..], c)
  }

  /** `c.join(s.split(c)) == s`. */
  lemma {:induction false} SplitJoin(s: string, c: char)
    ensures Join(Split(s, c), c) == s
    decreases |s|
  {
    if s != [] {
      var rest := Split(s[1..], c);
      SplitJoin(s[1..], c);
      if s[0] == c {
        assert Split(s, c) == [""] + rest;
        assert Join(Split(s, c), c) == "" + [c] + Join(rest, c);
        assert [s[0]] + s[1..] == s;
      } else {
        var r := Split(s, c);
        assert r == [[s[0]] + rest[0]] + rest[1..];
        if |rest| == 1 {
          assert Join(r, c) == [s[0]] + rest[0];
          assert [s[0]] + s[1..] == s;
        } else {
          assert r[1..] == rest[1..];
          assert Join(r, c) == [s[0]] + rest[0] + [c] + Join(rest[1..], c);
          assert Join(rest, c) == rest[0] + [c] + Join(rest[1..], c);
          assert [s[0]] + s[1..] == s;
        }
      }
    }
  }

  // ---------------------------------------------------------------------
  // Fixed-width decimal fields
  // ---------------------------------------------------------------------

  predicate IsDigit(ch: char)
  {
    '0' <= ch <= '9'
  }

  predicate AllDigits(s: string)
  {
    forall i :: 0 <= i < |s| ==> IsDigit(s[i])
  }

  function DigitChar(d: int): (ch: char)
    requires 0 <= d < 10
    ensures IsDigit(ch)
  {
    (48 + d) as char
  }

  function DigitValue(ch: char): int
    requires IsDigit(ch)
  {
    ch as int - 48
  }

  /** The value of a two-digit decimal field. */
  function Number2(s: string): int
    requires |s| == 2 && AllDigits(s)
  {
    10 * DigitValue(s[0]) + DigitValue(s[1])
  }

  /** The value of a four-digit decimal field. */
  function Number4(s: string): int
    requires |s| == 4 && AllDigits(s)
  {
    1000 * DigitValue(s[0]) + 100 * DigitValue(s[1]) + 10 * DigitValue(s[2]) + DigitValue(s[3])
  }

  /** `%02d`, as strftime writes months, days, hours, minutes and seconds. */
  function Pad2(n: int): (r: string)
    requires 0 <= n < 100
    ensures |r| == 2 && AllDigits(r)
  {
    [DigitChar(n / 10), DigitChar(n % 10)]
  }

  /** `%04d`, as strftime writes a year. */
  function Pad4(n: int): (r: string)
    requires 0 <= n < 10000
    ensures |r| == 4 && AllDigits(r)
  {
    [DigitChar(n / 1000), DigitChar(n / 100 % 10), DigitChar(n / 10 % 10), DigitChar(n % 10)]
  }

  /** Reading back a written two-digit field gives the number. */
  lemma Pad2Number(n: int)
    requires 0 <= n < 100
    ensures Number2(Pad2(n)) == n
  {
  }

  /** Reading back a written four-digit field gives the number. */
  lemma Pad4Number(n: int)
    requires 0 <= n < 10000
    ensures Number4(Pad4(n)) == n
  {
    var q1, d := n / 10, n % 10;
    var q2, c := q1 / 10, q1 % 10;
    var a, b := q2 / 10, q2 % 10;
    assert n == 1000 * a + 100 * b + 10 * c + d;
    assert n / 1000 == a && n / 100 % 10 == b && n / 10 % 10 == c;
  }

  /** Writing a read two-digit field gives the same text. */
  lemma NumberPad2(s: string)
    requires |s| == 2 && AllDigits(s)
    ensures 0 <= Number2(s) < 100 && Pad2(Number2(s)) == s
  {
    assert IsDigit(s[0]) && IsDigit(s[1]);
  }

  lemma DivMod10(q: int, r: int)
    requires 0 <= r < 10
    ensures (10 * q + r) / 10 == q && (10 * q + r) % 10 == r
  {
  }

  lemma DivMod100(q: int, r: int)
    requires 0 <= r < 100
    ensures (100 * q + r) / 100 == q
  {
  }

  lemma DivMod1000(q: int, r: int)
    requires 0 <= r < 1000
    ensures (1000 * q + r) / 1000 == q
  {
  }

  /** Writing a read four-digit field gives the same text. */
  lemma NumberPad4(s: string)
    requires |s| == 4 && AllDigits(s)
    ensures 0 <= Number4(s) < 10000 && Pad4(Number4(s)) == s
  {
    assert IsDigit(s[0]) && IsDigit(s[1]) && IsDigit(s[2]) && IsDigit(s[3]);
    var a, b, c, d := DigitValue(s[0]), DigitValue(s[1]), DigitValue(s[2]), DigitValue(s[3]);
    var n := Number4(s);
    DivMod1000(a, 100 * b + 10 * c + d);
    DivMod100(10 * a + b, 10 * c + d);
    DivMod10(a, b);
    DivMod10(100 * a + 10 * b + c, d);
    DivMod10(10 * a + b, c);
    assert n / 1000 == a;
    assert n / 100 % 10 == b;
    assert n / 10 % 10 == c;
    assert n % 10 == d;
  }
}

=== FILE: transaction.dfy ===
/** Ledger entries (`code/transaction.py`).

    Adding, editing and deleting an entry changes the transactions table
    and then resyncs the budget of every month whose expense total the
    change can affect. The month of an entry is read from its date text
    with `split('-')`. The main results are `AddKeepsSync`,
    `EditKeepsSync` and `DeleteKeepsSync`: a successful mutation of a
    ledger whose budget rows all cache their month's expense total leaves
    them all caching it. */
module Transactions {
  import opened Text
  import opened Dates
  import opened Store
  import opened Sorting
  import opened Budgets

  /** The `date` field of a `Transaction` object: text, a `datetime`, or None. */
  datatype DateValue = DateText(text: string) | DateStamp(stamp: Timestamp) | NoDate

  /** The fields of a `Transaction` object. */
  datatype TxState = TxState(transactionId: string, amount: int, kind: Kind, categoryId: string,
                             date: DateValue, note: string, userId: string)

  /** The result of a mutation: its return value, the object's fields
      afterwards, the tables afterwards, and the months whose budget was
      resynced, in order. */
  datatype TxOutcome = TxOutcome(ok: bool, tx: TxState, tables: Tables, resynced: seq<string>)

  /** `Budget(user_id=u, month=m).update_spent()`. */
  function ResyncMonth(t: Tables, u: string, m: string, freshId: string): Outcome
  {
    Resync(Init(BudgetState("", u, m, 0, 0), t), t, freshId)
  }

  // ---------------------------------------------------------------------
  // Date normalisation in add_transaction
  // ---------------------------------------------------------------------

  /** The text `add_transaction` stores for a date value: a `datetime` and a
      missing date (replaced by the current time `now`) are formatted, text
      is normalised. */
  function StoredDate(d: DateValue, now: Timestamp): string
  {
    match d
    case DateStamp(s) => FormatDateTime(s)
    case DateText(s) => Normalize(s)
    case NoDate => FormatDateTime(now)
  }

  /** The stored date is in canonical form unless it is text no format reads,
      which is stored as it is. */
  lemma StoredDateShaped(d: DateValue, now: Timestamp)
    ensures d.DateText? && FirstParse(d.text, Formats).None? ==> StoredDate(d, now) == d.text
    ensures !(d.DateText? && FirstParse(d.text, Formats).None?) ==>
      DateShaped(StoredDate(d, now)) && Parse(StoredDate(d, now), WithSeconds).Some?
  {
    match d
    case DateStamp(s) =>
      FormatDateTimeShaped(s);
      ParseFormat(s);
    case NoDate =>
      FormatDateTimeShaped(now);
      ParseFormat(now);
    case DateText(s) =>
      if FirstParse(s, Formats).Some? {
        NormalizeCanonical(s);
        FormatDateTimeShaped(FirstParse(s, Formats).value);
      }
  }

  /** The loop over the three formats: the first that parses wins (`break`),
      the text is kept when none does. */
  method NormalizeDate(s: string) returns (r: string)
    ensures r == Normalize(s)
  {
    r := s;
    var i := 0;
    while i < |Formats|
      invariant 0 <= i <= |Formats|
      invariant FirstParse(s, Formats) == FirstParse(s, Formats[i..])
      invariant r == s
    {
      var parsed := Parse(s, Formats[i]);
      if parsed.Some? {
        r := FormatDateTime(parsed.value);
        break;
      }
      i := i + 1;
    }
  }

  // ---------------------------------------------------------------------
  // add_transaction
  // ---------------------------------------------------------------------

  function RowOfTx(x: TxState, date: string): TxRow
  {
    TxRow(x.transactionId, x.amount, x.kind, x.categoryId, date, x.note, x.userId)
  }

  /** `add_transaction`: take the fresh id, fix the date, insert the row (the
      insert fails on a taken id); for an expense, resync the budget of the
      date's `split('-')` month, which fails after the insert when the date
      has no second field. The resync's own result is ignored. */
  function AddSpec(x: TxState, t: Tables, freshId: string, now: Timestamp, budgetId: string): (o: TxOutcome)
    ensures o.tx == x.(transactionId := freshId, date := DateText(StoredDate(x.date, now)))
    ensures o.tables.users == t.users && o.tables.categories == t.categories && o.tables.online == t.online
    ensures !t.online || FindTx(t.transactions, freshId).Some? ==> !o.ok && o.tables == t
    ensures t.online && FindTx(t.transactions, freshId).None? ==>
      o.tables.transactions == t.transactions + [RowOfTx(o.tx, StoredDate(x.date, now))]
    ensures o.ok <==> t.online && FindTx(t.transactions, freshId).None?
                      && (x.kind == Expense ==> MonthOf(StoredDate(x.date, now)).Some?)
  {
    var date := StoredDate(x.date, now);
    var x1 := x.(transactionId := freshId, date := DateText(date));
    if !t.online || FindTx(t.transactions, freshId).Some? then TxOutcome(false, x1, t, [])
    else
      var t1 := t.(transactions := t.transactions + [RowOfTx(x1, date)]);
      if x.kind != Expense then TxOutcome(true, x1, t1, [])
      else match MonthOf(date)
        case None => TxOutcome(false, x1, t1, [])
        case Some(m) => TxOutcome(true, x1, ResyncMonth(t1, x.userId, m, budgetId).tables, [m])
  }

  /** An expense triggers exactly one resync, of its month; income none. */
  lemma AddResyncPolicy(x: TxState, t: Tables, freshId: string, now: Timestamp, budgetId: string)
    requires AddSpec(x, t, freshId, now, budgetId).ok
    ensures var o := AddSpec(x, t, freshId, now, budgetId);
      o.resynced == if x.kind == Expense then [MonthOf(StoredDate(x.date, now)).value] else []
  {
  }

  // ---------------------------------------------------------------------
  // Budget caches in sync with the ledger
  // ---------------------------------------------------------------------

  predicate RowSynced(t: Tables, row: BudgetRow)
  {
    row.spent == Total(t.transactions, ExpenseIn(row.userId, row.month))
  }

  /** Every budget row of a `YYYY-MM` month caches that month's expense total. */
  predicate AllSynced(t: Tables)
  {
    forall i :: 0 <= i < |t.budgets| && IsMonthKey(t.budgets[i].month) ==> RowSynced(t, t.budgets[i])
  }

  /** As `AllSynced`, except for the rows of user `u` in the months `ms`. */
  predicate SyncedExcept(t: Tables, u: string, ms: set<string>)
  {
    forall i :: 0 <= i < |t.budgets| ==>
      IsMonthKey(t.budgets[i].month) && !(t.budgets[i].userId == u && t.budgets[i].month in ms) ==>
        RowSynced(t, t.budgets[i])
  }

  /** Every expense entry is dated `YYYY-MM...`, as every date `add_transaction` formats is. */
  predicate LedgerShaped(ts: seq<TxRow>)
  {
    forall i :: 0 <= i < |ts| && ts[i].kind == Expense ==> DateShaped(ts[i].date)
  }

  /** Resyncing `(u, m)` repairs that month and disturbs no other row. */
  lemma ResyncRepairs(t: Tables, u: string, m: string, ms: set<string>, freshId: string)
    requires t.online && BudgetKeysDistinct(t.budgets) && SyncedExcept(t, u, ms)
    ensures var o := ResyncMonth(t, u, m, freshId);
      && SyncedExcept(o.tables, u, ms - {m})
      && BudgetKeysDistinct(o.tables.budgets)
      && o.tables.transactions == t.transactions
  {
    var b := Init(BudgetState("", u, m, 0, 0), t);
    var o := Resync(b, t, freshId);
    InitCoherent(u, m, t);
    ResyncFrame(b, t, freshId);
    ResyncKeepsKeys(b, t, freshId);
    if o.ok {
      ResyncSyncs(b, t, freshId);
    }
    SyncedAfterResync(t, o.tables, u, m, ms);
  }

  /** The bookkeeping behind `ResyncRepairs`: rows outside `(u, m)` kept in
      place, rows added only for `(u, m)`, and `(u, m)` synced. */
  lemma SyncedAfterResync(t: Tables, t': Tables, u: string, m: string, ms: set<string>)
    requires SyncedExcept(t, u, ms) && t'.transactions == t.transactions
    requires |t.budgets| <= |t'.budgets|
    requires forall i :: 0 <= i < |t.budgets| && !(t.budgets[i].userId == u && t.budgets[i].month == m) ==>
      t'.budgets[i] == t.budgets[i]
    requires forall i :: 0 <= i < |t.budgets| ==>
      t'.budgets[i].userId == t.budgets[i].userId && t'.budgets[i].month == t.budgets[i].month
    requires forall i :: |t.budgets| <= i < |t'.budgets| ==> t'.budgets[i].userId == u && t'.budgets[i].month == m
    requires Synced(t', u, m)
    ensures SyncedExcept(t', u, ms - {m})
  {
    forall i | 0 <= i < |t'.budgets| && IsMonthKey(t'.budgets[i].month) && !(t'.budgets[i].userId == u && t'.budgets[i].month in ms - {m})
      ensures RowSynced(t', t'.budgets[i])
    {
      if i < |t.budgets| && !(t.budgets[i].userId == u && t.budgets[i].month == m) {
        assert RowSynced(t, t.budgets[i]);
      }
    }
  }

  /** A ledger change that keeps every month total outside `(u, ms)` keeps
      those rows in sync. */
  lemma LedgerChange(t: Tables, ts: seq<TxRow>, u: string, ms: set<string>)
    requires AllSynced(t)
    requires forall v, m :: IsMonthKey(m) && !(v == u && m in ms) ==>
      Total(ts, ExpenseIn(v, m)) == Total(t.transactions, ExpenseIn(v, m))
    ensures SyncedExcept(t.(transactions := ts), u, ms)
  {
  }

  /** A shaped expense entry counts only toward its own user and month. */
  lemma ContributionOnlyOwnMonth(r: TxRow, v: string, m: string)
    requires r.kind == Expense ==> DateShaped(r.date)
    requires IsMonthKey(m) && Matches(r, ExpenseIn(v, m))
    ensures r.kind == Expense && r.userId == v && MonthOf(r.date) == Some(m)
  {
    MonthOfShaped(r.date);
  }

  /** A successful add of an entry dated by month leaves every budget month
      in sync, keeps the schema constraints, and keeps a ledger whose expense
      entries are dated by month so. */
  lemma AddKeepsSync(x: TxState, t: Tables, freshId: string, now: Timestamp, budgetId: string)
    requires Valid(t) && AllSynced(t)
    requires x.kind == Expense ==> DateShaped(StoredDate(x.date, now))
    requires AddSpec(x, t, freshId, now, budgetId).ok
    ensures var o := AddSpec(x, t, freshId, now, budgetId);
      && AllSynced(o.tables) && Valid(o.tables)
      && (LedgerShaped(t.transactions) ==> LedgerShaped(o.tables.transactions))
  {
    var o := AddSpec(x, t, freshId, now, budgetId);
    var date := StoredDate(x.date, now);
    var row := RowOfTx(o.tx, date);
    var ts := t.transactions + [row];
    var t1 := t.(transactions := ts);
    var ms := if x.kind == Expense then {MonthOf(date).value} else {};
    forall v, m | IsMonthKey(m) && !(v == x.userId && m in ms)
      ensures Total(ts, ExpenseIn(v, m)) == Total(t.transactions, ExpenseIn(v, m))
    {
      TotalAppend(t.transactions, row, ExpenseIn(v, m));
      if Matches(row, ExpenseIn(v, m)) {
        ContributionOnlyOwnMonth(row, v, m);
      }
    }
    LedgerChange(t, ts, x.userId, ms);
    assert TxIdsDistinct(ts) by {
      assert forall i :: 0 <= i < |t.transactions| ==> t.transactions[i].transactionId != freshId;
    }
    if x.kind == Expense {
      ResyncRepairs(t1, x.userId, MonthOf(date).value, ms, budgetId);
    }
  }

  /** The sync claim needs month-shaped expense dates. Text no format reads is
      stored as written, and its `split('-')` month need not be the month
      whose `LIKE 'YYYY-MM%'` sum the entry joins: an expense dated
      "2023-0501" resyncs the budget of "2023-0501" (a new row), while the
      existing "2023-05" row now misses the 100 its sum has gained. */
  lemma UnshapedDateBreaksSync(now: Timestamp)
    ensures var t := Tables(true, [UserRow("u", "n", "h", 500)], [], [], [BudgetRow("b1", "u", "2023-05", 500, 0)]);
      var x := TxState("", 100, Expense, "c", DateText("2023-0501"), "", "u");
      var o := AddSpec(x, t, "t1", now, "b2");
      AllSynced(t) && o.ok && !AllSynced(o.tables)
  {
    var t := Tables(true, [UserRow("u", "n", "h", 500)], [], [], [BudgetRow("b1", "u", "2023-05", 500, 0)]);
    var x := TxState("", 100, Expense, "c", DateText("2023-0501"), "", "u");
    var o := AddSpec(x, t, "t1", now, "b2");
    UnshapedAdd(now);
    UnshapedRowTotal();
    UnshapedBudgetKey();
    assert !RowSynced(o.tables, o.tables.budgets[0]);
  }

  /** The add of `UnshapedDateBreaksSync` succeeds, appends the entry with its
      date as written, and leaves the "2023-05" row as it was. */
  lemma UnshapedAdd(now: Timestamp)
    ensures var t := Tables(true, [UserRow("u", "n", "h", 500)], [], [], [BudgetRow("b1", "u", "2023-05", 500, 0)]);
      var x := TxState("", 100, Expense, "c", DateText("2023-0501"), "", "u");
      var o := AddSpec(x, t, "t1", now, "b2");
      && o.ok && o.tables.transactions == [TxRow("t1", 100, Expense, "c", "2023-0501", "", "u")]
      && |o.tables.budgets| >= 1 && o.tables.budgets[0] == t.budgets[0]
  {
    var t := Tables(true, [UserRow("u", "n", "h", 500)], [], [], [BudgetRow("b1", "u", "2023-05", 500, 0)]);
    var x := TxState("", 100, Expense, "c", DateText("2023-0501"), "", "u");
    UnshapedKept();
    UnshapedMonth();
    var row := TxRow("t1", 100, Expense, "c", "2023-0501", "", "u");
    var t1 := t.(transactions := [row]);
    ResyncFrame(Init(BudgetState("", "u", "2023-0501", 0, 0), t1), t1, "b2");
  }

  /** No format reads "2023-0501" (it is too short for each), so it is stored as written. */
  lemma UnshapedKept()
    ensures Normalize("2023-0501") == "2023-0501"
  {
  }

  /** The `split('-')` month of "2023-0501" is the whole text. */
  lemma UnshapedMonth()
    ensures MonthOf("2023-0501") == Some("2023-0501")
  {
    SplitAtSeparator("2023", '-', "0501");
    SplitNoSeparator("0501", '-');
    assert "2023" + ['-'] + "0501" == "2023-0501";
  }

  /** The entry of `UnshapedDateBreaksSync` counts toward the "2023-05" sum. */
  lemma UnshapedRowTotal()
    ensures Total([TxRow("t1", 100, Expense, "c", "2023-0501", "", "u")], ExpenseIn("u", "2023-05")) == 100
  {
    var rows := [TxRow("t1", 100, Expense, "c", "2023-0501", "", "u")];
    assert rows[..0] == [];
    assert "2023-0501"[..7] == "2023-05";
  }

  lemma UnshapedBudgetKey()
    ensures IsMonthKey("2023-05")
  {
    assert "2023-05"[..4] == "2023" && "2023-05"[5..7] == "05";
  }

  // ---------------------------------------------------------------------
  // edit_transaction
  // ---------------------------------------------------------------------

  /** The month whose budget `edit_transaction` and `delete_transaction`
      resync for the stored entry with id `id`: its `split('-')` month when
      it exists and is an expense. `Some(None)` is "no month";
      `None` is the IndexError of a date with no second field. */
  function OldMonth(ts: seq<TxRow>, id: string): (r: Option<Option<string>>)
    ensures r.None? ==> FindTx(ts, id).Some?
  {
    match FindTx(ts, id)
    case None => Some(None)
    case Some(k) =>
      if ts[k].kind != Expense then Some(None)
      else match MonthOf(ts[k].date)
        case None => None
        case Some(m) => Some(Some(m))
  }

  /** `UPDATE transactions SET amount, type, category_id, date, note
      WHERE transaction_id = ? AND user_id = ?`. */
  function UpdateTx(ts: seq<TxRow>, x: TxState, date: string): seq<TxRow>
  {
    seq(|ts|, i requires 0 <= i < |ts| =>
      if ts[i].transactionId == x.transactionId && ts[i].userId == x.userId then RowOfTx(x, date) else ts[i])
  }

  /** The text SQLite stores for a date value; a `datetime` is adapted to
      `YYYY-MM-DD HH:MM:SS`. None violates the NOT NULL constraint. */
  function BoundDate(d: DateValue): Option<string>
  {
    match d
    case DateText(s) => Some(s)
    case DateStamp(s) => Some(FormatDateTime(s))
    case NoDate => None
  }

  /** `edit_transaction`: look up the stored entry by id alone, update the row
      matching id and user, resync the old month when the old entry was an
      expense, then resync the new month when the entry is an expense and
      its month differs from the old one. The date is not normalised, and a
      `datetime` date fails at the month extraction, after the update. */
  function EditSpec(x: TxState, t: Tables, budgetId1: string, budgetId2: string): (o: TxOutcome)
    ensures o.tx == x
    ensures o.tables.users == t.users && o.tables.categories == t.categories && o.tables.online == t.online
    ensures !t.online || OldMonth(t.transactions, x.transactionId).None? || x.date.NoDate? ==> !o.ok && o.tables == t
    ensures o.ok ==> x.kind == Expense ==> x.date.DateText? && MonthOf(x.date.text).Some?
  {
    if !t.online then TxOutcome(false, x, t, [])
    else match OldMonth(t.transactions, x.transactionId)
      case None => TxOutcome(false, x, t, [])
      case Some(oldMonth) =>
        match BoundDate(x.date)
        case None => TxOutcome(false, x, t, [])
        case Some(date) =>
          var t1 := t.(transactions := UpdateTx(t.transactions, x, date));
          var t2 := if oldMonth.Some? then ResyncMonth(t1, x.userId, oldMonth.value, budgetId1).tables else t1;
          var done := if oldMonth.Some? then [oldMonth.value] else [];
          if x.kind != Expense then TxOutcome(true, x, t2, done)
          else if !x.date.DateText? then TxOutcome(false, x, t2, done)
          else match MonthOf(x.date.text)
            case None => TxOutcome(false, x, t2, done)
            case Some(newMonth) =>
              if oldMonth == Some(newMonth) then TxOutcome(true, x, t2, done)
              else TxOutcome(true, x, ResyncMonth(t2, x.userId, newMonth, budgetId2).tables, done + [newMonth])
  }

  /** A successful edit resyncs the old month exactly when the stored entry
      was an expense, the new month exactly when the entry is now an expense
      in another month, and so no month twice. */
  lemma EditResyncPolicy(x: TxState, t: Tables, budgetId1: string, budgetId2: string)
    requires EditSpec(x, t, budgetId1, budgetId2).ok
    ensures OldMonth(t.transactions, x.transactionId).Some?
    ensures x.kind == Expense ==> x.date.DateText? && MonthOf(x.date.text).Some?
    ensures var o := EditSpec(x, t, budgetId1, budgetId2);
      var oldMonth := OldMonth(t.transactions, x.transactionId).value;
      var found := FindTx(t.transactions, x.transactionId);
      && (oldMonth.Some? <==> found.Some? && t.transactions[found.value].kind == Expense)
      && o.resynced == (if oldMonth.Some? then [oldMonth.value] else [])
                       + (if x.kind == Expense && MonthOf(x.date.text) != oldMonth
                          then [MonthOf(x.date.text).value] else [])
      && (forall i, j :: 0 <= i < j < |o.resynced| ==> o.resynced[i] != o.resynced[j])
  {
  }

  /** Replacing the row at `k` with a row of the same id keeps ids distinct and
      the ledger shaped when the new row is. */
  lemma ReplaceKeepsShape(ts: seq<TxRow>, ts': seq<TxRow>, k: nat)
    requires TxIdsDistinct(ts) && LedgerShaped(ts) && |ts'| == |ts| && k < |ts|
    requires forall i :: 0 <= i < |ts| && i != k ==> ts'[i] == ts[i]
    requires ts'[k].transactionId == ts[k].transactionId
    requires ts'[k].kind == Expense ==> DateShaped(ts'[k].date)
    ensures TxIdsDistinct(ts') && LedgerShaped(ts')
  {
  }

  /** An edit changes at most the one row with the object's id, and only
      when that row is the object's user's. */
  lemma UpdateTxOneRow(ts: seq<TxRow>, x: TxState, date: string)
    requires TxIdsDistinct(ts)
    ensures var ts' := UpdateTx(ts, x, date);
      && |ts'| == |ts|
      && (FindTx(ts, x.transactionId).None? ==> ts' == ts)
      && (FindTx(ts, x.transactionId).Some? ==>
            var k := FindTx(ts, x.transactionId).value;
            && (forall i :: 0 <= i < |ts| && i != k ==> ts'[i] == ts[i])
            && ts'[k] == (if ts[k].userId == x.userId then RowOfTx(x, date) else ts[k]))
  {
    var ts' := UpdateTx(ts, x, date);
    if FindTx(ts, x.transactionId).None? {
      assert forall i :: 0 <= i < |ts| ==> ts'[i] == ts[i];
    }
  }

  /** The update step of an edit: outside the old and the new month of the
      user, every budget row stays in sync, and the ledger keeps its shape. */
  lemma EditLedgerStep(x: TxState, t: Tables, date: string, oldMonth: Option<string>, ms: set<string>)
    requires Valid(t) && AllSynced(t) && LedgerShaped(t.transactions)
    requires OldMonth(t.transactions, x.transactionId) == Some(oldMonth)
    requires x.kind == Expense ==> DateShaped(date) && MonthOf(date).Some? && MonthOf(date).value in ms
    requires oldMonth.Some? ==> oldMonth.value in ms
    ensures var t1 := t.(transactions := UpdateTx(t.transactions, x, date));
      SyncedExcept(t1, x.userId, ms) && Valid(t1) && LedgerShaped(t1.transactions)
  {
    var ts := t.transactions;
    var ts' := UpdateTx(ts, x, date);
    UpdateTxOneRow(ts, x, date);
    var newRow := RowOfTx(x, date);
    forall v, m | IsMonthKey(m) && !(v == x.userId && m in ms)
      ensures Total(ts', ExpenseIn(v, m)) == Total(ts, ExpenseIn(v, m))
    {
      match FindTx(ts, x.transactionId)
      case None =>
      case Some(k) =>
        TotalReplace(ts, ts', k, ExpenseIn(v, m));
        if ts[k].userId == x.userId {
          if Matches(ts[k], ExpenseIn(v, m)) {
            ContributionOnlyOwnMonth(ts[k], v, m);
          }
          if Matches(newRow, ExpenseIn(v, m)) {
            ContributionOnlyOwnMonth(newRow, v, m);
          }
        }
    }
    LedgerChange(t, ts', x.userId, ms);
    match FindTx(ts, x.transactionId)
    case None =>
    case Some(k) =>
      ReplaceKeepsShape(ts, ts', k);
  }

  /** A successful edit leaves every budget month in sync, keeps the schema
      constraints and keeps every expense entry dated by month. */
  lemma EditKeepsSync(x: TxState, t: Tables, budgetId1: string, budgetId2: string)
    requires Valid(t) && AllSynced(t) && LedgerShaped(t.transactions)
    requires x.kind == Expense && x.date.DateText? ==> DateShaped(x.date.text)
    requires EditSpec(x, t, budgetId1, budgetId2).ok
    ensures var o := EditSpec(x, t, budgetId1, budgetId2);
      AllSynced(o.tables) && Valid(o.tables) && LedgerShaped(o.tables.transactions)
  {
    var u := x.userId;
    var oldMonth := OldMonth(t.transactions, x.transactionId).value;
    var date := BoundDate(x.date).value;
    var olds := if oldMonth.Some? then {oldMonth.value} else {};
    var news := if x.kind == Expense then {MonthOf(date).value} else {};
    var t1 := t.(transactions := UpdateTx(t.transactions, x, date));
    EditLedgerStep(x, t, date, oldMonth, olds + news);
    var t2 := if oldMonth.Some? then ResyncMonth(t1, u, oldMonth.value, budgetId1).tables else t1;
    if oldMonth.Some? {
      ResyncRepairs(t1, u, oldMonth.value, olds + news, budgetId1);
      ResyncKeepsValid(Init(BudgetState("", u, oldMonth.value, 0, 0), t1), t1, budgetId1);
    }
    assert SyncedExcept(t2, u, news - olds) && Valid(t2) && LedgerShaped(t2.transactions) by {
      assert (olds + news) - olds == news - olds;
    }
    if x.kind == Expense && MonthOf(date) != oldMonth {
      ResyncRepairs(t2, u, MonthOf(date).value, news - olds, budgetId2);
      ResyncKeepsValid(Init(BudgetState("", u, MonthOf(date).value, 0, 0), t2), t2, budgetId2);
      assert (news - olds) - {MonthOf(date).value} == {};
    } else {
      assert news - olds == {};
    }
  }

  // ---------------------------------------------------------------------
  // delete_transaction
  // ---------------------------------------------------------------------

  /** `delete_transaction`: look up the stored entry by id alone, delete the
      row matching id and user, then resync the old entry's month when it
      was an expense. */
  function DeleteSpec(x: TxState, t: Tables, budgetId: string): (o: TxOutcome)
    ensures o.tx == x
    ensures o.tables.users == t.users && o.tables.categories == t.categories && o.tables.online == t.online
    ensures !t.online || OldMonth(t.transactions, x.transactionId).None? ==> !o.ok && o.tables == t
    ensures o.ok <==> t.online && OldMonth(t.transactions, x.transactionId).Some?
  {
    if !t.online then TxOutcome(false, x, t, [])
    else match OldMonth(t.transactions, x.transactionId)
      case None => TxOutcome(false, x, t, [])
      case Some(month) =>
        var t1 := t.(transactions := RemoveTx(t.transactions, x.transactionId, x.userId));
        if month.Some? then TxOutcome(true, x, ResyncMonth(t1, x.userId, month.value, budgetId).tables, [month.value])
        else TxOutcome(true, x, t1, [])
  }

  /** A successful delete removes exactly the rows matching id and user and
      resyncs the deleted entry's month exactly when it was an expense. */
  lemma DeleteEffect(x: TxState, t: Tables, budgetId: string)
    requires DeleteSpec(x, t, budgetId).ok
    ensures var o := DeleteSpec(x, t, budgetId);
      var found := FindTx(t.transactions, x.transactionId);
      && (forall r :: r in o.tables.transactions <==>
            r in t.transactions && !(r.transactionId == x.transactionId && r.userId == x.userId))
      && (|o.resynced| == 1 <==> found.Some? && t.transactions[found.value].kind == Expense)
      && |o.resynced| <= 1
  {
  }

  /** A successful delete leaves every budget month in sync, keeps the schema
      constraints and keeps every expense entry dated by month. */
  lemma DeleteKeepsSync(x: TxState, t: Tables, budgetId: string)
    requires Valid(t) && AllSynced(t) && LedgerShaped(t.transactions)
    requires DeleteSpec(x, t, budgetId).ok
    ensures var o := DeleteSpec(x, t, budgetId);
      AllSynced(o.tables) && Valid(o.tables) && LedgerShaped(o.tables.transactions)
  {
    var ts := t.transactions;
    var month := OldMonth(ts, x.transactionId).value;
    var ts' := RemoveTx(ts, x.transactionId, x.userId);
    var t1 := t.(transactions := ts');
    var ms := if month.Some? then {month.value} else {};
    DeleteLeavesOtherMonths(ts, x, ms);
    LedgerChange(t, ts', x.userId, ms);
    RemoveTxKeepsIds(ts, x.transactionId, x.userId);
    RemoveTxKeepsShape(ts, x.transactionId, x.userId);
    if month.Some? {
      ResyncRepairs(t1, x.userId, month.value, ms, budgetId);
    }
  }

  /** The ledger condition of `DeleteKeepsSync` is needed: an expense
      stored as "2023-0501" (as `add_transaction` keeps text no format
      reads) counts toward the "2023-05" sum, but deleting it resyncs the
      budget of "2023-0501", so the "2023-05" row keeps the 100 it no longer
      has. */
  lemma DeleteUnshapedBreaksSync()
    ensures var t := Tables(true, [UserRow("u", "n", "h", 500)], [],
                            [TxRow("t1", 100, Expense, "c", "2023-0501", "", "u")],
                            [BudgetRow("b1", "u", "2023-05", 500, 100)]);
      var x := TxState("t1", 100, Expense, "c", DateText("2023-0501"), "", "u");
      var o := DeleteSpec(x, t, "b2");
      AllSynced(t) && o.ok && !AllSynced(o.tables)
  {
    var t := Tables(true, [UserRow("u", "n", "h", 500)], [],
                    [TxRow("t1", 100, Expense, "c", "2023-0501", "", "u")],
                    [BudgetRow("b1", "u", "2023-05", 500, 100)]);
    var x := TxState("t1", 100, Expense, "c", DateText("2023-0501"), "", "u");
    var o := DeleteSpec(x, t, "b2");
    UnshapedDelete();
    UnshapedRowTotal();
    UnshapedBudgetKey();
    assert RowSynced(t, t.budgets[0]);
    assert !RowSynced(o.tables, o.tables.budgets[0]);
  }

  /** The delete of `DeleteUnshapedBreaksSync` succeeds, empties the ledger
      and leaves the "2023-05" row as it was. */
  lemma UnshapedDelete()
    ensures var t := Tables(true, [UserRow("u", "n", "h", 500)], [],
                            [TxRow("t1", 100, Expense, "c", "2023-0501", "", "u")],
                            [BudgetRow("b1", "u", "2023-05", 500, 100)]);
      var x := TxState("t1", 100, Expense, "c", DateText("2023-0501"), "", "u");
      var o := DeleteSpec(x, t, "b2");
      && o.ok && o.tables.transactions == []
      && |o.tables.budgets| >= 1 && o.tables.budgets[0] == t.budgets[0]
  {
    var row := TxRow("t1", 100, Expense, "c", "2023-0501", "", "u");
    var t := Tables(true, [UserRow("u", "n", "h", 500)], [], [row], [BudgetRow("b1", "u", "2023-05", 500, 100)]);
    UnshapedMonth();
    assert OldMonth([row], "t1") == Some(Some("2023-0501"));
    var t1 := t.(transactions := []);
    ResyncFrame(Init(BudgetState("", "u", "2023-0501", 0, 0), t1), t1, "b2");
  }

  /** Removing the entry changes no expense total but its own month's. */
  lemma DeleteLeavesOtherMonths(ts: seq<TxRow>, x: TxState, ms: set<string>)
    requires LedgerShaped(ts) && TxIdsDistinct(ts) && OldMonth(ts, x.transactionId).Some?
    requires ms == (var month := OldMonth(ts, x.transactionId).value; if month.Some? then {month.value} else {})
    ensures forall v, m :: IsMonthKey(m) && !(v == x.userId && m in ms) ==>
      Total(RemoveTx(ts, x.transactionId, x.userId), ExpenseIn(v, m)) == Total(ts, ExpenseIn(v, m))
  {
    forall v, m | IsMonthKey(m) && !(v == x.userId && m in ms)
      ensures Total(RemoveTx(ts, x.transactionId, x.userId), ExpenseIn(v, m)) == Total(ts, ExpenseIn(v, m))
    {
      forall i | 0 <= i < |ts| && ts[i].transactionId == x.transactionId && ts[i].userId == x.userId
        ensures !Matches(ts[i], ExpenseIn(v, m))
      {
        if Matches(ts[i], ExpenseIn(v, m)) {
          ContributionOnlyOwnMonth(ts[i], v, m);
        }
      }
      TotalRemoveTx(ts, x.transactionId, x.userId, ExpenseIn(v, m));
    }
  }

  lemma RemoveTxKeepsShape(ts: seq<TxRow>, id: string, u: string)
    requires LedgerShaped(ts)
    ensures LedgerShaped(RemoveTx(ts, id, u))
  {
    var ts' := RemoveTx(ts, id, u);
    forall i | 0 <= i < |ts'| && ts'[i].kind == Expense ensures DateShaped(ts'[i].date) {
      assert ts'[i] in ts;
    }
  }

  // ---------------------------------------------------------------------
  // Queries
  // ---------------------------------------------------------------------

  /** `get_transaction_by_id`: the entry with that id, whoever owns it. */
  function TransactionById(t: Tables, id: string): (r: Option<TxRow>)
    ensures r.Some? ==> r.value in t.transactions && r.value.transactionId == id
    ensures r.None? && t.online ==> forall x :: x in t.transactions ==> x.transactionId != id
  {
    if !t.online then None
    else match FindTx(t.transactions, id)
      case None => None
      case Some(k) => Some(t.transactions[k])
  }

  /** The optional filters of `get_transactions_by_user`; "" and None leave a filter out. */
  datatype Query = Query(startDate: string, endDate: string, typeLabel: string, categoryId: string,
                         minAmount: Option<int>, maxAmount: Option<int>)

  /** The WHERE clause: the owner and every filter supplied, bounds inclusive. */
  predicate Selects(u: string, q: Query, r: TxRow)
  {
    && r.userId == u
    && (q.startDate == "" || LexLe(q.startDate, r.date))
    && (q.endDate == "" || LexLe(r.date, q.endDate))
    && (q.typeLabel == "" || KindLabel(r.kind) == q.typeLabel)
    && (q.categoryId == "" || r.categoryId == q.categoryId)
    && (q.minAmount.None? || r.amount >= q.minAmount.value)
    && (q.maxAmount.None? || r.amount <= q.maxAmount.value)
  }

  function Selected(ts: seq<TxRow>, u: string, q: Query): (r: seq<TxRow>)
    ensures multiset(r) <= multiset(ts)
    ensures forall x :: x in r <==> x in ts && Selects(u, q, x)
    decreases |ts|
  {
    if ts == [] then []
    else
      var last := ts[|ts| - 1];
      var rest := Selected(ts[..|ts| - 1], u, q);
      assert ts == ts[..|ts| - 1] + [last];
      if Selects(u, q, last) then rest + [last] else rest
  }

  function TxDate(r: TxRow): string
  {
    r.date
  }

  /** `get_transactions_by_user`: exactly the user's entries that pass every
      filter, latest date first; [] on failure. */
  function TransactionsByUser(t: Tables, u: string, q: Query): (r: seq<TxRow>)
    ensures !t.online ==> r == []
    ensures t.online ==> forall x :: x in r <==> x in t.transactions && Selects(u, q, x)
    ensures t.online ==> multiset(r) == multiset(Selected(t.transactions, u, q))
    ensures SortedDesc(r, TxDate)
  {
    if !t.online then []
    else
      var r := SortDesc(Selected(t.transactions, u, q), TxDate);
      assert forall x :: x in r <==> x in multiset(r);
      r
  }

  /** A `SearchCriteria`; the category is given by its id. */
  datatype SearchCriteria = SearchCriteria(startDate: string, endDate: string, category: string,
                                           minAmount: Option<int>, maxAmount: Option<int>)

  /** `SearchCriteria.search`: the user's entries in the date and amount
      ranges and the category, of either type, latest first. */
  function Search(c: SearchCriteria, t: Tables, u: string): (r: seq<TxRow>)
    ensures t.online ==> forall x :: x in r <==>
      (&& x in t.transactions && x.userId == u
       && (c.startDate == "" || LexLe(c.startDate, x.date)) && (c.endDate == "" || LexLe(x.date, c.endDate))
       && (c.category == "" || x.categoryId == c.category)
       && (c.minAmount.None? || x.amount >= c.minAmount.value) && (c.maxAmount.None? || x.amount <= c.maxAmount.value))
    ensures SortedDesc(r, TxDate)
  {
    TransactionsByUser(t, u, Query(c.startDate, c.endDate, "", c.category, c.minAmount, c.maxAmount))
  }

  // ---------------------------------------------------------------------
  // The Transaction object
  // ---------------------------------------------------------------------

  class Transaction {
    var transactionId: string
    var amount: int
    var kind: Kind
    var categoryId: string
    var date: DateValue
    var note: string
    var userId: string

    function State(): TxState
      reads this
    {
      TxState(transactionId, amount, kind, categoryId, date, note, userId)
    }

    constructor (x: TxState)
      ensures State() == x
    {
      transactionId := x.transactionId;
      amount := x.amount;
      kind := x.kind;
      categoryId := x.categoryId;
      date := x.date;
      note := x.note;
      userId := x.userId;
    }

    method Add(db: Database, freshId: string, now: Timestamp, budgetId: string) returns (ok: bool)
      modifies this, db
      ensures var o := AddSpec(old(State()), old(db.Snapshot()), freshId, now, budgetId);
        ok == o.ok && State() == o.tx && db.Snapshot() == o.tables
    {
      ghost var x, t := State(), db.Snapshot();
      transactionId := freshId;
      match date {
        case DateStamp(s) => date := DateText(FormatDateTime(s));
        case DateText(s) =>
          var normalized := NormalizeDate(s);
          date := DateText(normalized);
        case NoDate => date := DateText(FormatDateTime(now));
      }
      assert State() == x.(transactionId := freshId, date := DateText(StoredDate(x.date, now)));
      if !db.online || FindTx(db.transactions, freshId).Some? {
        return false;
      }
      db.transactions := db.transactions + [RowOfTx(State(), date.text)];
      assert db.Snapshot() == t.(transactions := t.transactions + [RowOfTx(State(), StoredDate(x.date, now))]);
      if kind == Expense {
        var month := MonthOf(date.text);
        if month.None? {
          return false;
        }
        var budget := new Budget("", userId, month.value, 0, 0, db);
        var _ := budget.UpdateSpent(db, budgetId);
      }
      return true;
    }

    method Edit(db: Database, budgetId1: string, budgetId2: string) returns (ok: bool)
      modifies db
      ensures var o := EditSpec(old(State()), old(db.Snapshot()), budgetId1, budgetId2);
        ok == o.ok && State() == o.tx && db.Snapshot() == o.tables
    {
      if !db.online {
        return false;
      }
      var oldMonth := OldMonth(db.transactions, transactionId);
      if oldMonth.None? {
        return false;
      }
      if date.NoDate? {
        return false;
      }
      ghost var t := db.Snapshot();
      db.transactions := UpdateTx(db.transactions, State(), BoundDate(date).value);
      ghost var t1 := db.Snapshot();
      assert t1 == t.(transactions := UpdateTx(t.transactions, State(), BoundDate(date).value));
      if oldMonth.value.Some? {
        var budget := new Budget("", userId, oldMonth.value.value, 0, 0, db);
        var _ := budget.UpdateSpent(db, budgetId1);
      }
      assert db.Snapshot() == if oldMonth.value.Some? then ResyncMonth(t1, userId, oldMonth.value.value, budgetId1).tables else t1;
      if kind == Expense {
        if !date.DateText? {
          return false;
        }
        var newMonth := MonthOf(date.text);
        if newMonth.None? {
          return false;
        }
        if oldMonth.value != newMonth {
          var budget := new Budget("", userId, newMonth.value, 0, 0, db);
          var _ := budget.UpdateSpent(db, budgetId2);
        }
      }
      return true;
    }

    method Delete(db: Database, budgetId: string) returns (ok: bool)
      modifies db
      ensures var o := DeleteSpec(old(State()), old(db.Snapshot()), budgetId);
        ok == o.ok && State() == o.tx && db.Snapshot() == o.tables
    {
      if !db.online {
        return false;
      }
      var month := OldMonth(db.transactions, transactionId);
      if month.None? {
        return false;
      }
      db.transactions := RemoveTx(db.transactions, transactionId, userId);
      if month.value.Some? {
        var budget := new Budget("", userId, month.value.value, 0, 0, db);
        var _ := budget.UpdateSpent(db, budgetId);
      }
      return true;
    }
  }
}

=== FILE: user.dfy ===
/** `User`: registration, login, the default monthly budget and the
    overspend check (code/user.py).

    The password hash (SHA-256 in the program) is the function parameter
    `hash`, and the fresh `uuid4` id is the parameter `freshId`. As in the
    other modules, each method that changes state is specified by a function
    on values and the properties are lemmas about those functions. */
module Users {
  import opened Text
  import opened Dates
  import opened Store
  import opened Budgets

  /** The fields of a `User` object. */
  datatype UserState = UserState(userId: string, username: string, password: string, monthlyBudget: int)

  /** What an operation returns, the object afterwards and the database afterwards. */
  datatype UserOutcome = UserOutcome(ok: bool, user: UserState, tables: Tables)

  predicate UserIdUsed(us: seq<UserRow>, id: string)
  {
    exists j :: 0 <= j < |us| && us[j].userId == id
  }

  // ---------------------------------------------------------------------
  // register
  // ---------------------------------------------------------------------

  /** The row `register` inserts. */
  function NewUserRow(x: UserState, freshId: string, hash: string -> string): UserRow
  {
    UserRow(freshId, x.username, hash(x.password), x.monthlyBudget)
  }

  /** `register`: refuse a taken username; otherwise take the fresh id (before
      the INSERT, so the object keeps it even when the INSERT fails on a
      primary-key clash) and insert one row with the hashed password. */
  function RegisterSpec(x: UserState, t: Tables, freshId: string, hash: string -> string): (o: UserOutcome)
    ensures !o.ok ==> o.tables == t
    ensures o.ok ==> o.user.userId == freshId && o.tables.users == t.users + [NewUserRow(x, freshId, hash)]
    ensures o.user.username == x.username && o.user.password == x.password
    ensures o.user.monthlyBudget == x.monthlyBudget
  {
    if !t.online then UserOutcome(false, x, t)
    else if FindUserByName(t.users, x.username).Some? then UserOutcome(false, x, t)
    else
      var x' := x.(userId := freshId);
      if UserIdUsed(t.users, freshId) then UserOutcome(false, x', t)
      else UserOutcome(true, x', t.(users := t.users + [NewUserRow(x, freshId, hash)]))
  }

  /** A taken username is refused, and nothing is inserted. */
  lemma RegisterRefusesTaken(x: UserState, t: Tables, freshId: string, hash: string -> string, j: nat)
    requires j < |t.users| && t.users[j].username == x.username
    ensures var o := RegisterSpec(x, t, freshId, hash);
      !o.ok && o.tables == t && o.user == x
  {
  }

  /** A free username and a fresh id give exactly one new row, holding the
      fresh id, the name, the hashed password and the default budget; the
      other tables are untouched. */
  lemma RegisterInserts(x: UserState, t: Tables, freshId: string, hash: string -> string)
    requires t.online
    requires forall j :: 0 <= j < |t.users| ==> t.users[j].username != x.username && t.users[j].userId != freshId
    ensures var o := RegisterSpec(x, t, freshId, hash);
      o.ok && o.user == x.(userId := freshId)
      && o.tables == t.(users := t.users + [UserRow(freshId, x.username, hash(x.password), x.monthlyBudget)])
  {
  }

  /** Registration keeps user ids and usernames unique. */
  lemma RegisterKeepsValid(x: UserState, t: Tables, freshId: string, hash: string -> string)
    requires Valid(t)
    ensures Valid(RegisterSpec(x, t, freshId, hash).tables)
  {
    var o := RegisterSpec(x, t, freshId, hash);
    if o.ok {
      var us := o.tables.users;
      forall i, j | 0 <= i < j < |us|
        ensures us[i].userId != us[j].userId && us[i].username != us[j].username
      {
        if j == |t.users| {
          assert us[i] == t.users[i];
        }
      }
    }
  }

  // ---------------------------------------------------------------------
  // login
  // ---------------------------------------------------------------------

  /** A row holding the object's name and the hash of its password. */
  predicate Matching(row: UserRow, x: UserState, hash: string -> string)
  {
    row.username == x.username && row.password == hash(x.password)
  }

  /** The object after a successful login: the stored id and default budget copied in. */
  function LoggedIn(x: UserState, row: UserRow): UserState
  {
    x.(userId := row.userId, monthlyBudget := row.monthlyBudget)
  }

  /** `login`: look the name up; on a matching hash copy the stored id and
      default budget into the object. */
  function LoginSpec(x: UserState, t: Tables, hash: string -> string): (r: (bool, UserState))
    ensures !r.0 ==> r.1 == x
    ensures r.0 ==> exists j :: 0 <= j < |t.users| && Matching(t.users[j], x, hash) && r.1 == LoggedIn(x, t.users[j])
  {
    if !t.online then (false, x)
    else match FindUserByName(t.users, x.username)
      case None => (false, x)
      case Some(i) =>
        if hash(x.password) != t.users[i].password then (false, x)
        else (true, LoggedIn(x, t.users[i]))
  }

  /** With unique usernames, login succeeds exactly when a row has the name
      and the hash of the given password. */
  lemma LoginSucceedsIff(x: UserState, t: Tables, hash: string -> string)
    requires UsersValid(t.users)
    ensures LoginSpec(x, t, hash).0 <==>
      t.online && exists j :: 0 <= j < |t.users| && Matching(t.users[j], x, hash)
  {
    if t.online && exists j :: 0 <= j < |t.users| && Matching(t.users[j], x, hash) {
      var j :| 0 <= j < |t.users| && Matching(t.users[j], x, hash);
      var i := FindUserByName(t.users, x.username).value;
      assert i == j;
    }
  }

  /** After a successful registration, logging in with the same name and
      password succeeds with the new id and the registered budget, and a
      password with a different hash fails. */
  lemma RegisterThenLogin(x: UserState, t: Tables, freshId: string, hash: string -> string, y: UserState)
    requires RegisterSpec(x, t, freshId, hash).ok
    requires y.username == x.username
    ensures var t' := RegisterSpec(x, t, freshId, hash).tables;
      (y.password == x.password ==> LoginSpec(y, t', hash) == (true, y.(userId := freshId, monthlyBudget := x.monthlyBudget)))
      && (hash(y.password) != hash(x.password) ==> !LoginSpec(y, t', hash).0)
  {
    var t' := RegisterSpec(x, t, freshId, hash).tables;
    assert t'.users[|t.users|] == NewUserRow(x, freshId, hash);
    assert FindUserByName(t'.users, y.username) == Some(|t.users|);
  }

  // ---------------------------------------------------------------------
  // set_budget
  // ---------------------------------------------------------------------

  /** `UPDATE users SET monthly_budget = v WHERE user_id = u`. */
  function SetDefaultBudget(us: seq<UserRow>, u: string, v: int): seq<UserRow>
  {
    seq(|us|, i requires 0 <= i < |us| => if us[i].userId == u then us[i].(monthlyBudget := v) else us[i])
  }

  /** `set_budget`: the object's field is assigned first, so it holds the new
      value even when the UPDATE then fails. */
  function SetBudgetSpec(x: UserState, t: Tables, v: int): (o: UserOutcome)
    ensures o.user == x.(monthlyBudget := v)
    ensures o.ok <==> t.online
    ensures o.tables.online == t.online && o.tables.categories == t.categories
    ensures o.tables.transactions == t.transactions && o.tables.budgets == t.budgets
  {
    if !t.online then UserOutcome(false, x.(monthlyBudget := v), t)
    else UserOutcome(true, x.(monthlyBudget := v), t.(users := SetDefaultBudget(t.users, x.userId, v)))
  }

  /** A successful `set_budget` stores the new default in exactly the rows
      of the object's id, leaves every other field and row alone, keeps the
      table valid, and leaves the object and its stored row agreeing. */
  lemma SetBudgetStores(x: UserState, t: Tables, v: int)
    requires t.online
    ensures var us := SetBudgetSpec(x, t, v).tables.users;
      |us| == |t.users|
      && (forall i :: 0 <= i < |us| ==>
            us[i].userId == t.users[i].userId && us[i].username == t.users[i].username
            && us[i].password == t.users[i].password)
      && (forall i :: 0 <= i < |us| ==>
            us[i].monthlyBudget == if t.users[i].userId == x.userId then v else t.users[i].monthlyBudget)
      && (UsersValid(t.users) ==> UsersValid(us))
      && (forall i :: 0 <= i < |us| && us[i].userId == x.userId ==>
            us[i].monthlyBudget == SetBudgetSpec(x, t, v).user.monthlyBudget)
  {
  }

  // ---------------------------------------------------------------------
  // check_overspending
  // ---------------------------------------------------------------------

  /** The month `check_overspending` looks at: the given one, or the current
      month when none is given. */
  function CheckedMonth(month: string, now: Timestamp): (m: string)
    ensures m != ""
    ensures month != "" ==> m == month
    ensures month == "" ==> IsMonthKey(m)
  {
    if month == "" then FormatMonth(now.date) else month
  }

  /** `check_overspending`: the month's expenses against the month's budget
      row if there is one, else against the object's default budget;
      storage failure reads as "not overspent". */
  function CheckOverspendingSpec(x: UserState, t: Tables, month: string, now: Timestamp): (r: bool)
    ensures r ==> t.online
  {
    if !t.online then false
    else
      var m := CheckedMonth(month, now);
      var limit := match FindBudget(t.budgets, x.userId, m)
        case Some(i) => t.budgets[i].amount
        case None => x.monthlyBudget;
      Total(t.transactions, ExpenseIn(x.userId, m)) > limit
  }

  /** The limit, stated over the rows: with unique `(user_id, month)` keys,
      overspent means above the month's row if one exists, and above the
      default budget otherwise; the comparison is strict. */
  lemma OverspendingLimit(x: UserState, t: Tables, m: string, now: Timestamp)
    requires t.online && BudgetKeysDistinct(t.budgets) && m != ""
    ensures var spent := Total(t.transactions, ExpenseIn(x.userId, m));
      CheckOverspendingSpec(x, t, m, now) <==>
        (exists i :: 0 <= i < |t.budgets| && t.budgets[i].userId == x.userId && t.budgets[i].month == m
           && spent > t.budgets[i].amount)
        || ((forall i :: 0 <= i < |t.budgets| ==> !(t.budgets[i].userId == x.userId && t.budgets[i].month == m))
           && spent > x.monthlyBudget)
  {
    var spent := Total(t.transactions, ExpenseIn(x.userId, m));
    match FindBudget(t.budgets, x.userId, m)
    case Some(k) =>
      forall i | 0 <= i < |t.budgets| && t.budgets[i].userId == x.userId && t.budgets[i].month == m
        ensures i == k
      {
      }
    case None =>
  }

  /** For a logged-in user whose object holds the stored default budget,
      `check_overspending` and `Budget(user_id, month).is_overspent()` give
      the same answer. */
  lemma OverspendingAgreesWithBudget(x: UserState, t: Tables, m: string, now: Timestamp, freshId: string)
    requires t.online && BudgetKeysDistinct(t.budgets) && x.userId != "" && m != ""
    requires FindUser(t.users, x.userId).Some?
    requires t.users[FindUser(t.users, x.userId).value].monthlyBudget == x.monthlyBudget
    ensures CheckOverspendingSpec(x, t, m, now)
      == IsOverspentSpec(Init(BudgetState("", x.userId, m, 0, 0), t), t, freshId).0
  {
    OverspentLimit(x.userId, m, t, freshId);
  }

  /** After `set_budget(v)`, a month without a budget row is overspent
      exactly when its expenses exceed `v`. */
  lemma SetBudgetThenCheck(x: UserState, t: Tables, v: int, m: string, now: Timestamp)
    requires t.online && m != ""
    requires forall i :: 0 <= i < |t.budgets| ==> !(t.budgets[i].userId == x.userId && t.budgets[i].month == m)
    ensures var o := SetBudgetSpec(x, t, v);
      CheckOverspendingSpec(o.user, o.tables, m, now) <==> Total(t.transactions, ExpenseIn(x.userId, m)) > v
  {
  }

  // ---------------------------------------------------------------------
  // get_user_by_id
  // ---------------------------------------------------------------------

  /** A user object built from a row without reading the password back. */
  function Public(row: UserRow): UserState
  {
    UserState(row.userId, row.username, "", row.monthlyBudget)
  }

  /** `get_user_by_id`: the stored id, name and default budget; the password
      is not read back. */
  function UserById(t: Tables, id: string): (r: Option<UserState>)
    ensures r.Some? ==> exists j :: 0 <= j < |t.users| && t.users[j].userId == id && r.value == Public(t.users[j])
    ensures r.None? <==> !t.online || forall j :: 0 <= j < |t.users| ==> t.users[j].userId != id
  {
    if !t.online then None
    else match FindUser(t.users, id)
      case None => None
      case Some(j) => Some(Public(t.users[j]))
  }

  /** A registered user can be looked up by the new id. */
  lemma RegisterThenById(x: UserState, t: Tables, freshId: string, hash: string -> string)
    requires RegisterSpec(x, t, freshId, hash).ok
    ensures UserById(RegisterSpec(x, t, freshId, hash).tables, freshId)
      == Some(UserState(freshId, x.username, "", x.monthlyBudget))
  {
    var t' := RegisterSpec(x, t, freshId, hash).tables;
    assert t'.users[|t.users|].userId == freshId;
    assert FindUser(t'.users, freshId) == Some(|t.users|);
  }

  // ---------------------------------------------------------------------
  // The User object
  // ---------------------------------------------------------------------

  class User {
    var userId: string
    var username: string
    var password: string
    var monthlyBudget: int

    function State(): UserState
      reads this
    {
      UserState(userId, username, password, monthlyBudget)
    }

    constructor (userId: string, username: string, password: string, monthlyBudget: int)
      ensures State() == UserState(userId, username, password, monthlyBudget)
    {
      this.userId := userId;
      this.username := username;
      this.password := password;
      this.monthlyBudget := monthlyBudget;
    }

    method Register(db: Database, freshId: string, hash: string -> string) returns (ok: bool)
      modifies this, db
      ensures var o := RegisterSpec(old(State()), old(db.Snapshot()), freshId, hash);
        ok == o.ok && State() == o.user && db.Snapshot() == o.tables
    {
      if !db.online {
        return false;
      }
      var existing := FindUserByName(db.users, username);
      if existing.Some? {
        return false;
      }
      userId := freshId;
      var hashed := hash(password);
      if UserIdUsed(db.users, userId) {
        return false;
      }
      db.users := db.users + [UserRow(userId, username, hashed, monthlyBudget)];
      return true;
    }

    method Login(db: Database, hash: string -> string) returns (ok: bool)
      modifies this
      ensures var r := LoginSpec(old(State()), db.Snapshot(), hash);
        ok == r.0 && State() == r.1
    {
      if !db.online {
        return false;
      }
      var found := FindUserByName(db.users, username);
      if found.None? {
        return false;
      }
      var row := db.users[found.value];
      if hash(password) != row.password {
        return false;
      }
      userId := row.userId;
      monthlyBudget := row.monthlyBudget;
      return true;
    }

    method SetBudget(db: Database, amount: int) returns (ok: bool)
      modifies this, db
      ensures var o := SetBudgetSpec(old(State()), old(db.Snapshot()), amount);
        ok == o.ok && State() == o.user && db.Snapshot() == o.tables
    {
      monthlyBudget := amount;
      if !db.online {
        return false;
      }
      db.users := SetDefaultBudget(db.users, userId, amount);
      return true;
    }

    /** Reads the database and changes nothing. */
    method CheckOverspending(db: Database, month: string, now: Timestamp) returns (over: bool)
      ensures over == CheckOverspendingSpec(State(), db.Snapshot(), month, now)
    {
      if !db.online {
        return false;
      }
      var m := month;
      if m == "" {
        m := FormatMonth(now.date);
      }
      var totalExpense := Total(db.transactions, ExpenseIn(userId, m));
      var budgetRow := FindBudget(db.budgets, userId, m);
      var limit := monthlyBudget;
      if budgetRow.Some? {
        limit := db.budgets[budgetRow.value].amount;
      }
      return totalExpense > limit;
    }
  }
}
